=== FILE: README.md ===
# MAVProxy console status engine, modelled in Dafny

This project models the telemetry status engine of MAVProxy's console module
(`MAVProxy/modules/mavproxy_console.py`, class `ConsoleModule`). The engine
takes decoded MAVLink messages one at a time. For each one it produces:

- status-field updates (key, text, colour, row);
- spoken announcements;
- vehicle-menu refresh requests;
- at most one outbound `COMMAND_LONG`.

Each part of the engine is a pure function over an immutable state record.
Everything the Python code reads from outside the module is passed in as a
parameter: the clock, the vehicle's cached fields, the links, the settings,
the waypoint store, great-circle distance, terrain elevation, and expression
evaluation.

Modules, one file each:

| module | file | what it covers |
|---|---|---|
| `Base` | base.dfy | `Option`, Python's `int()` on floats |
| `Numerals` | numerals.dfy | `%u` rendering and `int(s)` parsing of integers |
| `Status` | status.dfy | the event vocabulary: `SetStatus`, `Say`, `SayCriticalFailure`, `RefreshVehicleMenu`, `CommandLong` |
| `Mission` | mission.dfy | the estimated-time-remaining walk, speed smoothing, `MISSION_CURRENT` |
| `Registry` | registry.dfy | vehicle and component type labels, the vehicle list, component names |
| `FlightTimer` | flight_timer.dfy | the VFR_HUD-driven flight timer |
| `Health` | health.dfy | SYS_STATUS sensor colours, edge-triggered announcements, the safety flag, the critical-error word and its cooldown |
| `Readouts` | readouts.dfy | radio, GPS, heading, EKF, power, navigation, wind, attitude and parameter readouts |
| `Links` | links.dfy | the primary vehicle's HEARTBEAT: mode, system id, arming, one summary row per link |
| `HighLatency` | high_latency.dfy | HIGH_LATENCY2 unpacking and failure-flag remapping |
| `Probe` | probe.dfy | FLIGHT_INFORMATION support discovery: ageing, throttled requests, acks |
| `UserItems` | user_items.dfy | user-added fields: `DisplayItem`, `console add/remove`, refresh on matching messages |
| `Console` | console.dfy | `mavlink_packet`: dispatch order, early return for other systems, the final probe |

Modelling conventions:

- Floats are `real`, so arithmetic is exact.
- Sensor masks are `bv32`. Power and HIGH_LATENCY2 failure flags are `bv16`.
- A Python exception that escapes `mavlink_packet` is an output with
  `completed == false`. State changes made before the exception are kept,
  and the user-field refresh and the probe are skipped. Only two handlers
  can raise:
  - `MISSION_CURRENT`, when the mission walk fails;
  - `HIGH_LATENCY2`, when there is no terrain elevation.
- Text is exact where the source prints integers (`%u`, `%3u`, `m:ss`).
  Readings the source formats as floats or with unit helpers are carried as
  their raw values (`Reading(prefix, values, suffix)`).

Some behaviour of the code is easy to misread; the model follows the code:

- A system marked as supporting FLIGHT_INFORMATION loses that mark once
  FLIGHT_INFORMATION has been silent for more than 10 s.
  - An ACCEPTED acknowledgement that arrives before any FLIGHT_INFORMATION
    therefore lapses at the very next probe (`Probe.AcceptedWithoutDataLapses`).
- Waypoint lookup is Python list indexing, so a negative `DO_JUMP` target
  counts from the end of the list.
  - The visited set can therefore hold up to 2N indices, and the walk is
    bounded by 2N steps.
  - The walk is bounded by N steps when every jump target is non-negative.
- The safety flag shown as `ARM(SAFE)` is set by SYS_STATUS (motor outputs
  not enabled, `mavproxy_console.py:518-521`). GPS messages do not touch it.

## Model

| member | source | states |
|---|---|---|
| Base.Trunc | MAVProxy/modules/mavproxy_console.py:205 | `int()` of a float truncates toward zero: the result is within 1 of the input, on the zero side, and never larger in magnitude |
| Numerals.NatToString | MAVProxy/modules/mavproxy_console.py:346 | `%u` of a natural number is a non-empty string of decimal digits with no leading zero |
| Numerals.IntToString | MAVProxy/modules/mavproxy_console.py:691 | a formatted integer starts with a minus sign exactly when it is negative |
| Numerals.PadLeft3 | MAVProxy/modules/mavproxy_console.py:377-378 | `%3u` right-aligns: the width is at least three, the digits are the suffix, and everything before them is spaces |
| Numerals.ParseInt | MAVProxy/modules/mavproxy_console.py:116 | `int(s)` succeeds exactly on a non-empty digit string with an optional leading `+` or `-`, and reads the digits' value with that sign |
| Numerals.DigitsValueOfNatToString | MAVProxy/modules/mavproxy_console.py:346 | the digits printed for n have value n (induction on n) |
| Numerals.ParseNatToString | MAVProxy/modules/mavproxy_console.py:346 | reading back a printed natural number gives the number |
| Numerals.ParseIntToString | MAVProxy/modules/mavproxy_console.py:116 | `int()` of any printed integer, negative included, gives the integer back |
| Numerals.NatToStringInjective | MAVProxy/modules/mavproxy_console.py:346 | distinct numbers print differently |
| Mission.Lookup | MAVProxy/modules/mavproxy_console.py:203 | `wp(idx)` returns an item exactly for indices in [-count, count): item idx for a non-negative index, item count+idx for a negative one |
| Mission.Walk | MAVProxy/modules/mavproxy_console.py:199-218 | the walk fails only when it starts below the list or some DO_JUMP targets a negative index |
| Mission.EstimatedTimeRemaining | MAVProxy/modules/mavproxy_console.py:190-219 | the estimate is 0 with no store or when wpnum >= count, and fails only when a DO_JUMP targets a negative index |
| Mission.EstimateTimeRemaining | MAVProxy/modules/mavproxy_console.py:190-219 | the loop computes the walk's estimate; it returns 0 with no store or when wpnum >= count; it processes at most 2·count items, and at most count when all jumps are forward-indexed, whatever the jump cycles |
| Mission.WalkAtLeastAccumulated | MAVProxy/modules/mavproxy_console.py:207-216 | with non-negative leg distances the walk never reduces the distance accumulated so far |
| Mission.EstimateNonNegative | MAVProxy/modules/mavproxy_console.py:219 | `distance / speed` is non-negative for positive speed and non-negative distances |
| Mission.WalkWithoutLegs | MAVProxy/modules/mavproxy_console.py:207-216 | only positioned NAV_WAYPOINT/LOITER_*/LAND/TAKEOFF items add distance: a mission without them accumulates nothing |
| Mission.WalkEndsAtLand | MAVProxy/modules/mavproxy_console.py:217-218 | a positioned LAND adds its leg and ends the walk, whatever follows it |
| Mission.JumpToVisitedEnds | MAVProxy/modules/mavproxy_console.py:199-206 | a DO_JUMP to an item already walked (or to itself) ends the walk with the distance accumulated so far |
| Mission.JumpCycleTerminates | MAVProxy/modules/mavproxy_console.py:199-206 | an example: in a three-item mission whose second item jumps back to the first, the estimate counts only the leg to the first item |
| Mission.SmoothSpeed | MAVProxy/modules/mavproxy_console.py:657-662 | for every estimate and reading: a reading more than 5 away replaces the estimate, a closer one moves it 2% of the way toward the reading, and the result is then floored at 1 (so between the two when both are at least 1) |
| Mission.SmoothSpeedSteady | MAVProxy/modules/mavproxy_console.py:658-662 | a reading equal to the estimate (at least 1) leaves it unchanged |
| Mission.WpMaxText | MAVProxy/modules/mavproxy_console.py:644-651 | empty exactly when there is no mission or it is empty; otherwise a slash and the item count, which reads back |
| Mission.HandleMissionCurrent | MAVProxy/modules/mavproxy_console.py:643-664 | the WP field always comes first; with no position the speed is untouched and nothing else is shown; with a position the speed is smoothed from the airspeed (30 when none); the handler completes exactly when the estimate (at latE7·1e-7, lonE7·1e-7 and the new speed) exists, and then shows it truncated to whole seconds as the ETR clock |
| Mission.MissionCurrentRaisesOnlyOnBackwardJump | MAVProxy/modules/mavproxy_console.py:656-664 | MISSION_CURRENT raises only with a position and a stored mission holding a DO_JUMP to a negative index |
| Registry.VehicleTypeString | MAVProxy/modules/mavproxy_console.py:221-251 | the named type codes map to the vehicle labels and no other code does; Copter and Plane are given exactly by their code sets |
| Registry.ComponentTypeString | MAVProxy/modules/mavproxy_console.py:253-267 | GCS, gimbal, companion-computer and generic components get role labels distinct from every vehicle label; every other code gets the vehicle label |
| Registry.VehicleTypeStringInjectiveOnUnnamed | MAVProxy/modules/mavproxy_console.py:251 | an unnamed code's `UNKNOWN(n)` label is shared with no other code |
| Registry.AddNewVehicle | MAVProxy/modules/mavproxy_console.py:286-293 | a GCS heartbeat changes nothing; any other appends the sysid with its type label, refreshes the menu once, and changes nothing else |
| Registry.SetComponentName | MAVProxy/modules/mavproxy_console.py:314-319 | the first label for a pair sticks, no existing label changes, no other pair gains one, and only a first assignment refreshes the menu |
| Registry.HandleHeartbeatAnysource | MAVProxy/modules/mavproxy_console.py:322-330 | the registry stays duplicate-free; only HEARTBEAT (not HIGH_LATENCY2) records the heartbeat; a new non-GCS sysid is appended once; the pair is labelled on first sight and never relabelled; the number of menu refreshes is exactly the number of first-time events, and every event is a menu refresh |
| Registry.HandleGimbalDeviceInformation | MAVProxy/modules/mavproxy_console.py:334-338 | an unlabelled gimbal is labelled vendor-model with one refresh; a labelled one is left as it is |
| Registry.Run | MAVProxy/modules/mavproxy_console.py:322-330 | any sequence of heartbeats keeps the vehicle list free of duplicates and fully labelled |
| Registry.RunKeepsLabels | MAVProxy/modules/mavproxy_console.py:314-319 | no sequence of heartbeats changes or removes an existing component label |
| Registry.FirstSightingNamesComponent | MAVProxy/modules/mavproxy_console.py:314-330 | over any sequence, a new pair keeps the label from its first heartbeat, whatever types it reports later |
| Registry.GroundStationsNeverListed | MAVProxy/modules/mavproxy_console.py:286-289 | a system that only sends GCS heartbeats never enters the vehicle list |
| FlightTimer.FlightTimeField | MAVProxy/modules/mavproxy_console.py:451-455 | the FlightTime field shows the given duration as a minutes:seconds clock in the default colour, and neither speaks nor refreshes the menu |
| FlightTimer.IsFlying | MAVProxy/modules/mavproxy_console.py:441-445 | a copter flies exactly when armed, anything else exactly when ground speed exceeds 3 |
| FlightTimer.Update | MAVProxy/modules/mavproxy_console.py:446-455 | take-off records the start and shows nothing; airborne and landing samples set the total to t − start and show it, and landing clears in-air; grounded samples change nothing |
| FlightTimer.AirborneDuration | MAVProxy/modules/mavproxy_console.py:449-451 | while airborne the total depends only on the start and the latest sample |
| FlightTimer.FlightDuration | MAVProxy/modules/mavproxy_console.py:446-455 | a take-off, any airborne samples and a landing time the flight as landing minus take-off |
| FlightTimer.HandleVfrHud | MAVProxy/modules/mavproxy_console.py:429-437 | the relative altitude (mm shown in m), airspeed and ground speed come first and the throttle as `Thr n` fourth; the timer is left alone when FLIGHT_INFORMATION support is known, otherwise it takes one step at the message's whole second; exactly the timer step's updates follow the four fields, and none when the timer is superseded |
| Health.SensorColour | MAVProxy/modules/mavproxy_console.py:478-490 | absent is black, disabled grey, unhealthy red, otherwise green, each exactly in its case |
| Health.DisplayColour | MAVProxy/modules/mavproxy_console.py:492-493 | yellow exactly for a green TERR while terrain is pending; otherwise the sensor colour |
| Health.ShownFrom | MAVProxy/modules/mavproxy_console.py:476-477 | the positions of the shown sensors (PRE, PRX and FLO hidden when absent), each once, in increasing order |
| Health.SensorFields | MAVProxy/modules/mavproxy_console.py:476-494 | the i-th field is the field of the i-th shown sensor: one per shown sensor, in table order, and no other |
| Health.HealthAnnouncements | MAVProxy/modules/mavproxy_console.py:495-515 | "RC fail" and "pre-arm fail" exactly on a healthy-to-unhealthy edge of an enabled sensor, "pre-arm good" exactly on the opposite edge; nothing when the health word is unchanged |
| Health.HandleSysStatus | MAVProxy/modules/mavproxy_console.py:461-521 | the sensor fields come first and the edge announcements after them; the stored health becomes the new word; the safety flag is on exactly when motor outputs are not enabled |
| Health.RepeatIsSilent | MAVProxy/modules/mavproxy_console.py:503-516 | the same SYS_STATUS twice in a row announces nothing the second time |
| Health.PrearmScenario | MAVProxy/modules/mavproxy_console.py:506-516 | health good, good, bad, bad, good announces exactly "pre-arm fail" then "pre-arm good" |
| Health.ErrorWord | MAVProxy/modules/mavproxy_console.py:306 | the packed word is zero exactly when both counters are, and each counter can be read back from its half |
| Health.CheckCriticalError | MAVProxy/modules/mavproxy_console.py:295-312 | one announcement exactly when the sender's heartbeat is from ArduPilot, the error word is non-zero and the interval has passed; it records the time, and nothing else does |
| Health.CriticalErrorCooldown | MAVProxy/modules/mavproxy_console.py:309-312 | after an announcement, nothing more is announced within the interval, whatever the errors |
| Readouts.HandleRadioStatus | MAVProxy/modules/mavproxy_console.py:340-346 | the Radio field, red exactly when either end's signal is less than 10 above its noise and black otherwise |
| Readouts.RadioColour | MAVProxy/modules/mavproxy_console.py:342-345 | red exactly when either end's signal is less than 10 above its noise, otherwise black |
| Readouts.RadioColourMonotone | MAVProxy/modules/mavproxy_console.py:342 | more signal at either end never turns a healthy radio red |
| Readouts.GpsFixColour | MAVProxy/modules/mavproxy_console.py:359-362 | green exactly for a 3D fix or better, otherwise red |
| Readouts.GpsFixField | MAVProxy/modules/mavproxy_console.py:348-362 | GPS_RAW_INT updates "GPS" and GPS2_RAW "GPS2", coloured by the fix |
| Readouts.FusedHeading | MAVProxy/modules/mavproxy_console.py:364-372 | VFR_HUD's heading when present, else GLOBAL_POSITION_INT's in degrees, else none, with 65535 meaning none |
| Readouts.FallbackHeadingInRange | MAVProxy/modules/mavproxy_console.py:367-372 | a valid fallback heading is in [0, 360) and the sentinel never yields one |
| Readouts.HeadingField | MAVProxy/modules/mavproxy_console.py:373-379 | the Heading field is a plain `Hdg ` line |
| Readouts.HandleGpsRaw | MAVProxy/modules/mavproxy_console.py:348-379 | both GPS messages update the fix field; only GPS_RAW_INT also updates the heading |
| Readouts.Highest | MAVProxy/modules/mavproxy_console.py:527-535 | the maximum of the variances and 0 |
| Readouts.EkfColour | MAVProxy/modules/mavproxy_console.py:533-541 | red exactly when some variance reaches 1, orange when the largest is in [0.5, 1), green when all are below 0.5 |
| Readouts.HandleEkfStatusReport | MAVProxy/modules/mavproxy_console.py:526-542 | the EKF field is red exactly when one of the five variances reaches 1, green exactly when all are below 0.5, otherwise orange |
| Readouts.VccColour | MAVProxy/modules/mavproxy_console.py:545-548 | green exactly for 4600..5300 mV inclusive, otherwise red |
| Readouts.PowerLetters | MAVProxy/modules/mavproxy_console.py:554-565 | the string starts with `PWR:` and determines exactly the five flags it shows: reading it back gives the flags masked to those bits |
| Readouts.ParseLetters | MAVProxy/modules/mavproxy_console.py:554-564 | reading back a letter string built from five yes/no choices gives exactly the flag bits of the choices that are yes |
| Readouts.HandlePowerStatus | MAVProxy/modules/mavproxy_console.py:544-566 | Vcc is coloured by range; PWR shows the letters, red exactly when the power flags changed |
| Readouts.SignLabel | MAVProxy/modules/mavproxy_console.py:669-676 | "(L)" exactly for a positive error, "(H)" otherwise |
| Readouts.AltErrorShown | MAVProxy/modules/mavproxy_console.py:677-681 | "NaN" exactly when the altitude error is NaN, otherwise the value with its sign label |
| Readouts.HandleNavControllerOutput | MAVProxy/modules/mavproxy_console.py:666-682 | distance to the waypoint, bearing, then the altitude-error field as above; the airspeed error is shown in m/s (cm/s over 100); the airspeed error is labelled low exactly when it is positive |
| Readouts.HandleWind | MAVProxy/modules/mavproxy_console.py:523-524 | the Wind field shows the direction, then the speed |
| Readouts.HandleAttitude | MAVProxy/modules/mavproxy_console.py:457-459 | the Roll field shows the roll and the Pitch field the pitch |
| Readouts.HandleParamValue | MAVProxy/modules/mavproxy_console.py:684-686 | the Params field reads `Param ` received `/` total, and both numbers read back as the counts |
| Links.ReceivedPercent | MAVProxy/modules/mavproxy_console.py:606-608 | 100 with nothing counted, otherwise the share received, always within [0, 100] |
| Links.FullReceptionIffNoLoss | MAVProxy/modules/mavproxy_console.py:606-608 | 100% exactly when nothing was lost |
| Links.ReceivedPercentAntitone | MAVProxy/modules/mavproxy_console.py:608 | more losses with the same count never raise the percentage |
| Links.SigningNotes | MAVProxy/modules/mavproxy_console.py:614-632 | no notes without signing state or signed traffic; "!KEY" exactly without a key; "!SIGNING" exactly with a key but no outgoing signing; no notes exactly when all is well |
| Links.LinkDelay | MAVProxy/modules/mavproxy_console.py:595-599 | zero unless delay checking is on, and zero for a pair nobody has heard from |
| Links.LinkColour | MAVProxy/modules/mavproxy_console.py:601-639 | red exactly for a link in error; orange exactly when signing needs attention or the delay exceeds 1 s; dark green otherwise |
| Links.LinkSummary | MAVProxy/modules/mavproxy_console.py:600-641 | row 1, keyed by link number, coloured as above; a working link shows its percentage and signing notes |
| Links.ClearLinks | MAVProxy/modules/mavproxy_console.py:590-593 | blanks exactly the rows Link1..Linkn on row 1 |
| Links.ArmField | MAVProxy/modules/mavproxy_console.py:581-589 | the ARM field is green exactly when armed and red exactly when not; it reads `ARM(SAFE)` exactly when the safety switch is on and `ARM` exactly when it is off |
| Links.ModeText | MAVProxy/modules/mavproxy_console.py:575-578 | the mode alone when no vehicle name is set, otherwise the name, a colon and the mode |
| Links.ModeTextShape | MAVProxy/modules/mavproxy_console.py:575-578 | the flight mode always ends the text, and a set vehicle name and a colon begin it |
| Links.HeartbeatFields | MAVProxy/modules/mavproxy_console.py:575-589 | Mode (vehicle name and flight mode) first, SysID second exactly when more than one vehicle is known, ARM last |
| Links.HandleHeartbeat | MAVProxy/modules/mavproxy_console.py:570-641 | by position: the heartbeat fields, then the rows Link1..Linkn of the old layout blanked exactly when the link count changed, then each link's summary in link order; the new layout size is the link count |
| Links.RowsAfterFieldsAreLinkRows | MAVProxy/modules/mavproxy_console.py:590-641 | every update after the heartbeat fields is a link row |
| Links.SysIdShownIffSeveralVehicles | MAVProxy/modules/mavproxy_console.py:579-580 | for any layout and any sending component, the SysID field is updated exactly when more than one vehicle is known |
| Links.LayoutSettles | MAVProxy/modules/mavproxy_console.py:590-593 | a second heartbeat over the same links blanks nothing |
| Probe.Supersedes | MAVProxy/modules/mavproxy_console.py:434-436 | VFR_HUD stops driving the timer exactly when the system's record says FLIGHT_INFORMATION is supported; never for a system without a record |
| Probe.Aged | MAVProxy/modules/mavproxy_console.py:899-901 | a supported record stays supported exactly while FLIGHT_INFORMATION was seen within 10 s; unsupported stays unsupported; nothing else changes |
| Probe.ProbeFor | MAVProxy/modules/mavproxy_console.py:889-924 | only the prober's record changes; a request (SET_MESSAGE_INTERVAL for message 264 at 500000 µs) goes out exactly when support is unknown after ageing and no request was sent in the last 10 s; its time is recorded only then |
| Probe.HandleCommandAck | MAVProxy/modules/mavproxy_console.py:755-769 | only an ack of SET_MESSAGE_INTERVAL from a known system counts: ACCEPTED marks support, DENIED or FAILED marks no support, anything else changes nothing |
| Probe.ReportedFlightTime | MAVProxy/modules/mavproxy_console.py:752 | the whole seconds shown bracket boot-time-ms minus take-off-µs |
| Probe.HandleFlightInformation | MAVProxy/modules/mavproxy_console.py:741-753 | records the time seen; shows the flight time exactly when the take-off stamp is non-zero, so a landed report keeps the last time shown |
| Probe.UnsupportedIsPermanent | MAVProxy/modules/mavproxy_console.py:899-905 | a system that refused is never asked again and its record never changes |
| Probe.SupportLapses | MAVProxy/modules/mavproxy_console.py:899-911 | support lapses after 10 s of silence and the system is asked again |
| Probe.AcceptedWithoutDataLapses | MAVProxy/modules/mavproxy_console.py:766-767 | an ACCEPTED ack before any FLIGHT_INFORMATION marks support, which the next probe removes |
| Probe.SupportHolds | MAVProxy/modules/mavproxy_console.py:899-905 | support heard from within 10 s holds and sends nothing |
| Probe.RunRecordedAndSpaced | MAVProxy/modules/mavproxy_console.py:907-911 | over any run of probes, FLIGHT_INFORMATION and acks, every request is recorded and requests to one system are 10 s apart |
| Probe.RequestsAreSpaced | MAVProxy/modules/mavproxy_console.py:907-911 | starting from an empty table, no system is asked twice within 10 s |
| HighLatency.GroupColour | MAVProxy/modules/mavproxy_console.py:716-720 | red exactly when every bit of the group is set, otherwise green |
| HighLatency.GroupFields | MAVProxy/modules/mavproxy_console.py:706-721 | one field per remapped sensor group, in order, coloured by the group |
| HighLatency.InertialNeedsBoth | MAVProxy/modules/mavproxy_console.py:709 | INS is red exactly when both the accelerometer and the gyro bits are set |
| HighLatency.ErrorLabelAsWritten | MAVProxy/modules/mavproxy_console.py:692-696 | as written, the error label is "(L)" whatever the error |
| HighLatency.ErrorLabelAsWrittenIgnoresSign | MAVProxy/modules/mavproxy_console.py:692-693 | as written, a vehicle 5 m above target is labelled "(L)" where NAV_CONTROLLER_OUTPUT says "(H)" |
| HighLatency.ErrorLabel | MAVProxy/modules/mavproxy_console.py:692-696 | corrected: "(L)" exactly for a positive error, "(H)" otherwise |
| HighLatency.BatteryFailedAsWritten | MAVProxy/modules/mavproxy_console.py:735 | as written, the battery test is false for every flag word |
| HighLatency.BatteryCheckAsWrittenNeverFires | MAVProxy/modules/mavproxy_console.py:735 | as written, a failed battery (flags 0x0080) is not reported, though the intended test reports it |
| HighLatency.BatteryFailed | MAVProxy/modules/mavproxy_console.py:735-739 | corrected: the battery has failed exactly when its failure bit is set |
| HighLatency.Label | MAVProxy/modules/mavproxy_console.py:692-696 | as written "(L)" always; corrected "(L)" exactly for a positive error |
| HighLatency.BatteryReported | MAVProxy/modules/mavproxy_console.py:735 | as written never; corrected exactly when the battery bit is set |
| HighLatency.Prelude | MAVProxy/modules/mavproxy_console.py:689-698 | five status updates: WPDist shows the target distance × 10, WPBearing the target heading × 2 − 180, AltError the altitude error with the variant's label, AspdError the airspeed error / 5 with the variant's label, and Wind the wind heading × 2 − 180 over the wind speed / 5 |
| HighLatency.PreludeFillsNavAndWindFields | MAVProxy/modules/mavproxy_console.py:666-698 | the first four HIGH_LATENCY2 fields update the same keys NAV_CONTROLLER_OUTPUT does, in the same order, and the fifth the key WIND updates |
| HighLatency.Rest | MAVProxy/modules/mavproxy_console.py:700-739 | all status updates: AirSpeed and GPSSpeed (each / 5), `Thr n`, `Hdg (heading × 2)/---`, `WP n/--`, then exactly the remapped sensor-group fields in order, then Fence `FEN` red exactly when the geofence failure holds, GPS red `GPS FAILED` exactly when its bit is set, and PWR red exactly when the variant's battery test fires |
| HighLatency.FlagsColourTheGroups | MAVProxy/modules/mavproxy_console.py:706-731 | after the five leading fields each sensor group's field carries the group's key and is red exactly when all its failure bits are set; Fence is red exactly when the geofence bit is set and GPS exactly when the GPS bit is set, in either variant |
| HighLatency.GroupsAreTheFirstSensors | MAVProxy/modules/mavproxy_console.py:707-712 | the HIGH_LATENCY2 failure groups use the keys of the first six SYS_STATUS sensor fields (listed at :463-468), in the same order |
| HighLatency.Unpack | MAVProxy/modules/mavproxy_console.py:688-739 | completes exactly when an elevation is available; otherwise only the fields before the altitude; when complete, the prelude, the Alt field (altitude − elevation), then the rest |
| HighLatency.HandleHighLatency2 | MAVProxy/modules/mavproxy_console.py:688-739 | the handler as written: completes exactly when an elevation is available; both error labels read "(L)"; a completed message always ends with a green `PWR OK` |
| HighLatency.HandleHighLatency2Corrected | MAVProxy/modules/mavproxy_console.py:688-739 | the corrected handler: the labels read "(L)" exactly when the target is above the value, and PWR is red `PWR FAILED` exactly when the battery bit is set |
| HighLatency.HighLatencyIsSilent | MAVProxy/modules/mavproxy_console.py:688-739 | HIGH_LATENCY2 announces nothing, as written or corrected |
| HighLatency.AltErrorAgreesWithNavController | MAVProxy/modules/mavproxy_console.py:692-693 | the corrected handler labels the altitude error as NAV_CONTROLLER_OUTPUT labels it |
| HighLatency.AltErrorAsWrittenDisagrees | MAVProxy/modules/mavproxy_console.py:692-693 | as written, a vehicle above its target altitude gets a different label from NAV_CONTROLLER_OUTPUT's |
| UserItems.StripQuotes | MAVProxy/modules/mavproxy_console.py:23-24 | the result has no quote at either end, is a contiguous piece of the input, and everything removed before and after it is quotes |
| UserItems.StripQuotesIsTheFramedPiece | MAVProxy/modules/mavproxy_console.py:23-24 | the result is the only such piece: any piece with no quote at its ends and only quotes around it is the result |
| UserItems.StripQuotesIdempotent | MAVProxy/modules/mavproxy_console.py:23-24 | stripping twice equals stripping once |
| UserItems.StripQuotesKeepsUnquoted | MAVProxy/modules/mavproxy_console.py:23-24 | a string with no quote at either end is kept as is |
| UserItems.Scan | MAVProxy/modules/mavproxy_console.py:25-26 | every token found matches `[A-Z_][A-Z0-9_]+` in full and occurs in the expression |
| UserItems.ScanName | MAVProxy/modules/mavproxy_console.py:25-26 | a whole name is found as exactly itself |
| UserItems.ScanSeparator | MAVProxy/modules/mavproxy_console.py:25-26 | a non-name character splits the scan: the tokens of a+c+b are those of a followed by those of b |
| UserItems.FieldAccessNamesType | MAVProxy/modules/mavproxy_console.py:26 | in `TYPE.field…` the message type is the first token found |
| UserItems.MakeItem | MAVProxy/modules/mavproxy_console.py:21-27 | format and expression are quote-stripped, the row is kept, and the watched types are exactly the tokens of the expression |
| UserItems.Put | MAVProxy/modules/mavproxy_console.py:119 | the id maps to the new item and every other id keeps its item |
| UserItems.PutOrder | MAVProxy/modules/mavproxy_console.py:119 | ids stay unique; an existing id keeps its place; a new id goes last |
| UserItems.Remove | MAVProxy/modules/mavproxy_console.py:129-131 | the id is gone, others keep their items, ids stay unique, and an absent id changes nothing |
| UserItems.RemoveAfterPut | MAVProxy/modules/mavproxy_console.py:119-131 | adding then removing an id equals removing it alone |
| UserItems.ConsoleCommand | MAVProxy/modules/mavproxy_console.py:105-137 | usage on missing arguments or an unknown subcommand; `add` stores the item on the given or default row (4) and blanks its field, and raises on a non-integer row; `remove` drops the id; `list`, `menu` and `set` leave the fields alone |
| UserItems.AddThenRemove | MAVProxy/modules/mavproxy_console.py:111-131 | `console add` then `console remove` of an id equals `console remove` alone |
| UserItems.AddOnRow | MAVProxy/modules/mavproxy_console.py:115-120 | a row given in decimal is the row the field gets |
| UserItems.Refresh | MAVProxy/modules/mavproxy_console.py:778-799 | a field is set to its formatted value on its row, or to "????" (twice) when evaluation fails |
| UserItems.UpdateUserAddedKeys | MAVProxy/modules/mavproxy_console.py:773-799 | exactly the fields whose expression names the message type are updated, each event being one of that field's own refresh events, with no announcements |
| UserItems.RefreshInItemOrder | MAVProxy/modules/mavproxy_console.py:775 | with distinct ids, the refreshes follow the order in which the fields were added |
| UserItems.UnwatchedTypeIsIgnored | MAVProxy/modules/mavproxy_console.py:775-776 | a message type no field names updates nothing |
| Console.Registration | MAVProxy/modules/mavproxy_console.py:810-814 | HEARTBEAT and HIGH_LATENCY2 go to the heartbeat registrar (only HEARTBEAT stored), gimbal information to the component labeller, anything else changes nothing |
| Console.Anysource | MAVProxy/modules/mavproxy_console.py:810-825 | the any-source steps change only the registry, the parameter stamp and the error-announce time; in order: the registrar's events and registry, one menu refresh exactly when the parameter stamp changed, the radio field exactly for RADIO/RADIO_STATUS, and for SYS_STATUS the critical-error check's announcement and time, using the registry as just updated |
| Console.PrimaryFields | MAVProxy/modules/mavproxy_console.py:833-864 | at most one handler of the first chain runs: each piece of state changes only for its own message type, and only MISSION_CURRENT can raise |
| Console.ReadoutRoutes | MAVProxy/modules/mavproxy_console.py:833-864 | GPS_RAW_INT/GPS2_RAW, ATTITUDE, WIND, EKF_STATUS_REPORT, POWER_STATUS, NAV_CONTROLLER_OUTPUT and PARAM_VALUE each produce exactly their own handler's fields and leave the state alone; RADIO, gimbal information, FLIGHT_INFORMATION, COMMAND_ACK and unhandled types produce nothing in this chain |
| Console.SensingRoutes | MAVProxy/modules/mavproxy_console.py:836-843 | VFR_HUD produces the flight timer's events and state, and SYS_STATUS the health handler's |
| Console.ProgressRoutes | MAVProxy/modules/mavproxy_console.py:854-858 | HEARTBEAT and HIGH_LATENCY2 both produce the heartbeat handler's fields and link-row count; MISSION_CURRENT produces the mission handler's fields, speed and completion |
| Console.SecondaryFields | MAVProxy/modules/mavproxy_console.py:866-874 | only the FLIGHT_INFORMATION table changes; HIGH_LATENCY2 completes exactly when an elevation is available |
| Console.SecondaryRoutes | MAVProxy/modules/mavproxy_console.py:866-874 | HIGH_LATENCY2 produces the unpacked HIGH_LATENCY2 fields; FLIGHT_INFORMATION produces the flight-information handler's events and table; COMMAND_ACK produces no events and the acknowledgement's table; every other type passes through unchanged |
| Console.Finish | MAVProxy/modules/mavproxy_console.py:876-880 | the user fields for the message type, then the probe's command |
| Console.MavlinkPacket | MAVProxy/modules/mavproxy_console.py:801-880 | a dead console changes nothing; the any-source steps always run first and their registry stands; a message from another system stops after them; a completed message from the primary vehicle ends with the user-field refreshes for its type; any command sent is the probe's request to the sender, only for the primary vehicle and only after a completed message; user fields are unchanged |
| Console.PrimaryEvents | MAVProxy/modules/mavproxy_console.py:827-880 | for the primary vehicle the events are the any-source events, then the first chain's, then (unless it raised) the second chain's, then (unless that raised) the user fields; the message completes exactly when neither chain raised |
| Console.TypeNameDistinguishesHandled | MAVProxy/modules/mavproxy_console.py:808 | two handled messages with the same type name are of the same kind, with the same RADIO/RADIO_STATUS and GPS_RAW_INT/GPS2_RAW flag |
| Console.TypeName | MAVProxy/modules/mavproxy_console.py:808 | every handled message has one of the handled MAVLink names; RADIO_STATUS and GPS2_RAW are told from RADIO and GPS_RAW_INT; any other message has its own name |
| Console.OtherSystemsTouchOnlyTheRegistry | MAVProxy/modules/mavproxy_console.py:827-830 | a message from another system completes, sends nothing, and leaves the primary vehicle's state alone |
| Console.PrimaryMessagesProbe | MAVProxy/modules/mavproxy_console.py:876-880 | a completed message from the primary vehicle sends a request exactly when the probe finds one due |
| Console.RaisingSkipsTheProbe | MAVProxy/modules/mavproxy_console.py:876-880 | a message whose handler raised sends nothing and leaves the probe table as it was |
| Console.OnlyTwoHandlersRaise | MAVProxy/modules/mavproxy_console.py:801-880 | only MISSION_CURRENT, or HIGH_LATENCY2 without elevation, can stop a message early |
| Console.HighLatencyIsAlsoAHeartbeat | MAVProxy/modules/mavproxy_console.py:854-868 | HIGH_LATENCY2 from the primary vehicle updates the Mode field as a heartbeat would, and when completed also the AltError and Alt fields |
| Console.FlightInformationSupersedesTimer | MAVProxy/modules/mavproxy_console.py:434-437 | VFR_HUD leaves the local timer alone for a system known to send FLIGHT_INFORMATION |

## Left out

- Menus: `update_vehicle_menu`, `add_menu`, `cmd_menu*`, `remove_menu`, `menu_callback`, `unload` and the menu set-up in `__init__` are window plumbing. A menu rebuild is modelled only as the `RefreshVehicleMenu` event.
- `idle_task` and replacing a closed console with a text console: these are process management. A dead console is modelled as `consoleAlive == false`, which makes the message change nothing.
- `console list` printing and the debug traceback printing in `update_user_added_keys` are output only; `list` is modelled as changing nothing.
- `console menu` and `console set` are handed to other code and change nothing here.
- The terrain/AGL block and the GPS altitude read in `handle_vfr_hud` (:384-428) depend on an elevation model and floating-point geometry.
- The terrain elevation under a HIGH_LATENCY2 position is a parameter. With no elevation the handler raises, and that is modelled.
- `mp_util.gps_distance` is the uninterpreted parameter `dist`. Its non-negativity is assumed only where a lemma says so.
- `mavutil.evaluate_expression` and `format % value` are the parameter `render`. `None` stands for any exception.
- `link_label`, `message_is_from_primary_vehicle`, `master.field`, `motors_armed`, the `wp`, `param` and `terrain` modules, and the settings are inputs. They come from outside this class.
- `time.time()`, `time.localtime` and `mktime` are parameters. The VFR_HUD timer uses the whole second of the message time, ignoring time zones and daylight saving.
- Float text formatting (`%.2f`, `height_string`, `speed_string`, `dist_string`, degrees in `handle_attitude`, `%u` of a float wind direction) is not modelled. The raw values are carried in `Reading`.
- Numerals.ParseInt: accepts only an optional sign and ASCII digits. Python's `int()` also accepts surrounding whitespace, underscores and non-ASCII digits.
- Readouts.HandleNavControllerOutput: NaN is modelled only for the altitude error. A NaN airspeed error compares false and is labelled "(H)", as any non-positive value is.
- Readouts.HandleWind: the contract states the values shown, not their text. The source prints the direction with `%u` and the speed with `speed_string`.
- Readouts.HandleAttitude: the contract states the values in radians. The source prints them as whole degrees.
- Readouts.GpsFixField: the contract states the key and colour only. The `GPS: OKn (sats)` text is given by the body.
- Readouts.HeadingField: the contract states the field and its `Hdg ` prefix only. The padded numbers are given by `FusedHeading` and `PadLeft3` in the body.
- FlightTimer.FlightTimeField: the contract states the duration carried by the clock, not its `%u:%02u` text.
- Links.LinkDelay: the contract states only when the delay is zero. The non-zero difference of timestamps is given by the body.
- Mission.EstimateTimeRemaining: the step bound proved is 2·count in general. It is count only when every DO_JUMP target is non-negative, because negative targets index from the end of the list.
- Health.ErrorWord: uses `count1 + 65536·count2`, which equals the source's `count1 | count2 << 16` for 16-bit counters. The announcement carries the number, not its `0x%x` text.
- The `FlightInformation` record's `sysid` field is the key of the table and is not stored again.

## Findings

| source | as written | input that shows it | evidently intended | confidence | as-written member | corrected member |
|---|---|---|---|---|---|---|
| MAVProxy/modules/mavproxy_console.py:693 | both branches of the altitude-error label give "(L)" (the airspeed label at :696 is the same) | target altitude 95, altitude 100: error −5 is labelled "(L)" | "(H)" for a non-positive error, as NAV_CONTROLLER_OUTPUT does at :669-672 | not executed | HighLatency.ErrorLabelAsWrittenIgnoresSign | HighLatency.HandleHighLatency2Corrected |
| MAVProxy/modules/mavproxy_console.py:735 | `(flags & HL_FAILURE_FLAG_GPS) == HL_FAILURE_FLAG_BATTERY` | failure flags 0x0080 (battery failed): PWR shows "PWR OK" | the battery bit tested against itself | not executed | HighLatency.BatteryCheckAsWrittenNeverFires | HighLatency.HandleHighLatency2Corrected |

The dispatch (`Console.SecondaryFields`) models the program as written through `HighLatency.HandleHighLatency2`. `HighLatency.HandleHighLatency2Corrected` is the handler with both corrections; `HighLatency.AltErrorAgreesWithNavController` and `HighLatency.HandleHighLatency2Corrected` state the intended behaviour for it.

=== FILE: base.dfy ===
/** Small shared vocabulary: an optional value and the numeric helpers the
    console uses on readings (absolute value, maximum, Python's `int()`). */
module Base {

  /** A value that may be missing, as Python's `None` or a missing dict key. */
  datatype Option<+T> = None | Some(value: T) {

    /** The value, or `default` when there is none (Python's `dict.get(k, default)`). */
    function GetOr(default: T): T {
      match this
      case Some(v) => v
      case None => default
    }
  }

  function Abs(x: real): real {
    if x < 0.0 then -x else x
  }

  function Max(a: real, b: real): real {
    if a < b then b else a
  }

  /** Python's `int()` on a float: truncation toward zero. */
  function Trunc(x: real): (r: int)
    ensures 0.0 <= x ==> r as real <= x < r as real + 1.0
    ensures x < 0.0 ==> r as real - 1.0 < x <= r as real
    ensures Abs(r as real) <= Abs(x)
  {
    if 0.0 <= x then x.Floor else -((-x).Floor)
  }
}

=== FILE: console.dfy ===
/** The telemetry entry point (mavproxy_console.py, `mavlink_packet`): one
    decoded MAVLink message in, status updates, announcements, menu refresh
    requests and at most one outbound command out. Everything the engine
    reads from outside itself (the clock, the vehicle's cached fields, the
    links, the settings, other modules) arrives in an `Env`. */
module Console {
  import opened Base
  import opened Status
  import Registry
  import Health
  import Readouts
  import Links
  import Mission
  import FlightTimer
  import HighLatency
  import Probe
  import UserItems

  /** The messages the engine decodes; `Other` stands for every other type,
      by its MAVLink name. */
  datatype Msg =
    | HeartbeatMsg(hb: Registry.Heartbeat)
    | HighLatency2Msg(hl: Registry.Heartbeat, body: HighLatency.HighLatency2)
    | GimbalDeviceInformationMsg(vendor: string, model: string)
    | RadioMsg(radio: Readouts.Radio, isRadioStatus: bool)
    | SysStatusMsg(status: Health.SysStatus)
    | GpsRawMsg(gps: Readouts.GpsRaw)
    | VfrHudMsg(vfr: FlightTimer.VfrHud)
    | AttitudeMsg(attitude: Readouts.Attitude)
    | WindMsg(wind: Readouts.Wind)
    | EkfStatusReportMsg(ekf: Readouts.EkfStatusReport)
    | PowerStatusMsg(power: Readouts.PowerStatus)
    | MissionCurrentMsg(seqNum: nat)
    | NavControllerOutputMsg(nav: Readouts.NavControllerOutput)
    | ParamValueMsg
    | FlightInformationMsg(timeBootMs: nat, takeoffUs: nat)
    | CommandAckMsg(command: nat, result: nat)
    | Other(name: string)

  /** The type names the engine dispatches on. */
  const HandledTypes: set<string> := {
    "HEARTBEAT", "HIGH_LATENCY2", "GIMBAL_DEVICE_INFORMATION", "RADIO", "RADIO_STATUS", "SYS_STATUS",
    "GPS_RAW_INT", "GPS2_RAW", "VFR_HUD", "ATTITUDE", "WIND", "EKF_STATUS_REPORT", "POWER_STATUS",
    "MISSION_CURRENT", "NAV_CONTROLLER_OUTPUT", "PARAM_VALUE", "FLIGHT_INFORMATION", "COMMAND_ACK"}

  /** `msg.get_type()`: every handled message carries one of the handled
      names, and any other message its own. */
  function TypeName(m: Msg): (r: string)
    ensures !m.Other? ==> r in HandledTypes
    ensures m.Other? ==> r == m.name
    ensures m.RadioMsg? ==> (r == "RADIO_STATUS" <==> m.isRadioStatus)
    ensures m.GpsRawMsg? ==> (r == "GPS2_RAW" <==> m.gps.second)
  {
    match m
    case HeartbeatMsg(_) => "HEARTBEAT"
    case HighLatency2Msg(_, _) => "HIGH_LATENCY2"
    case GimbalDeviceInformationMsg(_, _) => "GIMBAL_DEVICE_INFORMATION"
    case RadioMsg(_, isRadioStatus) => if isRadioStatus then "RADIO_STATUS" else "RADIO"
    case SysStatusMsg(_) => "SYS_STATUS"
    case GpsRawMsg(g) => if g.second then "GPS2_RAW" else "GPS_RAW_INT"
    case VfrHudMsg(_) => "VFR_HUD"
    case AttitudeMsg(_) => "ATTITUDE"
    case WindMsg(_) => "WIND"
    case EkfStatusReportMsg(_) => "EKF_STATUS_REPORT"
    case PowerStatusMsg(_) => "POWER_STATUS"
    case MissionCurrentMsg(_) => "MISSION_CURRENT"
    case NavControllerOutputMsg(_) => "NAV_CONTROLLER_OUTPUT"
    case ParamValueMsg => "PARAM_VALUE"
    case FlightInformationMsg(_, _) => "FLIGHT_INFORMATION"
    case CommandAckMsg(_, _) => "COMMAND_ACK"
    case Other(name) => name
  }

  /** The type name tells the handled messages apart: two handled messages
      with the same name are the same kind of message, down to the
      RADIO/RADIO_STATUS and GPS_RAW_INT/GPS2_RAW distinction. */
  lemma TypeNameDistinguishesHandled(a: Msg, b: Msg)
    requires !a.Other? && !b.Other? && TypeName(a) == TypeName(b)
    ensures a.HeartbeatMsg? == b.HeartbeatMsg? && a.HighLatency2Msg? == b.HighLatency2Msg?
    ensures a.GimbalDeviceInformationMsg? == b.GimbalDeviceInformationMsg? && a.SysStatusMsg? == b.SysStatusMsg?
    ensures a.RadioMsg? == b.RadioMsg? && (a.RadioMsg? ==> a.isRadioStatus == b.isRadioStatus)
    ensures a.GpsRawMsg? == b.GpsRawMsg? && (a.GpsRawMsg? ==> a.gps.second == b.gps.second)
    ensures a.VfrHudMsg? == b.VfrHudMsg? && a.AttitudeMsg? == b.AttitudeMsg? && a.WindMsg? == b.WindMsg?
    ensures a.EkfStatusReportMsg? == b.EkfStatusReportMsg? && a.PowerStatusMsg? == b.PowerStatusMsg?
    ensures a.MissionCurrentMsg? == b.MissionCurrentMsg? && a.NavControllerOutputMsg? == b.NavControllerOutputMsg?
    ensures a.ParamValueMsg? == b.ParamValueMsg? && a.FlightInformationMsg? == b.FlightInformationMsg?
    ensures a.CommandAckMsg? == b.CommandAckMsg?
  {
  }

  datatype Packet = Packet(sysid: nat, compid: nat, msg: Msg)

  /** The engine's own state between messages. */
  datatype Engine = Engine(
    registry: Registry.Registry,
    lastParamTimestamp: Option<real>,
    health: Health.HealthState,
    lastErrorAnnounce: real,
    timer: FlightTimer.Timer,
    speed: real,
    maxLinkNum: nat,
    flightInfo: Probe.Table,
    userItems: UserItems.Items)

  const Initial := Engine(Registry.Empty, None, Health.InitialHealth, 0.0, FlightTimer.Initial, 0.0, 0, map[], [])

  /** The last GLOBAL_POSITION_INT of the primary vehicle, zeros when none. */
  datatype Position = Position(latE7: int, lonE7: int, relAltMm: int, hdg: Option<nat>)

  /** What the engine reads from outside for one message. */
  datatype Env = Env(
    consoleAlive: bool,            // the console window exists and is open
    now: real,                     // wall-clock seconds
    fromPrimary: bool,             // the message comes from the selected vehicle
    paramTimestamp: real,          // the parameter module's new-component stamp
    paramCounts: (nat, nat),       // parameters received and expected
    errorWarnInterval: real,       // seconds between critical-failure announcements
    terrainPending: int,           // terrain tiles still loading
    mission: Option<seq<Mission.Waypoint>>,
    dist: Mission.Distance,
    position: Position,
    vfrHeading: Option<int>,       // last VFR_HUD heading
    vfrAirspeed: Option<real>,     // last VFR_HUD airspeed
    isCopter: bool,
    armed: bool,
    flightMode: string,
    vehicleName: string,
    checkDelay: bool,
    statusMsec: map<(nat, nat), int>,
    links: seq<Links.Link>,
    elevation: Option<real>,       // terrain height under a HIGH_LATENCY2 position
    render: UserItems.DisplayItem -> Option<string>)

  /** The result of one message: the new state, what was emitted, the
      command sent (if any), and `completed` false when a handler raised and
      the rest of the message was skipped. */
  datatype Output = Output(state: Engine, events: seq<Event>, command: Option<Command>, completed: bool)

  predicate Valid(st: Engine) {
    Registry.Valid(st.registry) && UserItems.UniqueIds(st.userItems)
  }

  // ---------------------------------------------------------------- stages

  /** Vehicle and component registration: HEARTBEAT and HIGH_LATENCY2 go to
      the heartbeat registrar, gimbal information to the component labeller,
      and every other message leaves the registry as it is. */
  function Registration(reg: Registry.Registry, p: Packet): (r: Registry.Registered)
    requires Registry.Valid(reg)
    ensures Registry.Valid(r.reg)
    ensures p.msg.HeartbeatMsg? ==> r == Registry.HandleHeartbeatAnysource(reg, p.sysid, p.compid, true, p.msg.hb)
    ensures p.msg.HighLatency2Msg? ==> r == Registry.HandleHeartbeatAnysource(reg, p.sysid, p.compid, false, p.msg.hl)
    ensures p.msg.GimbalDeviceInformationMsg? ==>
              r == Registry.HandleGimbalDeviceInformation(reg, p.sysid, p.compid, p.msg.vendor, p.msg.model)
    ensures !p.msg.HeartbeatMsg? && !p.msg.HighLatency2Msg? && !p.msg.GimbalDeviceInformationMsg? ==>
              r == Registry.Registered(reg, [])
  {
    match p.msg
    case HeartbeatMsg(hb) => Registry.HandleHeartbeatAnysource(reg, p.sysid, p.compid, true, hb)
    case HighLatency2Msg(hb, _) => Registry.HandleHeartbeatAnysource(reg, p.sysid, p.compid, false, hb)
    case GimbalDeviceInformationMsg(vendor, model) =>
      Registry.HandleGimbalDeviceInformation(reg, p.sysid, p.compid, vendor, model)
    case _ => Registry.Registered(reg, [])
  }

  /** The autopilot of the last HEARTBEAT heard from (sysid, compid), if any. */
  function Autopilot(reg: Registry.Registry, sysid: nat, compid: nat): (r: Option<nat>)
    ensures r.Some? <==> (sysid, compid) in reg.heartbeats
  {
    if (sysid, compid) in reg.heartbeats then Some(reg.heartbeats[(sysid, compid)].autopilot) else None
  }

  /** The critical-error check a SYS_STATUS from any system runs. */
  function ErrorCheck(st: Engine, reg: Registry.Registry, env: Env, p: Packet): Health.Announced
    requires p.msg.SysStatusMsg?
  {
    Health.CheckCriticalError(st.lastErrorAnnounce, Autopilot(reg, p.sysid, p.compid), p.sysid, p.compid,
                              p.msg.status, env.now, env.errorWarnInterval)
  }

  /** The handlers that run for messages from any system, in order:
      vehicle and component registration, one menu refresh when the
      parameter module's component stamp changed, the radio field for
      RADIO/RADIO_STATUS, and the critical-error check for SYS_STATUS. */
  function Anysource(st: Engine, env: Env, p: Packet): (r: Output)
    requires Valid(st)
    ensures Valid(r.state) && r.completed && r.command.None?
    ensures r.state == st.(registry := r.state.registry, lastParamTimestamp := Some(env.paramTimestamp),
                           lastErrorAnnounce := r.state.lastErrorAnnounce)
    ensures !p.msg.SysStatusMsg? ==> r.state.lastErrorAnnounce == st.lastErrorAnnounce
    ensures !p.msg.HeartbeatMsg? && !p.msg.HighLatency2Msg? && !p.msg.GimbalDeviceInformationMsg? ==>
      r.state.registry == st.registry
    ensures var g := Registration(st.registry, p);
            r.state.registry == g.reg && |g.events| <= |r.events| && r.events[..|g.events|] == g.events
    ensures var g := Registration(st.registry, p);
            var changed := st.lastParamTimestamp != Some(env.paramTimestamp);
            Refreshes(r.events) == Refreshes(g.events) + (if changed then 1 else 0)
            && (changed ==> |g.events| < |r.events| && r.events[|g.events|] == RefreshVehicleMenu)
    ensures var g := Registration(st.registry, p);
            var m := |g.events| + (if st.lastParamTimestamp != Some(env.paramTimestamp) then 1 else 0);
            m <= |r.events|
            && (p.msg.RadioMsg? <==> Touches(r.events[m..], "Radio"))
            && (p.msg.RadioMsg? ==> r.events[m..] == [Readouts.HandleRadioStatus(p.msg.radio)])
            && (p.msg.SysStatusMsg? ==>
                  var e := ErrorCheck(st, g.reg, env, p);
                  r.events[m..] == e.events && r.state.lastErrorAnnounce == e.lastAnnounce)
            && (!p.msg.RadioMsg? && !p.msg.SysStatusMsg? ==> |r.events| == m)
  {
    var reg := Registration(st.registry, p);
    var menu := if st.lastParamTimestamp != Some(env.paramTimestamp) then [RefreshVehicleMenu] else [];
    var radio := if p.msg.RadioMsg? then [Readouts.HandleRadioStatus(p.msg.radio)] else [];
    var errors := if p.msg.SysStatusMsg? then ErrorCheck(st, reg.reg, env, p) else Health.Announced(st.lastErrorAnnounce, []);
    var st' := st.(registry := reg.reg, lastParamTimestamp := Some(env.paramTimestamp), lastErrorAnnounce := errors.lastAnnounce);
    var events := reg.events + menu + radio + errors.events;
    AnysourceTail(reg.events, menu, radio, errors.events, p.msg.RadioMsg?);
    Output(st', events, None, true)
  }

  /** The layout facts `Anysource` states about its four event groups. */
  lemma AnysourceTail(g: seq<Event>, menu: seq<Event>, radio: seq<Event>, errors: seq<Event>, isRadio: bool)
    requires menu == [] || menu == [RefreshVehicleMenu]
    requires |radio| <= 1 && (|radio| == 1 <==> isRadio) && (|radio| == 1 ==> radio[0].SetStatus? && radio[0].key == "Radio")
    requires isRadio ==> errors == []
    requires forall k :: 0 <= k < |errors| ==> !errors[k].SetStatus? && !errors[k].RefreshVehicleMenu?
    ensures (g + menu + radio + errors)[..|g|] == g
    ensures (g + menu + radio + errors)[|g| + |menu|..] == radio + errors
    ensures Refreshes(g + menu + radio + errors) == Refreshes(g) + |menu|
    ensures isRadio <==> Touches(radio + errors, "Radio")
  {
    GroupSlices(g, menu, radio, errors);
    GroupRefreshes(g, menu, radio, errors);
    RadioTouched(radio, errors, isRadio);
  }

  lemma GroupSlices(g: seq<Event>, menu: seq<Event>, radio: seq<Event>, errors: seq<Event>)
    ensures (g + menu + radio + errors)[..|g|] == g
    ensures (g + menu + radio + errors)[|g| + |menu|..] == radio + errors
  {
    assert g + menu + radio + errors == g + menu + (radio + errors);
  }

  lemma RadioTouched(radio: seq<Event>, errors: seq<Event>, isRadio: bool)
    requires |radio| <= 1 && (|radio| == 1 <==> isRadio) && (|radio| == 1 ==> radio[0].SetStatus? && radio[0].key == "Radio")
    requires forall k :: 0 <= k < |errors| ==> !errors[k].SetStatus?
    ensures isRadio <==> Touches(radio + errors, "Radio")
  {
    if |radio| == 1 {
      assert (radio + errors)[0] == radio[0];
    } else {
      assert radio + errors == errors;
    }
  }

  lemma GroupRefreshes(g: seq<Event>, menu: seq<Event>, radio: seq<Event>, errors: seq<Event>)
    requires menu == [] || menu == [RefreshVehicleMenu]
    requires |radio| <= 1 && (|radio| == 1 ==> radio[0].SetStatus?)
    requires forall k :: 0 <= k < |errors| ==> !errors[k].RefreshVehicleMenu?
    ensures Refreshes(g + menu + radio + errors) == Refreshes(g) + |menu|
  {
    RefreshesAppend(g + menu + radio, errors);
    RefreshesAppend(g + menu, radio);
    RefreshesAppend(g, menu);
    NoRefreshes(errors);
    NoRefreshes(radio);
    if |menu| == 1 {
      NoRefreshes([]);
      assert menu[1..] == [];
    }
  }

  lemma {:induction false} NoRefreshes(events: seq<Event>)
    requires forall k :: 0 <= k < |events| ==> !events[k].RefreshVehicleMenu?
    ensures Refreshes(events) == 0
  {
    if |events| > 0 {
      NoRefreshes(events[1..]);
    }
  }

  /** The snapshot `handle_heartbeat` reads. */
  function View(st: Engine, env: Env): Links.View {
    Links.View(env.flightMode, env.vehicleName, env.armed, st.health.safetyOn, |st.registry.vehicles|,
               env.checkDelay, env.statusMsec, env.links)
  }

  /** The handlers of the first chain that only display the message:
      GPS, attitude, wind, EKF, power, navigation controller and parameter
      count. Any other message shows nothing here. */
  function Readout(env: Env, p: Packet): seq<Event> {
    match p.msg
    case GpsRawMsg(g) => Readouts.HandleGpsRaw(g, env.vfrHeading, env.position.hdg)
    case AttitudeMsg(a) => Readouts.HandleAttitude(a)
    case WindMsg(w) => [Readouts.HandleWind(w)]
    case EkfStatusReportMsg(e) => [Readouts.HandleEkfStatusReport(e)]
    case PowerStatusMsg(m) => Readouts.HandlePowerStatus(m)
    case NavControllerOutputMsg(n) => Readouts.HandleNavControllerOutput(n)
    case ParamValueMsg => [Readouts.HandleParamValue(env.paramCounts.0, env.paramCounts.1)]
    case _ => []
  }

  /** The first chain of handlers for the primary vehicle: at most one of
      them runs, chosen by message type. */
  function PrimaryFields(st: Engine, env: Env, p: Packet): (r: Output)
    ensures r.command.None?
    ensures r.state.registry == st.registry && r.state.flightInfo == st.flightInfo && r.state.userItems == st.userItems
    ensures !p.msg.MissionCurrentMsg? ==> r.completed
    ensures !p.msg.VfrHudMsg? ==> r.state.timer == st.timer
    ensures !p.msg.SysStatusMsg? ==> r.state.health == st.health
    ensures !p.msg.MissionCurrentMsg? ==> r.state.speed == st.speed
    ensures !p.msg.HeartbeatMsg? && !p.msg.HighLatency2Msg? ==> r.state.maxLinkNum == st.maxLinkNum
  {
    match p.msg
    case VfrHudMsg(v) =>
      var t := FlightTimer.HandleVfrHud(st.timer, v, env.position.relAltMm, env.isCopter, env.armed,
                                        Probe.Supersedes(st.flightInfo, p.sysid));
      Output(st.(timer := t.timer), t.events, None, true)
    case SysStatusMsg(s) =>
      var c := Health.HandleSysStatus(st.health, s, env.terrainPending);
      Output(st.(health := c.state), c.events, None, true)
    case HeartbeatMsg(_) =>
      var u := Links.HandleHeartbeat(st.maxLinkNum, View(st, env), p.sysid, p.compid);
      Output(st.(maxLinkNum := u.maxLinkNum), u.events, None, true)
    case HighLatency2Msg(_, _) =>
      var u := Links.HandleHeartbeat(st.maxLinkNum, View(st, env), p.sysid, p.compid);
      Output(st.(maxLinkNum := u.maxLinkNum), u.events, None, true)
    case MissionCurrentMsg(n) =>
      var m := Mission.HandleMissionCurrent(env.mission, env.dist, st.speed, n, env.position.latE7, env.position.lonE7, env.vfrAirspeed);
      Output(st.(speed := m.speed), m.events, None, m.completed)
    case _ => Output(st, Readout(env, p), None, true)
  }

  /** The second chain: HIGH_LATENCY2 (after it was also handled as a
      heartbeat), FLIGHT_INFORMATION or COMMAND_ACK. */
  function SecondaryFields(st: Engine, env: Env, p: Packet): (r: Output)
    ensures r.command.None?
    ensures r.state == st.(flightInfo := r.state.flightInfo)
    ensures !p.msg.HighLatency2Msg? ==> r.completed
    ensures p.msg.HighLatency2Msg? ==> (r.completed <==> env.elevation.Some?)
    ensures !p.msg.FlightInformationMsg? && !p.msg.CommandAckMsg? ==> r.state.flightInfo == st.flightInfo
  {
    match p.msg
    case HighLatency2Msg(_, body) =>
      var u := HighLatency.HandleHighLatency2(body, env.elevation);
      Output(st, u.events, None, u.completed)
    case FlightInformationMsg(boot, takeoff) =>
      var i := Probe.HandleFlightInformation(st.flightInfo, p.sysid, env.now, boot, takeoff);
      Output(st.(flightInfo := i.table), i.events, None, true)
    case CommandAckMsg(command, result) =>
      Output(st.(flightInfo := Probe.HandleCommandAck(st.flightInfo, p.sysid, command, result)), [], None, true)
    case _ => Output(st, [], None, true)
  }

  /** The second chain's handlers, each chosen by its own message type:
      HIGH_LATENCY2 unpacks its fields, FLIGHT_INFORMATION and COMMAND_ACK
      update the probe's table, and every other type passes untouched. */
  lemma SecondaryRoutes(st: Engine, env: Env, p: Packet)
    ensures var r := SecondaryFields(st, env, p);
            p.msg.HighLatency2Msg? ==> r.events == HighLatency.HandleHighLatency2(p.msg.body, env.elevation).events
    ensures var r := SecondaryFields(st, env, p);
            p.msg.FlightInformationMsg? ==>
              var i := Probe.HandleFlightInformation(st.flightInfo, p.sysid, env.now, p.msg.timeBootMs, p.msg.takeoffUs);
              r.events == i.events && r.state.flightInfo == i.table
    ensures var r := SecondaryFields(st, env, p);
            p.msg.CommandAckMsg? ==>
              r.events == [] && r.state.flightInfo == Probe.HandleCommandAck(st.flightInfo, p.sysid, p.msg.command, p.msg.result)
    ensures !p.msg.HighLatency2Msg? && !p.msg.FlightInformationMsg? && !p.msg.CommandAckMsg? ==>
              SecondaryFields(st, env, p) == Output(st, [], None, true)
  {
  }

  /** The display-only handlers of the first chain leave the state alone
      and show their readout; the types the second chain handles, RADIO,
      GIMBAL_DEVICE_INFORMATION and unhandled types show nothing here. */
  lemma ReadoutRoutes(st: Engine, env: Env, p: Packet)
    ensures var r := PrimaryFields(st, env, p);
            p.msg.GpsRawMsg? ==> r == Output(st, Readouts.HandleGpsRaw(p.msg.gps, env.vfrHeading, env.position.hdg), None, true)
    ensures var r := PrimaryFields(st, env, p);
            p.msg.AttitudeMsg? ==> r == Output(st, Readouts.HandleAttitude(p.msg.attitude), None, true)
    ensures var r := PrimaryFields(st, env, p);
            p.msg.WindMsg? ==> r == Output(st, [Readouts.HandleWind(p.msg.wind)], None, true)
    ensures var r := PrimaryFields(st, env, p);
            p.msg.EkfStatusReportMsg? ==> r == Output(st, [Readouts.HandleEkfStatusReport(p.msg.ekf)], None, true)
    ensures var r := PrimaryFields(st, env, p);
            p.msg.PowerStatusMsg? ==> r == Output(st, Readouts.HandlePowerStatus(p.msg.power), None, true)
    ensures var r := PrimaryFields(st, env, p);
            p.msg.NavControllerOutputMsg? ==> r == Output(st, Readouts.HandleNavControllerOutput(p.msg.nav), None, true)
    ensures var r := PrimaryFields(st, env, p);
            p.msg.ParamValueMsg? ==> r == Output(st, [Readouts.HandleParamValue(env.paramCounts.0, env.paramCounts.1)], None, true)
    ensures (p.msg.RadioMsg? || p.msg.GimbalDeviceInformationMsg? || p.msg.FlightInformationMsg?
             || p.msg.CommandAckMsg? || p.msg.Other?) ==> PrimaryFields(st, env, p) == Output(st, [], None, true)
  {
  }

  /** The first chain's stateful handlers, each chosen by its own message
      type: VFR_HUD drives the flight timer and SYS_STATUS the health state. */
  lemma SensingRoutes(st: Engine, env: Env, p: Packet)
    ensures p.msg.VfrHudMsg? ==>
              var t := FlightTimer.HandleVfrHud(st.timer, p.msg.vfr, env.position.relAltMm, env.isCopter, env.armed,
                                                Probe.Supersedes(st.flightInfo, p.sysid));
              PrimaryFields(st, env, p) == Output(st.(timer := t.timer), t.events, None, true)
    ensures p.msg.SysStatusMsg? ==>
              var c := Health.HandleSysStatus(st.health, p.msg.status, env.terrainPending);
              PrimaryFields(st, env, p) == Output(st.(health := c.state), c.events, None, true)
  {
  }

  /** HEARTBEAT and HIGH_LATENCY2 lay out the heartbeat and link rows;
      MISSION_CURRENT updates the waypoint, speed and ETR and may raise. */
  lemma ProgressRoutes(st: Engine, env: Env, p: Packet)
    ensures p.msg.HeartbeatMsg? || p.msg.HighLatency2Msg? ==>
              var u := Links.HandleHeartbeat(st.maxLinkNum, View(st, env), p.sysid, p.compid);
              PrimaryFields(st, env, p) == Output(st.(maxLinkNum := u.maxLinkNum), u.events, None, true)
    ensures p.msg.MissionCurrentMsg? ==>
              var m := Mission.HandleMissionCurrent(env.mission, env.dist, st.speed, p.msg.seqNum,
                                                    env.position.latE7, env.position.lonE7, env.vfrAirspeed);
              PrimaryFields(st, env, p) == Output(st.(speed := m.speed), m.events, None, m.completed)
  {
  }

  /** User-added fields and the FLIGHT_INFORMATION probe, which close the
      handling of every message from the primary vehicle. */
  function Finish(st: Engine, env: Env, p: Packet): (r: Output)
    ensures r.completed
    ensures r.state == st.(flightInfo := r.state.flightInfo)
    ensures r.command == Probe.ProbeFor(st.flightInfo, p.sysid, p.compid, env.now).command
    ensures r.events == UserItems.UpdateUserAddedKeys(st.userItems, TypeName(p.msg), env.render)
  {
    var keys := UserItems.UpdateUserAddedKeys(st.userItems, TypeName(p.msg), env.render);
    var probe := Probe.ProbeFor(st.flightInfo, p.sysid, p.compid, env.now);
    Output(st.(flightInfo := probe.table), keys, probe.command, true)
  }

  // ---------------------------------------------------------------- dispatch

  /** `mavlink_packet`. */
  function MavlinkPacket(st: Engine, env: Env, p: Packet): (r: Output)
    requires Valid(st)
    ensures Valid(r.state)
    ensures !env.consoleAlive ==> r == Output(st, [], None, true)
    ensures r.command.Some? ==> env.consoleAlive && env.fromPrimary && r.completed
                                && r.command.value == Probe.Request(p.sysid, p.compid)
    ensures r.state.userItems == st.userItems
    ensures env.consoleAlive ==>
              var a := Anysource(st, env, p);
              |a.events| <= |r.events| && r.events[..|a.events|] == a.events
              && r.state.registry == a.state.registry
    ensures env.consoleAlive && !env.fromPrimary ==> r == Anysource(st, env, p)
    ensures env.consoleAlive && env.fromPrimary && r.completed ==>
              var u := UserItems.UpdateUserAddedKeys(st.userItems, TypeName(p.msg), env.render);
              |u| <= |r.events| && r.events[|r.events| - |u|..] == u
  {
    if !env.consoleAlive then Output(st, [], None, true)
    else
      var a := Anysource(st, env, p);
      if !env.fromPrimary then a
      else
        var b := PrimaryFields(a.state, env, p);
        if !b.completed then
          PrefixKept(a.events, b.events, [], []);
          Output(b.state, a.events + b.events, None, false)
        else
          var c := SecondaryFields(b.state, env, p);
          if !c.completed then
            PrefixKept(a.events, b.events, c.events, []);
            Output(c.state, a.events + b.events + c.events, None, false)
          else
            var d := Finish(c.state, env, p);
            var events := a.events + b.events + c.events + d.events;
            PrefixKept(a.events, b.events, c.events, d.events);
            Output(d.state, events, d.command, true)
  }

  /** The stages' events are concatenated in order: the first stage's
      events lead and the last stage's events close. */
  lemma PrefixKept(a: seq<Event>, b: seq<Event>, c: seq<Event>, d: seq<Event>)
    ensures (a + b)[..|a|] == a && (a + b + c)[..|a|] == a && (a + b + c + d)[..|a|] == a
    ensures var e := a + b + c + d; e[|e| - |d|..] == d
  {
    assert a + b + c + d == a + (b + c + d);
    assert a + b + c == a + (b + c);
  }

  // ---------------------------------------------------------------- properties

  /** A message from another system only registers it and may announce its
      radio or critical errors: no primary-vehicle state changes and no
      command goes out. */
  lemma OtherSystemsTouchOnlyTheRegistry(st: Engine, env: Env, p: Packet)
    requires Valid(st) && env.consoleAlive && !env.fromPrimary
    ensures var r := MavlinkPacket(st, env, p);
            r.completed && r.command.None?
            && r.state.timer == st.timer && r.state.health == st.health && r.state.speed == st.speed
            && r.state.maxLinkNum == st.maxLinkNum && r.state.flightInfo == st.flightInfo
  {
  }

  /** Every completed message from the primary vehicle ends with the probe:
      the command sent is exactly the one the probe decides on. */
  lemma PrimaryMessagesProbe(st: Engine, env: Env, p: Packet)
    requires Valid(st) && env.consoleAlive && env.fromPrimary
    ensures var r := MavlinkPacket(st, env, p);
            r.completed ==> r.command.Some? == Probe.Due(Probe.Aged(Probe.Record(
              SecondaryFields(PrimaryFields(Anysource(st, env, p).state, env, p).state, env, p).state.flightInfo, p.sysid), env.now), env.now)
  {
  }

  /** A handler that raises skips the user fields and the probe: nothing is
      sent and the probe's table is as the handlers left it. */
  lemma RaisingSkipsTheProbe(st: Engine, env: Env, p: Packet)
    requires Valid(st)
    ensures var r := MavlinkPacket(st, env, p);
            !r.completed ==> r.command.None? && r.state.flightInfo == st.flightInfo
  {
  }

  /** Only MISSION_CURRENT (a failed mission walk) and HIGH_LATENCY2 (no
      terrain elevation) can raise. */
  lemma OnlyTwoHandlersRaise(st: Engine, env: Env, p: Packet)
    requires Valid(st)
    ensures !MavlinkPacket(st, env, p).completed ==>
              p.msg.MissionCurrentMsg? || (p.msg.HighLatency2Msg? && env.elevation.None?)
  {
  }

  /** A HIGH_LATENCY2 from the primary vehicle is handled twice: as a
      heartbeat (mode and arming fields) and for its own fields. */
  lemma HighLatencyIsAlsoAHeartbeat(st: Engine, env: Env, p: Packet)
    requires Valid(st) && env.consoleAlive && env.fromPrimary && p.msg.HighLatency2Msg?
    ensures var r := MavlinkPacket(st, env, p);
            var a := Anysource(st, env, p);
            |r.events| >= |a.events| + 1
            && r.events[|a.events|] == Set("Mode", Plain(Links.ModeText(env.flightMode, env.vehicleName)), Blue)
            && (r.completed ==> Touches(r.events, "AltError") && Touches(r.events, "Alt"))
  {
    var r := MavlinkPacket(st, env, p);
    var a := Anysource(st, env, p);
    var b := PrimaryFields(a.state, env, p);
    var c := SecondaryFields(b.state, env, p);
    PrimaryEvents(st, env, p);
    HighLatencyModeFirst(a.state, env, p);
    HighLatencyAltitudes(b.state, env, p);
    ModeThenAltitudes(r.events, a.events, b.events, c.events, Finish(c.state, env, p).events,
                      b.completed, c.completed, Set("Mode", Plain(Links.ModeText(env.flightMode, env.vehicleName)), Blue));
  }

  lemma HighLatencyModeFirst(st: Engine, env: Env, p: Packet)
    requires Valid(st) && p.msg.HighLatency2Msg?
    ensures var b := PrimaryFields(st, env, p);
            |b.events| >= 1
            && b.events[0] == Set("Mode", Plain(Links.ModeText(env.flightMode, env.vehicleName)), Blue)
  {
  }

  lemma HighLatencyAltitudes(st: Engine, env: Env, p: Packet)
    requires Valid(st) && p.msg.HighLatency2Msg?
    ensures var c := SecondaryFields(st, env, p);
            c.completed ==>
              |c.events| >= 6
              && c.events[2].SetStatus? && c.events[2].key == "AltError"
              && c.events[5].SetStatus? && c.events[5].key == "Alt"
  {
  }

  /** The stage lemmas for HIGH_LATENCY2, combined on the concatenated
      events. */
  lemma ModeThenAltitudes(e: seq<Event>, a: seq<Event>, b: seq<Event>, c: seq<Event>, d: seq<Event>,
                          bDone: bool, cDone: bool, mode: Event)
    requires e == if !bDone then a + b else if !cDone then a + b + c else a + b + c + d
    requires |b| >= 1 && b[0] == mode
    requires cDone ==> |c| >= 6 && c[2].SetStatus? && c[2].key == "AltError" && c[5].SetStatus? && c[5].key == "Alt"
    ensures |e| >= |a| + 1 && e[|a|] == mode
    ensures bDone && cDone ==> Touches(e, "AltError") && Touches(e, "Alt")
  {
    StagedSlices(e, a, b, c, d, bDone, cDone);
    assert e[|a|..|a| + |b|][0] == e[|a|];
    if bDone && cDone {
      var pre := |a| + |b|;
      assert e[pre..pre + |c|][2] == e[pre + 2];
      assert e[pre..pre + |c|][5] == e[pre + 5];
    }
  }

  /** The events of a message from the primary vehicle, by the stage that
      stopped the handling. */
  lemma PrimaryEvents(st: Engine, env: Env, p: Packet)
    requires Valid(st) && env.consoleAlive && env.fromPrimary
    ensures var r := MavlinkPacket(st, env, p);
            var a := Anysource(st, env, p);
            var b := PrimaryFields(a.state, env, p);
            var c := SecondaryFields(b.state, env, p);
            var d := Finish(c.state, env, p);
            (r.completed <==> b.completed && c.completed)
            && r.events == if !b.completed then a.events + b.events
                           else if !c.completed then a.events + b.events + c.events
                           else a.events + b.events + c.events + d.events
  {
  }

  /** Where the stages' events sit in a concatenation that stops after the
      first stage that did not complete. */
  lemma StagedSlices(e: seq<Event>, a: seq<Event>, b: seq<Event>, c: seq<Event>, d: seq<Event>,
                     bDone: bool, cDone: bool)
    requires e == if !bDone then a + b else if !cDone then a + b + c else a + b + c + d
    ensures |a| + |b| <= |e| && e[|a|..|a| + |b|] == b
    ensures bDone && cDone ==> |a| + |b| + |c| <= |e| && e[|a| + |b|..|a| + |b| + |c|] == c
  {
    if bDone && cDone {
      assert e == (a + b + c) + d;
    }
  }

  /** When the vehicle reports FLIGHT_INFORMATION, VFR_HUD no longer drives
      the local flight timer. */
  lemma FlightInformationSupersedesTimer(st: Engine, env: Env, p: Packet)
    requires Valid(st) && env.consoleAlive && env.fromPrimary && p.msg.VfrHudMsg?
    requires Probe.Supersedes(st.flightInfo, p.sysid)
    ensures MavlinkPacket(st, env, p).state.timer == st.timer
  {
  }
}

=== FILE: flight_timer.dfy ===
/** The locally derived flight timer (mavproxy_console.py,
    `update_flight_time_from_vfr_hud`) and the VFR_HUD handler that drives
    it. */
module FlightTimer {
  import opened Base
  import opened Numerals
  import opened Status

  /** `in_air`, `start_time` and `total_time`, in whole seconds. */
  datatype Timer = Timer(inAir: bool, startTime: int, totalTime: int)

  const Initial := Timer(false, 0, 0)

  /** The timer after one VFR_HUD, with the FlightTime update it emitted. */
  datatype Timed = Timed(timer: Timer, events: seq<Event>)

  /** A copter flies while its motors are armed; anything else while its
      ground speed exceeds 3 m/s. */
  function IsFlying(isCopter: bool, armed: bool, groundspeed: real): (r: bool)
    ensures isCopter ==> (r <==> armed)
    ensures !isCopter ==> (r <==> groundspeed > 3.0)
  {
    if isCopter then armed else groundspeed > 3.0
  }

  /** The FlightTime field: the duration as minutes and seconds, in the
      default colour, with no spoken or menu side effect. */
  function FlightTimeField(seconds: int): (e: Event)
    ensures e.SetStatus? && e.key == "FlightTime" && e.fg == Default && e.row.None?
    ensures e.shown.Clock? && e.shown.seconds == seconds
    ensures Announcements([e]) == 0 && Refreshes([e]) == 0
  {
    Set("FlightTime", Clock("FlightTime", seconds), Default)
  }

  /** One evaluation of the timer at whole second `t`: take-off records the
      start, every later airborne sample and the landing sample recompute the
      duration from that start, and a grounded vehicle stays as it was. */
  function Update(tm: Timer, flying: bool, t: int): (r: Timed)
    ensures flying && !tm.inAir ==> r.timer == tm.(inAir := true, startTime := t) && r.events == []
    ensures tm.inAir ==> r.timer == Timer(flying, tm.startTime, t - tm.startTime)
                         && r.events == [FlightTimeField(t - tm.startTime)]
    ensures !flying && !tm.inAir ==> r == Timed(tm, [])
  {
    if flying && !tm.inAir then Timed(tm.(inAir := true, startTime := t), [])
    else if flying && tm.inAir then
      var tm' := tm.(totalTime := t - tm.startTime);
      Timed(tm', [FlightTimeField(tm'.totalTime)])
    else if !flying && tm.inAir then
      var tm' := tm.(inAir := false, totalTime := t - tm.startTime);
      Timed(tm', [FlightTimeField(tm'.totalTime)])
    else Timed(tm, [])
  }

  /** One evaluation of the flying predicate at a whole second. */
  datatype Sample = Sample(flying: bool, t: int)

  /** The timer after a sequence of samples. */
  function RunTimer(tm: Timer, samples: seq<Sample>): Timer
    decreases |samples|
  {
    if |samples| == 0 then tm else RunTimer(Update(tm, samples[0].flying, samples[0].t).timer, samples[1..])
  }

  /** While airborne, the duration depends only on the start and the last
      sample, however many samples arrive in between. */
  lemma {:induction false} AirborneDuration(tm: Timer, samples: seq<Sample>)
    requires tm.inAir
    requires |samples| > 0
    requires forall i :: 0 <= i < |samples| ==> samples[i].flying
    ensures RunTimer(tm, samples) == Timer(true, tm.startTime, samples[|samples| - 1].t - tm.startTime)
    decreases |samples|
  {
    var next := Update(tm, samples[0].flying, samples[0].t).timer;
    if |samples| > 1 {
      AirborneDuration(next, samples[1..]);
    }
  }

  /** A flight observed as a take-off sample, any number of airborne samples
      and a landing sample is timed as landing time minus take-off time. */
  lemma {:induction false} FlightDuration(tm: Timer, samples: seq<Sample>)
    requires !tm.inAir
    requires |samples| >= 2
    requires forall i :: 0 <= i < |samples| - 1 ==> samples[i].flying
    requires !samples[|samples| - 1].flying
    ensures RunTimer(tm, samples) == Timer(false, samples[0].t, samples[|samples| - 1].t - samples[0].t)
  {
    var n := |samples|;
    var up := Update(tm, true, samples[0].t).timer;
    assert up == Timer(true, samples[0].t, tm.totalTime);
    var middle := samples[1..n - 1];
    RunTimerAppend(up, middle, [samples[n - 1]]);
    assert samples[1..] == middle + [samples[n - 1]];
    var before := RunTimer(up, middle);
    if |middle| > 0 {
      AirborneDuration(up, middle);
    }
    assert before.inAir && before.startTime == samples[0].t;
  }

  lemma {:induction false} RunTimerAppend(tm: Timer, a: seq<Sample>, b: seq<Sample>)
    ensures RunTimer(tm, a + b) == RunTimer(RunTimer(tm, a), b)
    decreases |a|
  {
    if |a| == 0 {
      assert a + b == b;
    } else {
      assert (a + b)[1..] == a[1..] + b;
      RunTimerAppend(Update(tm, a[0].flying, a[0].t).timer, a[1..], b);
    }
  }

  /** The VFR_HUD fields the console shows. */
  datatype VfrHud = VfrHud(airspeed: real, groundspeed: real, throttle: nat, timestamp: real)

  /** `handle_vfr_hud` without its terrain block: altitude (`relAltMm` from the
      last GLOBAL_POSITION_INT), speeds and throttle, then the timer unless
      this system's FLIGHT_INFORMATION is known to be supported. The timer
      reads the message time in whole seconds. */
  function HandleVfrHud(tm: Timer, msg: VfrHud, relAltMm: int, isCopter: bool, armed: bool, superseded: bool): (r: Timed)
    ensures superseded ==> r.timer == tm
    ensures !superseded ==> r.timer == Update(tm, IsFlying(isCopter, armed, msg.groundspeed), msg.timestamp.Floor).timer
    ensures |r.events| >= 4
    ensures r.events[0] == Set("Alt", Reading("Alt", [relAltMm as real / 1000.0], ""), Default)
    ensures r.events[1] == Set("AirSpeed", Reading("AirSpeed", [msg.airspeed], ""), Default)
    ensures r.events[2] == Set("GPSSpeed", Reading("GPSSpeed", [msg.groundspeed], ""), Default)
    ensures r.events[3] == Set("Thr", Plain("Thr " + NatToString(msg.throttle)), Default)
    ensures superseded ==> |r.events| == 4
    ensures !superseded ==> r.events[4..] == Update(tm, IsFlying(isCopter, armed, msg.groundspeed), msg.timestamp.Floor).events
  {
    var fields := [Set("Alt", Reading("Alt", [relAltMm as real * 0.001], ""), Default),
                   Set("AirSpeed", Reading("AirSpeed", [msg.airspeed], ""), Default),
                   Set("GPSSpeed", Reading("GPSSpeed", [msg.groundspeed], ""), Default),
                   Set("Thr", Plain("Thr " + NatToString(msg.throttle)), Default)];
    if superseded then Timed(tm, fields)
    else
      var u := Update(tm, IsFlying(isCopter, armed, msg.groundspeed), msg.timestamp.Floor);
      Timed(u.timer, fields + u.events)
  }
}

=== FILE: health.dfy ===
/** Sensor health from SYS_STATUS: the per-sensor colour table, the
    edge-triggered spoken announcements, the safety-switch flag, and the
    critical-error word with its announcement cooldown (mavproxy_console.py,
    `handle_sys_status` and `check_critical_error`). */
module Health {
  import opened Base
  import opened Status

  // MAV_SYS_STATUS_SENSOR bits from the MAVLink common message set.
  const SENSOR_3D_GYRO: bv32 := 0x1
  const SENSOR_3D_ACCEL: bv32 := 0x2
  const SENSOR_3D_MAG: bv32 := 0x4
  const SENSOR_DIFFERENTIAL_PRESSURE: bv32 := 0x10
  const SENSOR_OPTICAL_FLOW: bv32 := 0x40
  const SENSOR_LASER_POSITION: bv32 := 0x100
  const SENSOR_MOTOR_OUTPUTS: bv32 := 0x8000
  const SENSOR_RC_RECEIVER: bv32 := 0x1_0000
  const SENSOR_AHRS: bv32 := 0x20_0000
  const SENSOR_TERRAIN: bv32 := 0x40_0000
  const SENSOR_LOGGING: bv32 := 0x100_0000
  const SENSOR_PROXIMITY: bv32 := 0x400_0000
  const SENSOR_PREARM_CHECK: bv32 := 0x1000_0000

  /** MAV_AUTOPILOT_ARDUPILOTMEGA: the only autopilot whose SYS_STATUS error
      counters carry internal error bits. */
  const MAV_AUTOPILOT_ARDUPILOTMEGA: nat := 3

  /** A status field name and the sensor bits it stands for. */
  datatype Sensor = Sensor(name: string, bits: bv32)

  const RC := Sensor("RC", SENSOR_RC_RECEIVER)
  const PRE := Sensor("PRE", SENSOR_PREARM_CHECK)
  const TERR := Sensor("TERR", SENSOR_TERRAIN)

  /** The source's `sensors` dict, in its insertion order. */
  const SensorTable: seq<Sensor> := [
    Sensor("AS", SENSOR_DIFFERENTIAL_PRESSURE),
    Sensor("MAG", SENSOR_3D_MAG),
    Sensor("INS", SENSOR_3D_ACCEL | SENSOR_3D_GYRO),
    Sensor("AHRS", SENSOR_AHRS),
    RC,
    TERR,
    Sensor("RNG", SENSOR_LASER_POSITION),
    Sensor("LOG", SENSOR_LOGGING),
    Sensor("PRX", SENSOR_PROXIMITY),
    PRE,
    Sensor("FLO", SENSOR_OPTICAL_FLOW)
  ]

  /** Sensors whose field is not shown at all when they are absent. */
  const HiddenWhenAbsent: set<string> := {"PRE", "PRX", "FLO"}

  /** A MAVLink uint16 field. */
  type Count16 = x: nat | x < 0x1_0000

  /** The SYS_STATUS fields the console reads. */
  datatype SysStatus = SysStatus(present: bv32, enabled: bv32, health: bv32, errorsCount1: Count16, errorsCount2: Count16)

  /** Every bit of `bits` is set in `word`. */
  predicate HasAll(word: bv32, bits: bv32) {
    word & bits == bits
  }

  /** Absent sensors are black, present but disabled grey, enabled but
      unhealthy red, and healthy ones green. */
  function SensorColour(msg: SysStatus, bits: bv32): (c: Colour)
    ensures c == Black <==> !HasAll(msg.present, bits)
    ensures c == Grey <==> HasAll(msg.present, bits) && !HasAll(msg.enabled, bits)
    ensures c == Red <==> HasAll(msg.present, bits) && HasAll(msg.enabled, bits) && !HasAll(msg.health, bits)
    ensures c == Green <==> HasAll(msg.present, bits) && HasAll(msg.enabled, bits) && HasAll(msg.health, bits)
  {
    if !HasAll(msg.present, bits) then Black
    else if !HasAll(msg.enabled, bits) then Grey
    else if !HasAll(msg.health, bits) then Red
    else Green
  }

  /** The colour shown: a healthy terrain sensor is yellow while terrain data
      is still pending. */
  function DisplayColour(s: Sensor, msg: SysStatus, terrainPending: int): (c: Colour)
    ensures c == Yellow <==> s.name == "TERR" && SensorColour(msg, s.bits) == Green && terrainPending != 0
    ensures c != Yellow ==> c == SensorColour(msg, s.bits)
  {
    var c := SensorColour(msg, s.bits);
    if s.name == "TERR" && c == Green && terrainPending != 0 then Yellow else c
  }

  predicate Shows(s: Sensor, msg: SysStatus) {
    HasAll(msg.present, s.bits) || s.name !in HiddenWhenAbsent
  }

  function SensorField(s: Sensor, msg: SysStatus, terrainPending: int): Event {
    Set(s.name, Plain(s.name), DisplayColour(s, msg, terrainPending))
  }

  /** The positions from `start` on of the sensors of `table` that are
      shown: each such position once, in increasing order, and no other. */
  function ShownFrom(table: seq<Sensor>, msg: SysStatus, start: nat): (r: seq<nat>)
    requires start <= |table|
    ensures |r| <= |table| - start
    ensures forall k :: 0 <= k < |r| ==> start <= r[k] < |table| && Shows(table[r[k]], msg)
    ensures forall k, l :: 0 <= k < l < |r| ==> r[k] < r[l]
    ensures forall i :: start <= i < |table| && Shows(table[i], msg) ==> i in r
    decreases |table| - start
  {
    if start == |table| then []
    else
      var rest := ShownFrom(table, msg, start + 1);
      if Shows(table[start], msg) then [start] + rest else rest
  }

  /** Fields built position by position from `ShownFrom` hold a field for
      every shown sensor and nothing else. */
  lemma FieldsOfShown(table: seq<Sensor>, msg: SysStatus, terrainPending: int, shown: seq<nat>, r: seq<Event>)
    requires shown == ShownFrom(table, msg, 0)
    requires |r| == |shown| && forall k :: 0 <= k < |r| ==> r[k] == SensorField(table[shown[k]], msg, terrainPending)
    ensures forall s :: s in table && Shows(s, msg) ==> SensorField(s, msg, terrainPending) in r
    ensures forall e :: e in r ==> exists s :: s in table && Shows(s, msg) && e == SensorField(s, msg, terrainPending)
  {
    forall s | s in table && Shows(s, msg)
      ensures SensorField(s, msg, terrainPending) in r
    {
      var i :| 0 <= i < |table| && table[i] == s;
      var k :| 0 <= k < |shown| && shown[k] == i;
      assert r[k] == SensorField(s, msg, terrainPending);
    }
    forall e | e in r
      ensures exists s :: s in table && Shows(s, msg) && e == SensorField(s, msg, terrainPending)
    {
      var k :| 0 <= k < |r| && r[k] == e;
      assert table[shown[k]] in table;
    }
  }

  /** The sensor fields of one SYS_STATUS: one per sensor of `table` that is
      shown, in table order, and nothing else. */
  function SensorFields(table: seq<Sensor>, msg: SysStatus, terrainPending: int): (r: seq<Event>)
    ensures var shown := ShownFrom(table, msg, 0);
            |r| == |shown| && forall k :: 0 <= k < |r| ==> r[k] == SensorField(table[shown[k]], msg, terrainPending)
    ensures |r| <= |table|
    ensures forall s :: s in table && Shows(s, msg) ==> SensorField(s, msg, terrainPending) in r
    ensures forall e :: e in r ==> exists s :: s in table && Shows(s, msg) && e == SensorField(s, msg, terrainPending)
  {
    var shown := ShownFrom(table, msg, 0);
    var r := seq(|shown|, k requires 0 <= k < |shown| => SensorField(table[shown[k]], msg, terrainPending));
    FieldsOfShown(table, msg, terrainPending, shown, r);
    r
  }

  /** "RC fail" / "pre-arm fail" when the sensor is enabled, unhealthy now,
      and was healthy in the previous SYS_STATUS. */
  predicate FailEdge(s: Sensor, msg: SysStatus, lastHealth: bv32) {
    HasAll(msg.enabled, s.bits) && !HasAll(msg.health, s.bits) && HasAll(lastHealth, s.bits)
  }

  /** "pre-arm good" when the check is enabled, healthy now, and was not before. */
  predicate GoodEdge(s: Sensor, msg: SysStatus, lastHealth: bv32) {
    HasAll(msg.enabled, s.bits) && HasAll(msg.health, s.bits) && !HasAll(lastHealth, s.bits)
  }

  /** The announcements of one SYS_STATUS, in the source's order. */
  function HealthAnnouncements(msg: SysStatus, lastHealth: bv32): (r: seq<Event>)
    ensures Say("RC fail") in r <==> FailEdge(RC, msg, lastHealth)
    ensures Say("pre-arm fail") in r <==> FailEdge(PRE, msg, lastHealth)
    ensures Say("pre-arm good") in r <==> GoodEdge(PRE, msg, lastHealth)
    ensures forall e :: e in r ==> e in [Say("RC fail"), Say("pre-arm fail"), Say("pre-arm good")]
    ensures |r| <= 2
    ensures lastHealth == msg.health ==> r == []
  {
    (if FailEdge(RC, msg, lastHealth) then [Say("RC fail")] else []) +
    (if FailEdge(PRE, msg, lastHealth) then [Say("pre-arm fail")] else []) +
    (if GoodEdge(PRE, msg, lastHealth) then [Say("pre-arm good")] else [])
  }

  /** What SYS_STATUS handling remembers: the previous health word and
      whether the safety switch is on. */
  datatype HealthState = HealthState(lastHealth: bv32, safetyOn: bool)

  const InitialHealth := HealthState(0, false)

  datatype Checked = Checked(state: HealthState, events: seq<Event>)

  /** `handle_sys_status`. */
  function HandleSysStatus(st: HealthState, msg: SysStatus, terrainPending: int): (r: Checked)
    ensures r.state.lastHealth == msg.health
    ensures r.events == SensorFields(SensorTable, msg, terrainPending) + HealthAnnouncements(msg, st.lastHealth)
    ensures r.state.safetyOn <==> msg.enabled & SENSOR_MOTOR_OUTPUTS == 0
    ensures forall s :: s in SensorTable && Shows(s, msg) ==> SensorField(s, msg, terrainPending) in r.events
    ensures forall e :: e in r.events && e.SetStatus? ==>
              exists s :: s in SensorTable && Shows(s, msg) && e == SensorField(s, msg, terrainPending)
    ensures Say("RC fail") in r.events <==> FailEdge(RC, msg, st.lastHealth)
    ensures Say("pre-arm fail") in r.events <==> FailEdge(PRE, msg, st.lastHealth)
    ensures Say("pre-arm good") in r.events <==> GoodEdge(PRE, msg, st.lastHealth)
    ensures Announcements(r.events) <= 2
    ensures st.lastHealth == msg.health ==> Announcements(r.events) == 0
  {
    var fields := SensorFields(SensorTable, msg, terrainPending);
    var said := HealthAnnouncements(msg, st.lastHealth);
    FieldsAnnounceNothing(fields);
    AnnouncementsAppend(fields, said);
    AnnouncementsAtMostLength(said);
    Checked(HealthState(msg.health, msg.enabled & SENSOR_MOTOR_OUTPUTS == 0), fields + said)
  }

  /** Announcements are edge-triggered: the same SYS_STATUS twice in a row
      announces nothing the second time. */
  lemma RepeatIsSilent(st: HealthState, msg: SysStatus, terrainPending: int)
    ensures var once := HandleSysStatus(st, msg, terrainPending);
            Announcements(HandleSysStatus(once.state, msg, terrainPending).events) == 0
  {
  }

  /** The health words of a run of SYS_STATUS messages produce these announcements. */
  function AnnouncementsOver(lastHealth: bv32, msgs: seq<SysStatus>): seq<Event>
    decreases |msgs|
  {
    if |msgs| == 0 then []
    else HealthAnnouncements(msgs[0], lastHealth) + AnnouncementsOver(msgs[0].health, msgs[1..])
  }

  /** With the pre-arm check enabled and previously healthy, health reports
      healthy, healthy, unhealthy, unhealthy, healthy announce exactly
      "pre-arm fail" then "pre-arm good". */
  lemma PrearmScenario()
    ensures var good := SysStatus(SENSOR_PREARM_CHECK, SENSOR_PREARM_CHECK, SENSOR_PREARM_CHECK, 0, 0);
            var bad := SysStatus(SENSOR_PREARM_CHECK, SENSOR_PREARM_CHECK, 0, 0, 0);
            AnnouncementsOver(SENSOR_PREARM_CHECK, [good, good, bad, bad, good]) ==
              [Say("pre-arm fail"), Say("pre-arm good")]
  {
    var good := SysStatus(SENSOR_PREARM_CHECK, SENSOR_PREARM_CHECK, SENSOR_PREARM_CHECK, 0, 0);
    var bad := SysStatus(SENSOR_PREARM_CHECK, SENSOR_PREARM_CHECK, 0, 0, 0);
    PrearmEdges(good, bad);
    var a4 := AnnouncementsOver(0, [good]);
    assert [good][1..] == [];
    assert a4 == HealthAnnouncements(good, 0) + AnnouncementsOver(good.health, []);
    var a3 := AnnouncementsOver(0, [bad, good]);
    assert [bad, good][1..] == [good];
    assert a3 == HealthAnnouncements(bad, 0) + a4;
    var a2 := AnnouncementsOver(SENSOR_PREARM_CHECK, [bad, bad, good]);
    assert [bad, bad, good][1..] == [bad, good];
    assert a2 == HealthAnnouncements(bad, SENSOR_PREARM_CHECK) + a3;
    var a1 := AnnouncementsOver(SENSOR_PREARM_CHECK, [good, bad, bad, good]);
    assert [good, bad, bad, good][1..] == [bad, bad, good];
    assert a1 == HealthAnnouncements(good, SENSOR_PREARM_CHECK) + a2;
    assert [good, good, bad, bad, good][1..] == [good, bad, bad, good];
  }

  /** The four single-message facts the scenario is built from. */
  lemma PrearmEdges(good: SysStatus, bad: SysStatus)
    requires good == SysStatus(SENSOR_PREARM_CHECK, SENSOR_PREARM_CHECK, SENSOR_PREARM_CHECK, 0, 0)
    requires bad == SysStatus(SENSOR_PREARM_CHECK, SENSOR_PREARM_CHECK, 0, 0, 0)
    ensures HealthAnnouncements(good, 0) == [Say("pre-arm good")]
    ensures HealthAnnouncements(good, SENSOR_PREARM_CHECK) == []
    ensures HealthAnnouncements(bad, SENSOR_PREARM_CHECK) == [Say("pre-arm fail")]
    ensures HealthAnnouncements(bad, 0) == []
  {
    assert !HasAll(SENSOR_PREARM_CHECK, SENSOR_RC_RECEIVER);
    assert !HasAll(0, SENSOR_PREARM_CHECK) && HasAll(SENSOR_PREARM_CHECK, SENSOR_PREARM_CHECK);
  }

  /** `errors_count1 | errors_count2 << 16`: both 16-bit counters packed in
      one word, each recoverable from it. */
  function ErrorWord(count1: Count16, count2: Count16): (w: nat)
    ensures w == 0 <==> count1 == 0 && count2 == 0
    ensures w % 0x1_0000 == count1 && w / 0x1_0000 == count2
    ensures w < 0x1_0000_0000
  {
    count1 + 0x1_0000 * count2
  }

  /** `check_critical_error`: announce a non-zero error word from an
      ArduPilot system whose heartbeat is known, at most once per `interval`
      seconds. `lastAnnounce` is when the last announcement was made. */
  datatype Announced = Announced(lastAnnounce: real, events: seq<Event>)

  predicate ReportsErrors(autopilot: Option<nat>, msg: SysStatus) {
    autopilot == Some(MAV_AUTOPILOT_ARDUPILOTMEGA) && ErrorWord(msg.errorsCount1, msg.errorsCount2) != 0
  }

  function CheckCriticalError(lastAnnounce: real, autopilot: Option<nat>, sysid: nat, compid: nat,
                              msg: SysStatus, now: real, interval: real): (r: Announced)
    ensures |r.events| <= 1
    ensures |r.events| == 1 <==> ReportsErrors(autopilot, msg) && now - lastAnnounce > interval
    ensures |r.events| == 1 ==>
              r.lastAnnounce == now && r.events[0] == SayCriticalFailure(ErrorWord(msg.errorsCount1, msg.errorsCount2), sysid, compid)
    ensures |r.events| == 0 ==> r.lastAnnounce == lastAnnounce
  {
    if autopilot != Some(MAV_AUTOPILOT_ARDUPILOTMEGA) then Announced(lastAnnounce, [])
    else
      var errors := ErrorWord(msg.errorsCount1, msg.errorsCount2);
      if errors == 0 then Announced(lastAnnounce, [])
      else if now - lastAnnounce > interval then Announced(now, [SayCriticalFailure(errors, sysid, compid)])
      else Announced(lastAnnounce, [])
  }

  /** After an announcement at `t1`, a second report at `t2` no more than
      `interval` later stays silent, whatever the error word. */
  lemma CriticalErrorCooldown(last: real, autopilot: Option<nat>, sysid: nat, compid: nat,
                              m1: SysStatus, t1: real, m2: SysStatus, t2: real, interval: real)
    requires |CheckCriticalError(last, autopilot, sysid, compid, m1, t1, interval).events| == 1
    requires t2 - t1 <= interval
    ensures CheckCriticalError(CheckCriticalError(last, autopilot, sysid, compid, m1, t1, interval).lastAnnounce,
                               autopilot, sysid, compid, m2, t2, interval).events == []
  {
  }
}

=== FILE: high_latency.dfy ===
/** The HIGH_LATENCY2 readout (mavproxy_console.py, `handle_high_latency2`):
    the compact telemetry a vehicle sends over a slow link, unpacked into the
    same fields the full-rate messages fill. */
module HighLatency {
  import opened Base
  import opened Numerals
  import opened Status
  import Readouts
  import Health

  // HL_FAILURE_FLAG bits from the MAVLink common message set.
  const HL_FAILURE_FLAG_GPS: bv16 := 0x0001
  const HL_FAILURE_FLAG_DIFFERENTIAL_PRESSURE: bv16 := 0x0002
  const HL_FAILURE_FLAG_ABSOLUTE_PRESSURE: bv16 := 0x0004
  const HL_FAILURE_FLAG_3D_ACCEL: bv16 := 0x0008
  const HL_FAILURE_FLAG_3D_GYRO: bv16 := 0x0010
  const HL_FAILURE_FLAG_3D_MAG: bv16 := 0x0020
  const HL_FAILURE_FLAG_TERRAIN: bv16 := 0x0040
  const HL_FAILURE_FLAG_BATTERY: bv16 := 0x0080
  const HL_FAILURE_FLAG_RC_RECEIVER: bv16 := 0x0100
  const HL_FAILURE_FLAG_GEOFENCE: bv16 := 0x0800
  const HL_FAILURE_FLAG_ESTIMATOR: bv16 := 0x1000

  /** The fields of HIGH_LATENCY2 the console reads, in their wire units:
      headings in 2-degree steps, distances in 10 m steps, speeds in 0.2 m/s
      steps, altitudes in metres. */
  datatype HighLatency2 = HighLatency2(
    targetDistance: nat, targetHeading: nat, targetAltitude: int, altitude: int,
    airspeedSp: nat, airspeed: nat, windHeading: nat, windspeed: nat, groundspeed: nat,
    throttle: nat, heading: nat, wpNum: nat, failureFlags: bv16)

  /** A named group of failure bits. */
  datatype Group = Group(name: string, bits: bv16)

  /** The failure groups shown under the SYS_STATUS sensor names, in order. */
  const SensorGroups: seq<Group> := [
    Group("AS", HL_FAILURE_FLAG_DIFFERENTIAL_PRESSURE),
    Group("MAG", HL_FAILURE_FLAG_3D_MAG),
    Group("INS", HL_FAILURE_FLAG_3D_ACCEL | HL_FAILURE_FLAG_3D_GYRO),
    Group("AHRS", HL_FAILURE_FLAG_ESTIMATOR),
    Group("RC", HL_FAILURE_FLAG_RC_RECEIVER),
    Group("TERR", HL_FAILURE_FLAG_TERRAIN)]

  /** A group has failed when every one of its bits is set. */
  predicate Failed(flags: bv16, bits: bv16) {
    flags & bits == bits
  }

  function GroupColour(flags: bv16, g: Group): (c: Colour)
    ensures c == Red <==> Failed(flags, g.bits)
    ensures c == Green <==> !Failed(flags, g.bits)
  {
    if Failed(flags, g.bits) then Red else Green
  }

  /** One field per sensor group, named and labelled by the group. */
  function GroupFields(flags: bv16): (r: seq<Event>)
    ensures |r| == |SensorGroups|
    ensures forall i :: 0 <= i < |r| ==>
      r[i] == Set(SensorGroups[i].name, Plain(SensorGroups[i].name), GroupColour(flags, SensorGroups[i]))
  {
    seq(|SensorGroups|, i requires 0 <= i < |SensorGroups| =>
      Set(SensorGroups[i].name, Plain(SensorGroups[i].name), GroupColour(flags, SensorGroups[i])))
  }

  /** INS turns red only when both the accelerometer and the gyro report a
      failure, not when one of them does. */
  lemma InertialNeedsBoth(flags: bv16)
    ensures GroupFields(flags)[2].fg == Red <==>
      flags & HL_FAILURE_FLAG_3D_ACCEL != 0 && flags & HL_FAILURE_FLAG_3D_GYRO != 0
  {
    assert SensorGroups[2].bits == 0x18;
  }

  /** The failure groups reuse the keys of the first six SYS_STATUS sensor
      fields, in the same order, so HIGH_LATENCY2 colours the same fields. */
  lemma GroupsAreTheFirstSensors()
    ensures |SensorGroups| <= |Health.SensorTable|
    ensures forall i :: 0 <= i < |SensorGroups| ==> SensorGroups[i].name == Health.SensorTable[i].name
  {
  }

  // ---------------------------------------------------------------- findings

  /** The altitude- and airspeed-error label as the source writes it: both
      branches of its conditional produce "(L)". */
  function ErrorLabelAsWritten(error: int): (s: string)
    ensures s == "(L)"
  {
    if error > 0 then "(L)" else "(L)"
  }

  /** A vehicle 5 m above its target altitude is labelled low, where
      NAV_CONTROLLER_OUTPUT labels the same error high. */
  lemma ErrorLabelAsWrittenIgnoresSign()
    ensures ErrorLabelAsWritten(-5) == "(L)"
    ensures Readouts.SignLabel(-5.0) == "(H)"
  {
  }

  /** The label HIGH_LATENCY2 evidently means: the same as for
      NAV_CONTROLLER_OUTPUT, "(L)" exactly when the error is positive. */
  function ErrorLabel(error: int): (s: string)
    ensures s == "(L)" <==> error > 0
    ensures s == "(H)" <==> error <= 0
  {
    Readouts.SignLabel(error as real)
  }

  /** The battery test as the source writes it: the GPS bit compared with the
      battery bit. */
  function BatteryFailedAsWritten(flags: bv16): (r: bool)
    ensures !r
  {
    flags & HL_FAILURE_FLAG_GPS == HL_FAILURE_FLAG_BATTERY
  }

  /** The written test misses the one case it is for: a failed battery alone
      is not reported. */
  lemma BatteryCheckAsWrittenNeverFires()
    ensures !BatteryFailedAsWritten(HL_FAILURE_FLAG_BATTERY) && BatteryFailed(HL_FAILURE_FLAG_BATTERY)
  {
  }

  /** The battery test evidently intended: the battery failure bit is set. */
  function BatteryFailed(flags: bv16): (r: bool)
    ensures r <==> flags & HL_FAILURE_FLAG_BATTERY != 0
  {
    Failed(flags, HL_FAILURE_FLAG_BATTERY)
  }

  // ---------------------------------------------------------------- handler

  /** Outcome of `handle_high_latency2`: `completed` is false when the
      altitude could not be computed (no terrain elevation) and the handler
      raised after emitting `events`. */
  datatype Unpacked = Unpacked(events: seq<Event>, completed: bool)

  /** Which reading of the two defects a handler follows: the program as
      written, or the evidently intended labels and battery test. */
  datatype Variant = AsWritten | Corrected

  function Label(v: Variant, error: int): (s: string)
    ensures v == AsWritten ==> s == "(L)"
    ensures v == Corrected ==> (s == "(L)" <==> error > 0)
  {
    if v == AsWritten then ErrorLabelAsWritten(error) else ErrorLabel(error)
  }

  function BatteryReported(v: Variant, flags: bv16): (r: bool)
    ensures v == AsWritten ==> !r
    ensures v == Corrected ==> (r <==> flags & HL_FAILURE_FLAG_BATTERY != 0)
  {
    if v == AsWritten then BatteryFailedAsWritten(flags) else BatteryFailed(flags)
  }

  /** The fields before the altitude, which are always shown. */
  function Prelude(m: HighLatency2, v: Variant): (r: seq<Event>)
    ensures |r| == 5
    ensures forall k :: 0 <= k < |r| ==> r[k].SetStatus?
    ensures r[0] == Set("WPDist", Reading("Distance", [(m.targetDistance * 10) as real], ""), Default)
    ensures r[1] == Set("WPBearing", Plain("Bearing " + IntToString(m.targetHeading * 2 - 180)), Default)
    ensures r[2].SetStatus? && r[2].key == "AltError" && r[2].shown.Reading?
            && r[2].shown.values == [(m.targetAltitude - m.altitude) as real]
            && r[2].shown.suffix == Label(v, m.targetAltitude - m.altitude)
    ensures r[3].SetStatus? && r[3].key == "AspdError" && r[3].shown.Reading?
            && r[3].shown.suffix == Label(v, m.airspeedSp - m.airspeed)
            && r[3].shown.values == [(m.airspeedSp - m.airspeed) as real / 5.0]
    ensures r[4] == Set("Wind", Reading("Wind " + IntToString(m.windHeading * 2 - 180) + "/", [m.windspeed as real / 5.0], ""), Default)
  {
    [Set("WPDist", Reading("Distance", [(m.targetDistance * 10) as real], ""), Default),
     Set("WPBearing", Plain("Bearing " + IntToString(m.targetHeading * 2 - 180)), Default),
     Set("AltError", Reading("AltError", [(m.targetAltitude - m.altitude) as real], Label(v, m.targetAltitude - m.altitude)), Default),
     Set("AspdError", Reading("AspdError", [(m.airspeedSp - m.airspeed) as real / 5.0], Label(v, m.airspeedSp - m.airspeed)), Default),
     Set("Wind", Reading("Wind " + IntToString(m.windHeading * 2 - 180) + "/", [m.windspeed as real / 5.0], ""), Default)]
  }

  /** The fields after the altitude. */
  function Rest(m: HighLatency2, v: Variant): (r: seq<Event>)
    ensures |r| == 5 + |SensorGroups| + 3
    ensures forall k :: 0 <= k < |r| ==> r[k].SetStatus?
    ensures r[0] == Set("AirSpeed", Reading("AirSpeed", [m.airspeed as real / 5.0], ""), Default)
    ensures r[1] == Set("GPSSpeed", Reading("GPSSpeed", [m.groundspeed as real / 5.0], ""), Default)
    ensures r[2] == Set("Thr", Plain("Thr " + NatToString(m.throttle)), Default)
    ensures r[3] == Set("Heading", Plain("Hdg " + NatToString(m.heading * 2) + "/---"), Default)
    ensures r[4] == Set("WP", Plain("WP " + NatToString(m.wpNum) + "/--"), Default)
    ensures r[5..5 + |SensorGroups|] == GroupFields(m.failureFlags)
    ensures r[|r| - 3] == Set("Fence", Plain("FEN"), if Failed(m.failureFlags, HL_FAILURE_FLAG_GEOFENCE) then Red else Green)
    ensures r[|r| - 1] == (if BatteryReported(v, m.failureFlags) then Set("PWR", Plain("PWR FAILED"), Red)
                           else Set("PWR", Plain("PWR OK"), Green))
    ensures r[|r| - 2] == (if Failed(m.failureFlags, HL_FAILURE_FLAG_GPS) then Set("GPS", Plain("GPS FAILED"), Red)
                           else Set("GPS", Plain("GPS OK"), Green))
  {
    [Set("AirSpeed", Reading("AirSpeed", [m.airspeed as real / 5.0], ""), Default),
     Set("GPSSpeed", Reading("GPSSpeed", [m.groundspeed as real / 5.0], ""), Default),
     Set("Thr", Plain("Thr " + NatToString(m.throttle)), Default),
     Set("Heading", Plain("Hdg " + NatToString(m.heading * 2) + "/---"), Default),
     Set("WP", Plain("WP " + NatToString(m.wpNum) + "/--"), Default)]
    + GroupFields(m.failureFlags)
    + [Set("Fence", Plain("FEN"), if Failed(m.failureFlags, HL_FAILURE_FLAG_GEOFENCE) then Red else Green),
       if Failed(m.failureFlags, HL_FAILURE_FLAG_GPS) then Set("GPS", Plain("GPS FAILED"), Red)
       else Set("GPS", Plain("GPS OK"), Green),
       if BatteryReported(v, m.failureFlags) then Set("PWR", Plain("PWR FAILED"), Red)
       else Set("PWR", Plain("PWR OK"), Green)]
  }

  /** The unpacking in the given variant. `elevation` is the terrain height
      under the vehicle, `None` when no terrain data (or no terrain module)
      is available, in which case the source raises at the altitude line. */
  function Unpack(m: HighLatency2, elevation: Option<real>, v: Variant): (r: Unpacked)
    ensures r.completed <==> elevation.Some?
    ensures !r.completed ==> r.events == Prelude(m, v)
    ensures r.completed ==> |r.events| == 6 + |Rest(m, v)| && r.events[..5] == Prelude(m, v) && r.events[6..] == Rest(m, v)
                            && r.events[5] == Set("Alt", Reading("Alt", [m.altitude as real - elevation.value], ""), Default)
  {
    match elevation
    case None => Unpacked(Prelude(m, v), false)
    case Some(e) => Unpacked(Prelude(m, v) + [Set("Alt", Reading("Alt", [m.altitude as real - e], ""), Default)] + Rest(m, v), true)
  }

  /** `handle_high_latency2` as written: both error labels read "(L)"
      whatever the sign, and the power field reads "PWR OK" whatever the
      battery bit. */
  function HandleHighLatency2(m: HighLatency2, elevation: Option<real>): (r: Unpacked)
    ensures r.completed <==> elevation.Some?
    ensures |r.events| >= 5 && r.events[..5] == Prelude(m, AsWritten)
    ensures r.events[2].shown.suffix == "(L)" && r.events[3].shown.suffix == "(L)"
    ensures r.completed ==> |r.events| == 6 + |Rest(m, AsWritten)|
                            && r.events[|r.events| - 1] == Set("PWR", Plain("PWR OK"), Green)
  {
    Unpack(m, elevation, AsWritten)
  }

  /** The handler with the labels and the battery test corrected: the
      labels follow the sign of the error, and the power field is red
      exactly when the battery failure bit is set. */
  function HandleHighLatency2Corrected(m: HighLatency2, elevation: Option<real>): (r: Unpacked)
    ensures r.completed <==> elevation.Some?
    ensures |r.events| >= 5 && r.events[..5] == Prelude(m, Corrected)
    ensures r.events[2].shown.suffix == "(L)" <==> m.targetAltitude > m.altitude
    ensures r.events[3].shown.suffix == "(L)" <==> m.airspeedSp > m.airspeed
    ensures r.completed ==> |r.events| == 6 + |Rest(m, Corrected)|
                            && r.events[|r.events| - 1] == (if m.failureFlags & HL_FAILURE_FLAG_BATTERY != 0
                                                            then Set("PWR", Plain("PWR FAILED"), Red)
                                                            else Set("PWR", Plain("PWR OK"), Green))
  {
    Unpack(m, elevation, Corrected)
  }

  /** The fields before the altitude are the ones NAV_CONTROLLER_OUTPUT and
      WIND fill, in NAV_CONTROLLER_OUTPUT's order. */
  lemma PreludeFillsNavAndWindFields(m: HighLatency2, v: Variant, n: Readouts.NavControllerOutput, w: Readouts.Wind)
    ensures var r, nav := Prelude(m, v), Readouts.HandleNavControllerOutput(n);
            (forall k :: 0 <= k < 4 ==> r[k].SetStatus? && nav[k].SetStatus? && r[k].key == nav[k].key)
            && r[4].key == Readouts.HandleWind(w).key
  {
  }

  /** The failure flags drive the sensor-group, fence and GPS fields: each is
      red exactly when all of its bits are set, in either variant. */
  lemma FlagsColourTheGroups(m: HighLatency2, v: Variant)
    ensures var r := Rest(m, v);
            forall j :: 5 <= j < 5 + |SensorGroups| ==>
              r[j].SetStatus? && r[j].key == SensorGroups[j - 5].name
              && (r[j].fg == Red <==> Failed(m.failureFlags, SensorGroups[j - 5].bits))
    ensures var r := Rest(m, v);
            (r[|r| - 3].fg == Red <==> m.failureFlags & HL_FAILURE_FLAG_GEOFENCE != 0)
            && (r[|r| - 2].fg == Red <==> m.failureFlags & HL_FAILURE_FLAG_GPS != 0)
  {
    var r := Rest(m, v);
    forall j | 5 <= j < 5 + |SensorGroups|
      ensures r[j].SetStatus? && r[j].key == SensorGroups[j - 5].name
              && (r[j].fg == Red <==> Failed(m.failureFlags, SensorGroups[j - 5].bits))
    {
      assert r[j] == r[5..5 + |SensorGroups|][j - 5];
    }
    BitIsFailure(m.failureFlags, HL_FAILURE_FLAG_GEOFENCE);
    BitIsFailure(m.failureFlags, HL_FAILURE_FLAG_GPS);
  }

  /** For a single-bit group, failure is that bit being set. */
  lemma BitIsFailure(flags: bv16, bit: bv16)
    requires bit == HL_FAILURE_FLAG_GEOFENCE || bit == HL_FAILURE_FLAG_GPS
    ensures Failed(flags, bit) <==> flags & bit != 0
  {
  }

  /** The unpacked fields announce nothing, in either variant. */
  lemma HighLatencyIsSilent(m: HighLatency2, elevation: Option<real>, v: Variant)
    ensures Announcements(Unpack(m, elevation, v).events) == 0
  {
    var r := Unpack(m, elevation, v);
    UnpackedFieldsOnly(m, elevation, v);
    FieldsAnnounceNothing(r.events);
  }

  lemma UnpackedFieldsOnly(m: HighLatency2, elevation: Option<real>, v: Variant)
    ensures forall e :: e in Unpack(m, elevation, v).events ==> e.SetStatus?
  {
    var p, rest := Prelude(m, v), Rest(m, v);
    var events := Unpack(m, elevation, v).events;
    forall e | e in events
      ensures e.SetStatus?
    {
      var k :| 0 <= k < |events| && events[k] == e;
      if k < 5 {
        assert events[k] == events[..5][k];
      } else if k > 5 {
        assert events[k] == events[6..][k - 6];
      }
    }
  }

  /** Corrected, the altitude error is labelled as NAV_CONTROLLER_OUTPUT
      labels the same error. */
  lemma AltErrorAgreesWithNavController(m: HighLatency2, elevation: Option<real>, aspdError: real)
    ensures HandleHighLatency2Corrected(m, elevation).events[2].shown.suffix
            == Readouts.HandleNavControllerOutput(Readouts.NavControllerOutput(0, 0, Some((m.targetAltitude - m.altitude) as real), aspdError))[2].shown.suffix
  {
  }

  /** As written, the altitude error of a vehicle above its target is
      labelled differently from NAV_CONTROLLER_OUTPUT's label for it. */
  lemma AltErrorAsWrittenDisagrees(m: HighLatency2, elevation: Option<real>, aspdError: real)
    requires m.targetAltitude < m.altitude
    ensures HandleHighLatency2(m, elevation).events[2].shown.suffix
            != Readouts.HandleNavControllerOutput(Readouts.NavControllerOutput(0, 0, Some((m.targetAltitude - m.altitude) as real), aspdError))[2].shown.suffix
  {
  }
}

=== FILE: links.dfy ===
/** The primary vehicle's HEARTBEAT handler (mavproxy_console.py,
    `handle_heartbeat`): mode, system id, arming state and one summary line per
    MAVLink connection. */
module Links {
  import opened Base
  import opened Numerals
  import opened Status

  /** The signing state of a connection's MAVLink object; a connection without
      one (an AttributeError in the source) has `None`. */
  datatype Signing = Signing(sigCount: nat, secretKey: bool, signOutgoing: bool, badsigCount: nat)

  /** One MAVLink connection: its number, label, error flag, packet counters,
      signing state and the highest message timestamp it has seen per
      (system, component). */
  datatype Link = Link(linknum: nat, name: string, linkError: bool, count: nat, loss: nat,
                       signing: Option<Signing>, highestMsec: map<(nat, nat), int>)

  /** The share of packets received, 100 when nothing has been counted yet. */
  function ReceivedPercent(count: nat, loss: nat): (p: real)
    ensures 0.0 <= p <= 100.0
    ensures count + loss == 0 ==> p == 100.0
    ensures count + loss > 0 ==> p * (count + loss) as real == 100.0 * count as real
  {
    if count + loss == 0 then 100.0 else (100.0 * count as real) / (count + loss) as real
  }

  /** Every packet arrived exactly when none was lost. */
  lemma FullReceptionIffNoLoss(count: nat, loss: nat)
    ensures ReceivedPercent(count, loss) == 100.0 <==> loss == 0
  {
    if count + loss > 0 && ReceivedPercent(count, loss) == 100.0 {
      assert 100.0 * (count + loss) as real == 100.0 * count as real;
    }
  }

  /** Losing more packets (with as many received) never raises the percentage. */
  lemma ReceivedPercentAntitone(count: nat, loss: nat, loss': nat)
    requires loss <= loss'
    ensures ReceivedPercent(count, loss') <= ReceivedPercent(count, loss)
  {
    if count + loss > 0 {
      QuotientAntitone(100.0 * count as real, (count + loss) as real, (count + loss') as real);
    }
  }

  lemma QuotientAntitone(a: real, n: real, n': real)
    requires a >= 0.0 && 0.0 < n <= n'
    ensures a / n' <= a / n
  {
    assert a / n - a / n' == a * (n' - n) / (n * n');
    assert a * (n' - n) >= 0.0 && n * n' > 0.0;
  }

  /** The signing warnings of a connection: only raised once the other end
      has sent signed packets, "!KEY" when there is no key to check them,
      "!SIGNING" when there is a key but this end does not sign, and a
      bad-signature count when there are any. */
  function SigningNotes(sig: Option<Signing>): (notes: seq<string>)
    ensures sig.None? || sig.value.sigCount == 0 ==> notes == []
    ensures sig.Some? && sig.value.sigCount != 0 ==>
      (notes == [] <==> sig.value.secretKey && sig.value.signOutgoing && sig.value.badsigCount == 0)
    ensures "!KEY" in notes <==> sig.Some? && sig.value.sigCount != 0 && !sig.value.secretKey
    ensures "!SIGNING" in notes <==> sig.Some? && sig.value.sigCount != 0 && sig.value.secretKey && !sig.value.signOutgoing
    ensures |notes| <= 2
  {
    match sig
    case None => []
    case Some(s) =>
      if s.sigCount == 0 then []
      else
        var keyNote := if !s.secretKey then ["!KEY"] else if !s.signOutgoing then ["!SIGNING"] else [];
        var badNote := if s.badsigCount != 0 then [NatToString(s.badsigCount) + " badsigs"] else [];
        assert forall t :: t in badNote ==> t != "!KEY" && t != "!SIGNING" by {
          if s.badsigCount != 0 {
            var t := NatToString(s.badsigCount) + " badsigs";
            assert t[|t| - 1] == 's';
          }
        }
        keyNote + badNote
  }

  /** The delay of a connection behind the newest message from (sysid, compid)
      on any connection, in seconds; 0 unless delay checking is on. */
  function LinkDelay(checkDelay: bool, statusMsec: map<(nat, nat), int>, link: Link, key: (nat, nat)): (d: real)
    ensures !checkDelay ==> d == 0.0
    ensures checkDelay && key !in statusMsec && key !in link.highestMsec ==> d == 0.0
  {
    if checkDelay then
      (MapGet(statusMsec, key, 0) - MapGet(link.highestMsec, key, 0)) as real * 0.001
    else 0.0
  }

  function MapGet<K, V>(m: map<K, V>, k: K, default: V): V {
    if k in m then m[k] else default
  }

  /** Red for a connection in error; otherwise orange when signing needs
      attention or the connection lags by more than a second; dark green
      when all is well. */
  function LinkColour(link: Link, delay: real): (c: Colour)
    ensures c == Red <==> link.linkError
    ensures c == Orange <==> !link.linkError && (SigningNotes(link.signing) != [] || delay > 1.0)
    ensures c == DarkGreen <==> !link.linkError && SigningNotes(link.signing) == [] && delay <= 1.0
  {
    if link.linkError then Red
    else if SigningNotes(link.signing) != [] then Orange
    else if delay > 1.0 then Orange
    else DarkGreen
  }

  function LinkKey(n: nat): (k: string)
    ensures |k| > 4 && k[0] == 'L'
  {
    "Link" + NatToString(n)
  }

  /** The summary row of one connection. */
  function LinkSummary(link: Link, delay: real): (e: Event)
    ensures e.SetStatus? && e.key == LinkKey(link.linknum) && e.row == Some(1)
    ensures e.fg == LinkColour(link, delay)
    ensures e.shown.LinkLine? && e.shown.name == link.name && e.shown.down == link.linkError
    ensures !link.linkError ==> e.shown.percent == ReceivedPercent(link.count, link.loss)
                                && e.shown.notes == SigningNotes(link.signing)
  {
    var shown := if link.linkError then LinkLine(link.name, true, 0, 0, 0.0, 0.0, [])
                 else LinkLine(link.name, false, link.count, link.loss, ReceivedPercent(link.count, link.loss),
                               delay, SigningNotes(link.signing));
    SetStatus(LinkKey(link.linknum), shown, LinkColour(link, delay), Some(1))
  }

  /** Blanks the rows Link1 .. Link`n`. */
  function ClearLinks(n: nat): (r: seq<Event>)
    ensures |r| == n
    ensures forall i :: 0 <= i < n ==> r[i] == SetStatus(LinkKey(i + 1), Plain(""), Default, Some(1))
  {
    if n == 0 then [] else ClearLinks(n - 1) + [SetStatus(LinkKey(n), Plain(""), Default, Some(1))]
  }

  /** What `handle_heartbeat` reads from the primary vehicle and the settings. */
  datatype View = View(flightMode: string, vehicleName: string, armed: bool, safetyOn: bool, vehicleCount: nat,
                       checkDelay: bool, statusMsec: map<(nat, nat), int>, links: seq<Link>)

  /** The number of link rows last laid out, and the updates of one heartbeat. */
  datatype LinkUpdate = LinkUpdate(maxLinkNum: nat, events: seq<Event>)

  /** The mode shown, prefixed by the configured vehicle name and a colon
      when one is set. */
  function ModeText(flightMode: string, vehicleName: string): (r: string)
    ensures vehicleName == "" ==> r == flightMode
    ensures |r| == (if vehicleName == "" then 0 else |vehicleName| + 1) + |flightMode|
  {
    if vehicleName != "" then vehicleName + ":" + flightMode else flightMode
  }

  /** A named vehicle's mode reads "name:mode"; the mode always ends the text. */
  lemma ModeTextShape(flightMode: string, vehicleName: string)
    ensures var r := ModeText(flightMode, vehicleName);
            r[|r| - |flightMode|..] == flightMode
            && (vehicleName != "" ==> r[..|vehicleName|] == vehicleName && r[|vehicleName|] == ':')
  {
  }

  function ArmField(armed: bool, safetyOn: bool): (e: Event)
    ensures e.SetStatus? && e.key == "ARM"
    ensures e.fg == Green <==> armed
    ensures e.fg == Red <==> !armed
    ensures e.shown == Plain("ARM(SAFE)") <==> safetyOn
    ensures e.shown == Plain("ARM") <==> !safetyOn
  {
    Set("ARM", Plain(if safetyOn then "ARM(SAFE)" else "ARM"), if armed then Green else Red)
  }

  /** The mode, system-id and arming fields: the system id only when more
      than one vehicle is known. */
  function HeartbeatFields(v: View, sysid: nat): (r: seq<Event>)
    ensures |r| == if v.vehicleCount > 1 then 3 else 2
    ensures r[0] == Set("Mode", Plain(ModeText(v.flightMode, v.vehicleName)), Blue)
    ensures v.vehicleCount > 1 ==> r[1] == Set("SysID", Plain("Sys:" + NatToString(sysid)), Blue)
    ensures Touches(r, "SysID") <==> v.vehicleCount > 1
    ensures r[|r| - 1] == ArmField(v.armed, v.safetyOn)
  {
    [Set("Mode", Plain(ModeText(v.flightMode, v.vehicleName)), Blue)]
      + (if v.vehicleCount > 1 then [Set("SysID", Plain("Sys:" + NatToString(sysid)), Blue)] else [])
      + [ArmField(v.armed, v.safetyOn)]
  }

  function Summaries(v: View, key: (nat, nat)): (r: seq<Event>)
    ensures |r| == |v.links|
    ensures forall i :: 0 <= i < |r| ==> r[i] == LinkSummary(v.links[i], LinkDelay(v.checkDelay, v.statusMsec, v.links[i], key))
  {
    seq(|v.links|, i requires 0 <= i < |v.links| => LinkSummary(v.links[i], LinkDelay(v.checkDelay, v.statusMsec, v.links[i], key)))
  }

  /** `handle_heartbeat` for a heartbeat from (sysid, compid): the heartbeat
      fields; then, when the number of connections has changed since the
      last layout, the old rows Link1 .. Link`maxLinkNum` blanked; then one
      summary per connection, in connection order. */
  function HandleHeartbeat(maxLinkNum: nat, v: View, sysid: nat, compid: nat): (r: LinkUpdate)
    ensures r.maxLinkNum == |v.links|
    ensures var h := HeartbeatFields(v, sysid);
            var c := if maxLinkNum != |v.links| then maxLinkNum else 0;
            |r.events| == |h| + c + |v.links|
            && r.events[..|h|] == h
            && r.events[|h|..|h| + c] == ClearLinks(c)
            && r.events[|h| + c..] == Summaries(v, (sysid, compid))
  {
    var h := HeartbeatFields(v, sysid);
    var c := if maxLinkNum != |v.links| then maxLinkNum else 0;
    var e := h + ClearLinks(c) + Summaries(v, (sysid, compid));
    assert e[..|h|] == h;
    assert e[|h|..|h| + c] == ClearLinks(c);
    LinkUpdate(|v.links|, e)
  }

  /** A link row: its key starts with "L". */
  predicate IsLinkRow(e: Event) {
    e.SetStatus? && |e.key| > 0 && e.key[0] == 'L'
  }

  lemma LinkRowsOnly(n: nat, v: View, key: (nat, nat))
    ensures forall e :: e in ClearLinks(n) ==> IsLinkRow(e)
    ensures forall e :: e in Summaries(v, key) ==> IsLinkRow(e)
  {
    var cl, rows := ClearLinks(n), Summaries(v, key);
    forall e | e in cl
      ensures IsLinkRow(e)
    {
      var i :| 0 <= i < |cl| && cl[i] == e;
    }
    forall e | e in rows
      ensures IsLinkRow(e)
    {
      var i :| 0 <= i < |rows| && rows[i] == e;
    }
  }

  /** Every row after the heartbeat fields is a link row. */
  lemma RowsAfterFieldsAreLinkRows(maxLinkNum: nat, v: View, sysid: nat, compid: nat)
    ensures var r, h := HandleHeartbeat(maxLinkNum, v, sysid, compid).events, HeartbeatFields(v, sysid);
            forall j :: |h| <= j < |r| ==> IsLinkRow(r[j])
  {
    var r, h := HandleHeartbeat(maxLinkNum, v, sysid, compid).events, HeartbeatFields(v, sysid);
    var c := if maxLinkNum != |v.links| then maxLinkNum else 0;
    var clears, rows := r[|h|..|h| + c], r[|h| + c..];
    LinkRowsOnly(c, v, (sysid, compid));
    forall j | |h| <= j < |r|
      ensures IsLinkRow(r[j])
    {
      if j < |h| + c {
        assert r[j] == clears[j - |h|];
        assert clears[j - |h|] in clears;
      } else {
        assert r[j] == rows[j - |h| - c];
        assert rows[j - |h| - c] in rows;
      }
    }
  }

  /** The system-id field appears exactly when more than one vehicle is
      known, whatever the layout and whichever component sent the heartbeat. */
  lemma SysIdShownIffSeveralVehicles(maxLinkNum: nat, v: View, sysid: nat, compid: nat)
    ensures Touches(HandleHeartbeat(maxLinkNum, v, sysid, compid).events, "SysID") <==> v.vehicleCount > 1
  {
    var r, h := HandleHeartbeat(maxLinkNum, v, sysid, compid).events, HeartbeatFields(v, sysid);
    assert r[..|h|] == h;
    if v.vehicleCount > 1 {
      assert r[1] == r[..|h|][1];
    } else {
      RowsAfterFieldsAreLinkRows(maxLinkNum, v, sysid, compid);
      forall j | 0 <= j < |r| && r[j].SetStatus?
        ensures r[j].key != "SysID"
      {
        if j < |h| {
          assert r[j] == r[..|h|][j];
        } else {
          assert IsLinkRow(r[j]);
        }
      }
    }
  }

  /** Link rows are blanked only when the number of connections changed, and
      a second heartbeat over the same connections blanks nothing. */
  lemma LayoutSettles(maxLinkNum: nat, v: View, sysid: nat, compid: nat)
    ensures var first := HandleHeartbeat(maxLinkNum, v, sysid, compid);
            var second := HandleHeartbeat(first.maxLinkNum, v, sysid, compid);
            second.events == HeartbeatFields(v, sysid) + Summaries(v, (sysid, compid))
            && (maxLinkNum == |v.links| ==> first.events == second.events)
  {
    assert HeartbeatFields(v, sysid) + [] == HeartbeatFields(v, sysid);
  }
}

=== FILE: mission.dfy ===
/** Mission progress: the estimated-time-remaining walk over the waypoint list
    (following DO_JUMP with a visited set so jump cycles end), the smoothed
    cruise speed that divides it, and the MISSION_CURRENT handler that ties
    them together (mavproxy_console.py, `estimated_time_remaining` and
    `handle_mission_current`). */
module Mission {
  import opened Base
  import opened Numerals
  import opened Status

  // MAV_CMD values from the MAVLink common message set.
  const MAV_CMD_NAV_WAYPOINT: nat := 16
  const MAV_CMD_NAV_LOITER_UNLIM: nat := 17
  const MAV_CMD_NAV_LOITER_TURNS: nat := 18
  const MAV_CMD_NAV_LOITER_TIME: nat := 19
  const MAV_CMD_NAV_LAND: nat := 21
  const MAV_CMD_NAV_TAKEOFF: nat := 22
  const MAV_CMD_DO_JUMP: nat := 177

  /** A mission item as the waypoint store hands it out: command, first
      parameter (the jump target for DO_JUMP) and position. */
  datatype Waypoint = Waypoint(command: nat, param1: real, x: real, y: real)

  /** Great-circle distance between two (lat, lon) points; supplied by the caller. */
  type Distance = (real, real, real, real) -> real

  ghost predicate NonNegative(dist: Distance) {
    forall a, b, c, d :: dist(a, b, c, d) >= 0.0
  }

  predicate IsNavCommand(command: nat) {
    command in {MAV_CMD_NAV_WAYPOINT, MAV_CMD_NAV_LOITER_UNLIM, MAV_CMD_NAV_LOITER_TURNS,
                MAV_CMD_NAV_LOITER_TIME, MAV_CMD_NAV_LAND, MAV_CMD_NAV_TAKEOFF}
  }

  /** A navigation item with a position: it adds a leg to the walk and moves
      the reference point. */
  predicate AddsLeg(w: Waypoint) {
    (w.x != 0.0 || w.y != 0.0) && IsNavCommand(w.command)
  }

  /** `int(w.param1)`: where a DO_JUMP sends the walk. */
  function JumpTarget(w: Waypoint): int {
    Trunc(w.param1)
  }

  /** `wploader.wp(idx)`: the store is a Python list, so a negative index
      counts from the end; anything else outside the list has no item. */
  function Lookup(wps: seq<Waypoint>, idx: int): (r: Option<Waypoint>)
    ensures r.Some? <==> -|wps| <= idx < |wps|
    ensures 0 <= idx < |wps| ==> r == Some(wps[idx])
    ensures -|wps| <= idx < 0 ==> r == Some(wps[|wps| + idx])
  {
    if 0 <= idx < |wps| then Some(wps[idx])
    else if -|wps| <= idx < 0 then Some(wps[|wps| + idx])
    else None
  }

  /** Every element of `s` lies in [lo, hi). */
  predicate Within(s: set<int>, lo: int, hi: int) {
    forall i :: i in s ==> lo <= i < hi
  }

  /** A set of integers inside [lo, hi) has at most hi - lo elements. */
  lemma {:induction false} WithinSize(s: set<int>, lo: int, hi: int)
    requires Within(s, lo, hi)
    ensures |s| <= if lo <= hi then hi - lo else 0
    decreases hi - lo
  {
    if hi <= lo {
      assert forall i :: i !in s;
      assert s == {};
    } else {
      var s' := s - {hi - 1};
      assert |s| <= |s'| + 1;
      WithinSize(s', lo, hi - 1);
    }
  }

  /** Every DO_JUMP in the mission targets a non-negative index. */
  predicate ForwardIndexedJumps(wps: seq<Waypoint>) {
    forall i :: 0 <= i < |wps| && wps[i].command == MAV_CMD_DO_JUMP ==> JumpTarget(wps[i]) >= 0
  }

  /** The walk from `idx`, with `done` already visited, reference point
      (lat, lon) and distance `acc` accumulated so far. `None` is the failure
      the source raises when a jump leads below the start of the list: it
      needs a start below the list or a jump to a negative index. */
  function Walk(wps: seq<Waypoint>, dist: Distance, idx: int, done: set<int>,
                lat: real, lon: real, acc: real): (r: Option<real>)
    requires Within(done, -|wps|, |wps|)
    ensures r.None? ==> idx < -|wps| || !ForwardIndexedJumps(wps)
    decreases 2 * |wps| - |done|
  {
    if idx >= |wps| || idx in done then Some(acc)
    else match Lookup(wps, idx)
      case None => None
      case Some(w) =>
        WithinSize(done + {idx}, -|wps|, |wps|);
        if w.command == MAV_CMD_DO_JUMP then
          Walk(wps, dist, JumpTarget(w), done + {idx}, lat, lon, acc)
        else if AddsLeg(w) then
          var acc' := acc + dist(lat, lon, w.x, w.y);
          if w.command == MAV_CMD_NAV_LAND then Some(acc')
          else Walk(wps, dist, idx + 1, done + {idx}, w.x, w.y, acc')
        else
          Walk(wps, dist, idx + 1, done + {idx}, lat, lon, acc)
  }

  /** Seconds to finish the mission from item `wpnum` at `speed`; `store` is
      `None` when no waypoint module is loaded. The estimate is zero past the
      end of the mission and fails only on a jump to a negative index. */
  function EstimatedTimeRemaining(store: Option<seq<Waypoint>>, dist: Distance,
                                  lat: real, lon: real, wpnum: nat, speed: real): (r: Option<real>)
    requires speed != 0.0
    ensures store.None? || wpnum >= |store.value| ==> r == Some(0.0)
    ensures r.None? ==> store.Some? && !ForwardIndexedJumps(store.value)
  {
    if store.None? || wpnum >= |store.value| then Some(0.0)
    else match Walk(store.value, dist, wpnum, {}, lat, lon, 0.0)
      case None => None
      case Some(d) => Some(d / speed)
  }

  /** The loop of `estimated_time_remaining`. `steps` is the number of list
      items it processed: at most twice the mission length whatever the jumps
      (the visited set only holds indices the list can serve), and at most
      the mission length when every jump targets a non-negative index. */
  method EstimateTimeRemaining(store: Option<seq<Waypoint>>, dist: Distance,
                               lat: real, lon: real, wpnum: nat, speed: real)
    returns (r: Option<real>, steps: nat)
    requires speed != 0.0
    ensures r == EstimatedTimeRemaining(store, dist, lat, lon, wpnum, speed)
    ensures store.None? || wpnum >= |store.value| ==> r == Some(0.0) && steps == 0
    ensures store.Some? ==> steps <= 2 * |store.value|
    ensures store.Some? && ForwardIndexedJumps(store.value) ==> steps <= |store.value|
  {
    if store.None? || wpnum >= |store.value| {
      return Some(0.0), 0;
    }
    var wps := store.value;
    var n := |wps|;
    var idx: int := wpnum;
    var done: set<int> := {};
    var distance := 0.0;
    var curLat, curLon := lat, lon;
    steps := 0;
    while idx < n
      invariant Within(done, -n, n)
      invariant steps == |done|
      invariant Walk(wps, dist, idx, done, curLat, curLon, distance) == Walk(wps, dist, wpnum, {}, lat, lon, 0.0)
      invariant ForwardIndexedJumps(wps) ==> idx >= 0 && Within(done, 0, n)
      decreases 2 * n - |done|
    {
      if idx in done {
        break;
      }
      var w := Lookup(wps, idx);
      if w.None? {
        WithinSize(done, -n, n);
        return None, steps;
      }
      var item := w.value;
      WithinSize(done + {idx}, -n, n);
      done := done + {idx};
      steps := steps + 1;
      if item.command == MAV_CMD_DO_JUMP {
        idx := JumpTarget(item);
        continue;
      }
      idx := idx + 1;
      if AddsLeg(item) {
        distance := distance + dist(curLat, curLon, item.x, item.y);
        curLat, curLon := item.x, item.y;
        if item.command == MAV_CMD_NAV_LAND {
          break;
        }
      }
    }
    WithinSize(done, -n, n);
    if ForwardIndexedJumps(wps) {
      WithinSize(done, 0, n);
    }
    r := Some(distance / speed);
  }

  /** With a non-negative distance function the walk never decreases the
      distance accumulated so far. */
  lemma {:induction false} WalkAtLeastAccumulated(wps: seq<Waypoint>, dist: Distance, idx: int, done: set<int>,
                                                  lat: real, lon: real, acc: real)
    requires Within(done, -|wps|, |wps|)
    requires NonNegative(dist)
    ensures Walk(wps, dist, idx, done, lat, lon, acc).Some? ==> Walk(wps, dist, idx, done, lat, lon, acc).value >= acc
    decreases 2 * |wps| - |done|
  {
    if idx >= |wps| || idx in done {
    } else if Lookup(wps, idx).Some? {
      var w := Lookup(wps, idx).value;
      WithinSize(done + {idx}, -|wps|, |wps|);
      if w.command == MAV_CMD_DO_JUMP {
        WalkAtLeastAccumulated(wps, dist, JumpTarget(w), done + {idx}, lat, lon, acc);
      } else if AddsLeg(w) {
        var acc' := acc + dist(lat, lon, w.x, w.y);
        assert acc' >= acc;
        if w.command != MAV_CMD_NAV_LAND {
          WalkAtLeastAccumulated(wps, dist, idx + 1, done + {idx}, w.x, w.y, acc');
        }
      } else {
        WalkAtLeastAccumulated(wps, dist, idx + 1, done + {idx}, lat, lon, acc);
      }
    }
  }

  /** The estimate is never negative when speed is positive and distances are. */
  lemma EstimateNonNegative(store: Option<seq<Waypoint>>, dist: Distance,
                            lat: real, lon: real, wpnum: nat, speed: real)
    requires speed > 0.0
    requires NonNegative(dist)
    ensures var r := EstimatedTimeRemaining(store, dist, lat, lon, wpnum, speed);
            r.Some? ==> r.value >= 0.0
  {
    if store.Some? && wpnum < |store.value| {
      WalkAtLeastAccumulated(store.value, dist, wpnum, {}, lat, lon, 0.0);
    }
  }

  /** Only positioned navigation items add distance: a mission without them
      accumulates nothing, whatever its jumps. */
  lemma {:induction false} WalkWithoutLegs(wps: seq<Waypoint>, dist: Distance, idx: int, done: set<int>,
                                           lat: real, lon: real, acc: real)
    requires Within(done, -|wps|, |wps|)
    requires forall i :: 0 <= i < |wps| ==> !AddsLeg(wps[i])
    ensures Walk(wps, dist, idx, done, lat, lon, acc) in {None, Some(acc)}
    decreases 2 * |wps| - |done|
  {
    if idx >= |wps| || idx in done {
    } else if Lookup(wps, idx).Some? {
      var w := Lookup(wps, idx).value;
      WithinSize(done + {idx}, -|wps|, |wps|);
      assert !AddsLeg(w) by {
        if idx >= 0 { assert w == wps[idx]; } else { assert w == wps[|wps| + idx]; }
      }
      if w.command == MAV_CMD_DO_JUMP {
        WalkWithoutLegs(wps, dist, JumpTarget(w), done + {idx}, lat, lon, acc);
      } else {
        WalkWithoutLegs(wps, dist, idx + 1, done + {idx}, lat, lon, acc);
      }
    }
  }

  /** Reaching a positioned LAND adds its leg and ends the walk, whatever follows it. */
  lemma WalkEndsAtLand(wps: seq<Waypoint>, dist: Distance, idx: int, done: set<int>,
                       lat: real, lon: real, acc: real)
    requires Within(done, -|wps|, |wps|)
    requires 0 <= idx < |wps| && idx !in done
    requires wps[idx].command == MAV_CMD_NAV_LAND && (wps[idx].x != 0.0 || wps[idx].y != 0.0)
    ensures Walk(wps, dist, idx, done, lat, lon, acc) == Some(acc + dist(lat, lon, wps[idx].x, wps[idx].y))
  {
  }

  /** A DO_JUMP back to an item already walked ends the walk with the
      distance accumulated so far: the jump loop is never repeated. */
  lemma JumpToVisitedEnds(wps: seq<Waypoint>, dist: Distance, idx: int, done: set<int>,
                          lat: real, lon: real, acc: real)
    requires Within(done, -|wps|, |wps|)
    requires 0 <= idx < |wps| && idx !in done
    requires wps[idx].command == MAV_CMD_DO_JUMP && JumpTarget(wps[idx]) in done + {idx}
    ensures Walk(wps, dist, idx, done, lat, lon, acc) == Some(acc)
  {
    WithinSize(done + {idx}, -|wps|, |wps|);
  }

  /** An example of the jump rule: a three-item mission whose second item
      jumps back to the first ends when it revisits item 0, having counted
      only the leg to item 0. */
  lemma JumpCycleTerminates(dist: Distance, lat: real, lon: real, speed: real)
    requires speed > 0.0
    ensures var wps := [Waypoint(MAV_CMD_NAV_WAYPOINT, 0.0, 1.0, 1.0),
                        Waypoint(MAV_CMD_DO_JUMP, 0.0, 0.0, 0.0),
                        Waypoint(MAV_CMD_NAV_WAYPOINT, 0.0, 2.0, 2.0)];
            EstimatedTimeRemaining(Some(wps), dist, lat, lon, 0, speed) == Some(dist(lat, lon, 1.0, 1.0) / speed)
  {
    var wps := [Waypoint(MAV_CMD_NAV_WAYPOINT, 0.0, 1.0, 1.0),
                Waypoint(MAV_CMD_DO_JUMP, 0.0, 0.0, 0.0),
                Waypoint(MAV_CMD_NAV_WAYPOINT, 0.0, 2.0, 2.0)];
    var d0 := dist(lat, lon, 1.0, 1.0);
    assert JumpTarget(wps[1]) == 0;
    var done0: set<int> := {};
    var done1 := done0 + {0};
    var done2 := done1 + {1};
    assert Walk(wps, dist, 0, done2, 1.0, 1.0, d0) == Some(d0);
    JumpToVisitedEnds(wps, dist, 1, done1, 1.0, 1.0, d0);
    assert Walk(wps, dist, 0, done0, lat, lon, 0.0) == Some(d0);
  }

  /** `handle_mission_current`'s speed update: a reading more than 5 away
      from the estimate replaces it, a closer one is blended in with weight
      0.02, and the result is floored at 1. */
  function SmoothSpeed(speed: real, airspeed: real): (r: real)
    ensures r >= 1.0
    ensures Abs(airspeed - speed) > 5.0 ==> r == Max(1.0, airspeed)
    ensures Abs(airspeed - speed) <= 5.0 ==> r == Max(1.0, speed + 0.02 * (airspeed - speed))
    ensures Abs(airspeed - speed) > 5.0 && airspeed >= 1.0 ==> r == airspeed
    ensures Abs(airspeed - speed) <= 5.0 && speed >= 1.0 && airspeed >= 1.0 ==>
              Abs(r - airspeed) == 0.98 * Abs(speed - airspeed)
              && (speed <= r <= airspeed || airspeed <= r <= speed)
  {
    var s := if Abs(airspeed - speed) > 5.0 then airspeed else 0.98 * speed + 0.02 * airspeed;
    Max(1.0, s)
  }

  /** A steady reading equal to the estimate leaves it unchanged. */
  lemma SmoothSpeedSteady(speed: real)
    requires speed >= 1.0
    ensures SmoothSpeed(speed, speed) == speed
  {
  }

  /** What one MISSION_CURRENT does to the engine: the new speed estimate,
      the status updates, and whether the handler finished (false when the
      walk failed and the source raised). */
  datatype MissionUpdate = MissionUpdate(speed: real, events: seq<Event>, completed: bool)

  /** `handle_mission_current`. `latE7`/`lonE7` are the last GLOBAL_POSITION_INT
      position (0 when none has arrived) and `airspeed` the last VFR_HUD airspeed. */
  function HandleMissionCurrent(store: Option<seq<Waypoint>>, dist: Distance, speed: real,
                                seqNum: nat, latE7: int, lonE7: int, airspeed: Option<real>): (r: MissionUpdate)
    ensures latE7 == 0 || lonE7 == 0 ==> r == MissionUpdate(speed, r.events, true) && |r.events| == 1
    ensures latE7 != 0 && lonE7 != 0 ==> r.speed == SmoothSpeed(speed, airspeed.GetOr(30.0))
    ensures |r.events| >= 1 && r.events[0] == Set("WP", Plain("WP " + NatToString(seqNum) + WpMaxText(store)), Default)
    ensures r.completed && latE7 != 0 && lonE7 != 0 ==>
              |r.events| == 2 && r.events[1].SetStatus? && r.events[1].key == "ETR" && r.events[1].shown.Clock?
    ensures latE7 != 0 && lonE7 != 0 ==>
              var t := EstimatedTimeRemaining(store, dist, latE7 as real * 0.0000001, lonE7 as real * 0.0000001,
                                              seqNum, r.speed);
              (r.completed <==> t.Some?)
              && (t.Some? ==> r.events[1] == Set("ETR", Clock("ETR", Trunc(t.value)), Default))
  {
    var wp := Set("WP", Plain("WP " + NatToString(seqNum) + WpMaxText(store)), Default);
    if latE7 == 0 || lonE7 == 0 then MissionUpdate(speed, [wp], true)
    else
      var lat := latE7 as real * 0.0000001;
      var lon := lonE7 as real * 0.0000001;
      var speed' := SmoothSpeed(speed, airspeed.GetOr(30.0));
      match EstimatedTimeRemaining(store, dist, lat, lon, seqNum, speed')
      case None => MissionUpdate(speed', [wp], false)
      case Some(t) => MissionUpdate(speed', [wp, Set("ETR", Clock("ETR", Trunc(t)), Default)], true)
  }

  /** The handler raises only when the mission holds a DO_JUMP to a negative
      index, which is the one way the walk can fail. */
  lemma MissionCurrentRaisesOnlyOnBackwardJump(store: Option<seq<Waypoint>>, dist: Distance, speed: real,
                                               seqNum: nat, latE7: int, lonE7: int, airspeed: Option<real>)
    ensures !HandleMissionCurrent(store, dist, speed, seqNum, latE7, lonE7, airspeed).completed ==>
              latE7 != 0 && lonE7 != 0 && store.Some? && !ForwardIndexedJumps(store.value)
  {
  }

  /** The "/count" suffix of the WP field, empty when there is no mission. */
  function WpMaxText(store: Option<seq<Waypoint>>): (r: string)
    ensures r == "" <==> store.None? || |store.value| == 0
    ensures r != "" ==> r[0] == '/' && ParseNat(r[1..]) == Some(|store.value|)
  {
    if store.Some? && |store.value| > 0 then ParseNatToString(|store.value|); "/" + NatToString(|store.value|) else ""
  }
}

=== FILE: numerals.dfy ===
/** Decimal rendering and parsing of integers: what Python's `'%u' % n` prints
    and what `int(s)` reads back, restricted to plain ASCII digits with an
    optional sign. */
module Numerals {
  import opened Base

  predicate IsDigit(c: char) {
    '0' <= c <= '9'
  }

  predicate AllDigits(s: string) {
    forall i :: 0 <= i < |s| ==> IsDigit(s[i])
  }

  function DigitChar(d: nat): (c: char)
    requires d < 10
    ensures IsDigit(c)
  {
    ('0' as int + d) as char
  }

  function DigitValue(c: char): (d: nat)
    requires IsDigit(c)
    ensures d < 10
  {
    (c as int - '0' as int) as nat
  }

  /** Decimal digits of `n`, most significant first, without leading zeros. */
  function NatToString(n: nat): (s: string)
    ensures |s| >= 1
    ensures AllDigits(s)
    ensures |s| > 1 ==> s[0] != '0'
    decreases n
  {
    if n < 10 then [DigitChar(n)] else NatToString(n / 10) + [DigitChar(n % 10)]
  }

  /** `'%u' % n` / `'%d' % n` on a Python int: a minus sign precedes a negative value. */
  function IntToString(n: int): (s: string)
    ensures |s| >= 1
    ensures n < 0 <==> s[0] == '-'
  {
    if n < 0 then "-" + NatToString(-n) else NatToString(n)
  }

  /** `'%3u' % n`: right-aligned in a field of width three. */
  function PadLeft3(s: string): (r: string)
    ensures |r| == if |s| < 3 then 3 else |s|
    ensures r[|r| - |s|..] == s
    ensures forall i :: 0 <= i < |r| - |s| ==> r[i] == ' '
  {
    if |s| >= 3 then s else seq(3 - |s|, _ => ' ') + s
  }

  /** The value of a string of decimal digits. */
  function DigitsValue(s: string): nat
    requires AllDigits(s)
  {
    if |s| == 0 then 0 else DigitsValue(s[..|s| - 1]) * 10 + DigitValue(s[|s| - 1])
  }

  /** Unsigned decimal parse: `None` unless `s` is a non-empty digit string. */
  function ParseNat(s: string): (r: Option<nat>)
    ensures r.Some? <==> |s| > 0 && AllDigits(s)
  {
    if |s| > 0 && AllDigits(s) then Some(DigitsValue(s)) else None
  }

  predicate IsSign(c: char) {
    c == '-' || c == '+'
  }

  /** Python's `int(s)` on an optionally signed digit string; `None` stands
      for the `ValueError` it raises on anything else. */
  function ParseInt(s: string): (r: Option<int>)
    ensures r.Some? <==> (|s| > 0 && AllDigits(s)) || (|s| > 1 && IsSign(s[0]) && AllDigits(s[1..]))
    ensures |s| > 0 && AllDigits(s) ==> r == Some(DigitsValue(s))
    ensures |s| > 1 && s[0] == '+' && AllDigits(s[1..]) ==> r == Some(DigitsValue(s[1..]))
    ensures |s| > 1 && s[0] == '-' && AllDigits(s[1..]) ==> r.Some? && r.value == 0 - DigitsValue(s[1..]) as int
  {
    if |s| > 0 && s[0] == '-' then
      match ParseNat(s[1..])
      case Some(n) => Some(0 - n)
      case None => None
    else if |s| > 0 && s[0] == '+' then
      match ParseNat(s[1..])
      case Some(n) => Some(n)
      case None => None
    else
      match ParseNat(s)
      case Some(n) => Some(n)
      case None => None
  }

  lemma {:induction false} DigitsValueOfNatToString(n: nat)
    ensures DigitsValue(NatToString(n)) == n
    decreases n
  {
    if n < 10 {
      assert NatToString(n) == [DigitChar(n)];
      assert NatToString(n)[..0] == [];
    } else {
      var s := NatToString(n);
      var p := NatToString(n / 10);
      assert s == p + [DigitChar(n % 10)];
      assert s[..|s| - 1] == p;
      DigitsValueOfNatToString(n / 10);
    }
  }

  /** Rendering a natural number and reading it back gives the number. */
  lemma ParseNatToString(n: nat)
    ensures ParseNat(NatToString(n)) == Some(n)
  {
    DigitsValueOfNatToString(n);
  }

  /** Rendering any integer and reading it back with `int()` gives the integer. */
  lemma ParseIntToString(n: int)
    ensures ParseInt(IntToString(n)) == Some(n)
  {
    if n < 0 {
      var s := IntToString(n);
      assert s[1..] == NatToString(-n);
      ParseNatToString(-n);
    } else {
      ParseNatToString(n);
    }
  }

  /** Distinct numbers render to distinct strings. */
  lemma NatToStringInjective(a: nat, b: nat)
    requires NatToString(a) == NatToString(b)
    ensures a == b
  {
    DigitsValueOfNatToString(a);
    DigitsValueOfNatToString(b);
  }
}

=== FILE: probe.dfy ===
/** Discovery of FLIGHT_INFORMATION support (mavproxy_console.py,
    `probe_for_flight_information`, `handle_flight_information`,
    `handle_command_ack`): a per-system record of whether the vehicle sends
    FLIGHT_INFORMATION, refreshed by a rate-limited SET_MESSAGE_INTERVAL
    request. Times are seconds of the wall clock, passed in as `now`. */
module Probe {
  import opened Base
  import opened Status

  const MAV_CMD_SET_MESSAGE_INTERVAL: nat := 511
  const MAVLINK_MSG_ID_FLIGHT_INFORMATION: nat := 264
  const MAV_RESULT_ACCEPTED: nat := 0
  const MAV_RESULT_DENIED: nat := 2
  const MAV_RESULT_FAILED: nat := 4

  /** Requested FLIGHT_INFORMATION interval in microseconds (2 Hz). */
  const PROBE_INTERVAL_US: nat := 500000
  /** Seconds without FLIGHT_INFORMATION after which support is re-examined,
      and the minimum spacing of requests. */
  const STALE_AFTER: real := 10.0

  /** `supported`: None, True or False in the source. */
  datatype Support = Unknown | Supported | Unsupported

  datatype FlightInformation = FlightInformation(supported: Support, lastSeen: Option<real>, lastSent: Option<real>)

  const Fresh := FlightInformation(Unknown, None, None)

  type Table = map<nat, FlightInformation>

  /** The record of `sysid`, a fresh one if there is none yet. */
  function Record(t: Table, sysid: nat): FlightInformation {
    if sysid in t then t[sysid] else Fresh
  }

  /** The request that asks `sysid` to stream FLIGHT_INFORMATION at 2 Hz. */
  function Request(sysid: nat, compid: nat): Command {
    CommandLong(sysid, compid, MAV_CMD_SET_MESSAGE_INTERVAL, MAVLINK_MSG_ID_FLIGHT_INFORMATION, PROBE_INTERVAL_US)
  }

  /** The source's own guarded staleness rule: a record that is not known
      to be unsupported becomes unknown again once FLIGHT_INFORMATION has not
      been seen for more than ten seconds (or never). */
  function Aged(fi: FlightInformation, now: real): (r: FlightInformation)
    ensures r.lastSeen == fi.lastSeen && r.lastSent == fi.lastSent
    ensures fi.supported == Unsupported ==> r.supported == Unsupported
    ensures fi.supported == Supported ==>
      (r.supported == Supported <==> fi.lastSeen.Some? && now - fi.lastSeen.value <= STALE_AFTER)
    ensures fi.supported == Unknown ==> r.supported == Unknown
  {
    if fi.supported != Unsupported && (fi.lastSeen.None? || now - fi.lastSeen.value > STALE_AFTER)
    then fi.(supported := Unknown)
    else fi
  }

  /** Whether a request is due: support unknown and no request in the last ten seconds. */
  predicate Due(fi: FlightInformation, now: real) {
    fi.supported == Unknown && (fi.lastSent.None? || now - fi.lastSent.value >= STALE_AFTER)
  }

  datatype Probed = Probed(table: Table, command: Option<Command>)

  /** `probe_for_flight_information`, run after every message from the
      primary vehicle. Only the prober's own record changes; a request is
      sent exactly when one is due after ageing, and its time is recorded. */
  function ProbeFor(t: Table, sysid: nat, compid: nat, now: real): (r: Probed)
    ensures sysid in r.table && r.table == t[sysid := r.table[sysid]]
    ensures r.table[sysid].supported == Aged(Record(t, sysid), now).supported
    ensures r.table[sysid].lastSeen == Record(t, sysid).lastSeen
    ensures r.command.Some? <==> Due(Aged(Record(t, sysid), now), now)
    ensures r.command.Some? ==> r.command.value == Request(sysid, compid) && r.table[sysid].lastSent == Some(now)
    ensures r.command.None? ==> r.table[sysid].lastSent == Record(t, sysid).lastSent
  {
    var fi := Aged(Record(t, sysid), now);
    if fi.supported != Unknown then Probed(t[sysid := fi], None)
    else if fi.lastSent.Some? && now - fi.lastSent.value < STALE_AFTER then Probed(t[sysid := fi], None)
    else Probed(t[sysid := fi.(lastSent := Some(now))], Some(Request(sysid, compid)))
  }

  /** `handle_command_ack`: only an acknowledgement of SET_MESSAGE_INTERVAL
      from a system with a record counts; ACCEPTED marks it supported, DENIED
      or FAILED unsupported, any other result changes nothing. */
  function HandleCommandAck(t: Table, sysid: nat, command: nat, result: nat): (r: Table)
    ensures command != MAV_CMD_SET_MESSAGE_INTERVAL || sysid !in t ==> r == t
    ensures r.Keys == t.Keys
    ensures forall s :: s in t && s != sysid ==> r[s] == t[s]
    ensures sysid in t ==> r[sysid].lastSeen == t[sysid].lastSeen && r[sysid].lastSent == t[sysid].lastSent
    ensures sysid in t && command == MAV_CMD_SET_MESSAGE_INTERVAL ==>
      r[sysid].supported == (if result == MAV_RESULT_ACCEPTED then Supported
                             else if result == MAV_RESULT_DENIED || result == MAV_RESULT_FAILED then Unsupported
                             else t[sysid].supported)
  {
    if command != MAV_CMD_SET_MESSAGE_INTERVAL || sysid !in t then t
    else if result == MAV_RESULT_ACCEPTED then t[sysid := t[sysid].(supported := Supported)]
    else if result == MAV_RESULT_DENIED || result == MAV_RESULT_FAILED then t[sysid := t[sysid].(supported := Unsupported)]
    else t
  }

  datatype Informed = Informed(table: Table, events: seq<Event>)

  /** The flight time a FLIGHT_INFORMATION message reports, in whole seconds:
      boot time in milliseconds less the take-off stamp in microseconds. */
  function ReportedFlightTime(timeBootMs: nat, takeoffUs: nat): (s: int)
    ensures timeBootMs * 1000 >= takeoffUs ==>
      0 <= s && s * 1000000 <= timeBootMs * 1000 - takeoffUs < (s + 1) * 1000000
  {
    Trunc((timeBootMs as real - takeoffUs as real * 0.001) * 0.001)
  }

  /** `handle_flight_information`: records when the message was seen, and
      unless the vehicle reports itself landed (take-off stamp 0) shows the
      flight time it reports. */
  function HandleFlightInformation(t: Table, sysid: nat, now: real, timeBootMs: nat, takeoffUs: nat): (r: Informed)
    ensures r.table == t[sysid := Record(t, sysid).(lastSeen := Some(now))]
    ensures takeoffUs == 0 <==> r.events == []
    ensures takeoffUs != 0 ==>
      r.events == [Set("FlightTime", Clock("FlightTime", ReportedFlightTime(timeBootMs, takeoffUs)), Default)]
  {
    var t' := t[sysid := Record(t, sysid).(lastSeen := Some(now))];
    if takeoffUs == 0 then Informed(t', [])
    else Informed(t', [Set("FlightTime", Clock("FlightTime", ReportedFlightTime(timeBootMs, takeoffUs)), Default)])
  }

  /** VFR_HUD stops driving the local flight timer for a system known to
      report FLIGHT_INFORMATION. */
  function Supersedes(t: Table, sysid: nat): (b: bool)
    ensures b <==> Record(t, sysid).supported == Supported
    ensures sysid !in t ==> !b
  {
    sysid in t && t[sysid].supported == Supported
  }

  // ---------------------------------------------------------------- properties

  /** A system that refused the request is never asked again, whatever the time. */
  lemma UnsupportedIsPermanent(t: Table, sysid: nat, compid: nat, now: real)
    requires sysid in t && t[sysid].supported == Unsupported
    ensures ProbeFor(t, sysid, compid, now).command.None?
    ensures ProbeFor(t, sysid, compid, now).table[sysid] == t[sysid]
  {
  }

  /** A supported system that has gone quiet for more than ten seconds is
      re-examined, and asked again if the last request is old enough. */
  lemma SupportLapses(t: Table, sysid: nat, compid: nat, now: real)
    requires sysid in t && t[sysid].supported == Supported
    requires t[sysid].lastSeen.None? || now - t[sysid].lastSeen.value > STALE_AFTER
    requires t[sysid].lastSent.None? || now - t[sysid].lastSent.value >= STALE_AFTER
    ensures ProbeFor(t, sysid, compid, now).command == Some(Request(sysid, compid))
    ensures !Supersedes(ProbeFor(t, sysid, compid, now).table, sysid)
  {
  }

  /** An ACCEPTED acknowledgement before any FLIGHT_INFORMATION arrives does
      not survive the next probe: the record is unknown again at once. */
  lemma AcceptedWithoutDataLapses(t: Table, sysid: nat, compid: nat, now: real)
    requires sysid in t && t[sysid].lastSeen.None?
    ensures var acked := HandleCommandAck(t, sysid, MAV_CMD_SET_MESSAGE_INTERVAL, MAV_RESULT_ACCEPTED);
            Supersedes(acked, sysid) && !Supersedes(ProbeFor(acked, sysid, compid, now).table, sysid)
  {
  }

  /** A supported system heard from within ten seconds stays supported and is
      not asked again. */
  lemma SupportHolds(t: Table, sysid: nat, compid: nat, now: real)
    requires sysid in t && t[sysid].supported == Supported
    requires t[sysid].lastSeen.Some? && now - t[sysid].lastSeen.value <= STALE_AFTER
    ensures ProbeFor(t, sysid, compid, now).command.None?
    ensures Supersedes(ProbeFor(t, sysid, compid, now).table, sysid)
  {
  }

  // ---------------------------------------------------------------- traces

  /** The inputs that touch the table: a probe after a message from
      (sysid, compid), a FLIGHT_INFORMATION, and a COMMAND_ACK. */
  datatype Input =
    | ProbeAt(sysid: nat, compid: nat, now: real)
    | SeenAt(sysid: nat, now: real, timeBootMs: nat, takeoffUs: nat)
    | AckOf(sysid: nat, command: nat, result: nat)

  /** A request sent to `sysid` at time `at`. */
  datatype Sent = Sent(sysid: nat, at: real)

  datatype Run = Run(table: Table, sent: seq<Sent>)

  function Step(r: Run, input: Input): Run {
    match input
    case ProbeAt(sysid, compid, now) =>
      var p := ProbeFor(r.table, sysid, compid, now);
      Run(p.table, if p.command.Some? then r.sent + [Sent(sysid, now)] else r.sent)
    case SeenAt(sysid, now, boot, takeoff) => Run(HandleFlightInformation(r.table, sysid, now, boot, takeoff).table, r.sent)
    case AckOf(sysid, command, result) => Run(HandleCommandAck(r.table, sysid, command, result), r.sent)
  }

  function RunInputs(t: Table, inputs: seq<Input>): Run {
    if |inputs| == 0 then Run(t, []) else Step(RunInputs(t, inputs[..|inputs| - 1]), inputs[|inputs| - 1])
  }

  /** Every request so far is recorded in its system's record, no later than
      the record's last-sent time. */
  ghost predicate Recorded(r: Run) {
    forall i :: 0 <= i < |r.sent| ==>
      r.sent[i].sysid in r.table && r.table[r.sent[i].sysid].lastSent.Some?
      && r.sent[i].at <= r.table[r.sent[i].sysid].lastSent.value
  }

  /** Requests to the same system are at least ten seconds apart. */
  ghost predicate Spaced(sent: seq<Sent>) {
    forall i, j :: 0 <= i < j < |sent| && sent[i].sysid == sent[j].sysid ==> sent[j].at - sent[i].at >= STALE_AFTER
  }

  lemma {:induction false} RunRecordedAndSpaced(t: Table, inputs: seq<Input>)
    ensures Recorded(RunInputs(t, inputs)) && Spaced(RunInputs(t, inputs).sent)
  {
    if |inputs| > 0 {
      var before := RunInputs(t, inputs[..|inputs| - 1]);
      RunRecordedAndSpaced(t, inputs[..|inputs| - 1]);
      var input := inputs[|inputs| - 1];
      var after := Step(before, input);
      assert after == RunInputs(t, inputs);
      match input
      case ProbeAt(sysid, compid, now) =>
        var p := ProbeFor(before.table, sysid, compid, now);
        if p.command.Some? {
          assert after.sent == before.sent + [Sent(sysid, now)];
          forall i | 0 <= i < |before.sent| && before.sent[i].sysid == sysid
            ensures now - before.sent[i].at >= STALE_AFTER
          {
            assert Record(before.table, sysid).lastSent.Some?;
          }
        }
      case SeenAt(sysid, now, boot, takeoff) =>
      case AckOf(sysid, command, result) =>
    }
  }

  /** However the clock behaves, the console never asks the same system for
      FLIGHT_INFORMATION twice within ten seconds. */
  lemma RequestsAreSpaced(inputs: seq<Input>, i: nat, j: nat)
    requires var sent := RunInputs(map[], inputs).sent;
             i < j < |sent| && sent[i].sysid == sent[j].sysid
    ensures RunInputs(map[], inputs).sent[j].at - RunInputs(map[], inputs).sent[i].at >= STALE_AFTER
  {
    RunRecordedAndSpaced(map[], inputs);
  }
}

=== FILE: readouts.dfy ===
/** The per-message status readouts that need no engine state: radio
    margins, GPS fix and heading, EKF variances, power rails, navigation
    errors, wind, attitude and parameter progress (mavproxy_console.py,
    `handle_radio_status` to `handle_param_value`). */
module Readouts {
  import opened Base
  import opened Numerals
  import opened Status

  // ---------------------------------------------------------------- radio

  datatype Radio = Radio(rssi: nat, noise: nat, remrssi: nat, remnoise: nat)

  /** A link is red when either end's signal is less than 10 above its noise. */
  function RadioColour(m: Radio): (c: Colour)
    ensures c == Red <==> m.rssi < m.noise + 10 || m.remrssi < m.remnoise + 10
    ensures c == Red || c == Black
  {
    if m.rssi < m.noise + 10 || m.remrssi < m.remnoise + 10 then Red else Black
  }

  /** More signal at either end never turns a healthy radio red. */
  lemma RadioColourMonotone(m: Radio, m': Radio)
    requires m'.noise == m.noise && m'.remnoise == m.remnoise
    requires m'.rssi >= m.rssi && m'.remrssi >= m.remrssi
    ensures RadioColour(m) == Black ==> RadioColour(m') == Black
  {
  }

  /** `handle_radio_status`, for RADIO and RADIO_STATUS from any system. */
  function HandleRadioStatus(m: Radio): (e: Event)
    ensures e.SetStatus? && e.key == "Radio" && e.shown.Plain? && |e.shown.text| > 6 && e.shown.text[..6] == "Radio "
    ensures e.fg == Red <==> m.rssi < m.noise + 10 || m.remrssi < m.remnoise + 10
    ensures e.fg == Black <==> m.rssi >= m.noise + 10 && m.remrssi >= m.remnoise + 10
  {
    Set("Radio", Plain("Radio " + NatToString(m.rssi) + "/" + NatToString(m.noise) + " " +
                       NatToString(m.remrssi) + "/" + NatToString(m.remnoise)), RadioColour(m))
  }

  // ---------------------------------------------------------------- GPS

  /** GPS_RAW_INT (`second` false) or GPS2_RAW (`second` true). */
  datatype GpsRaw = GpsRaw(second: bool, fixType: nat, satellites: nat, cog: nat)

  /** The unknown-heading value of GLOBAL_POSITION_INT.hdg. */
  const HEADING_UNKNOWN: nat := 65535

  /** A 3D fix or better is green, anything less red. */
  function GpsFixColour(fixType: nat): (c: Colour)
    ensures c == Green <==> fixType >= 3
    ensures c == Green || c == Red
  {
    if fixType >= 3 then Green else Red
  }

  function GpsFixField(m: GpsRaw): (e: Event)
    ensures e.SetStatus? && e.fg == GpsFixColour(m.fixType)
    ensures e.key == if m.second then "GPS2" else "GPS"
  {
    var field := if m.second then "GPS2" else "GPS";
    var prefix := if m.second then "GPS2" else "GPS:";
    if m.fixType >= 3 then
      Set(field, Plain(prefix + " OK" + NatToString(m.fixType) + " (" + NatToString(m.satellites) + ")"), Green)
    else
      Set(field, Plain(prefix + " " + NatToString(m.fixType) + " (" + NatToString(m.satellites) + ")"), Red)
  }

  /** The vehicle heading shown beside the GPS course: VFR_HUD's heading when
      one has arrived, otherwise GLOBAL_POSITION_INT's (centidegrees, with
      65535 meaning unknown). */
  function FusedHeading(vfrHeading: Option<int>, globalHdg: Option<nat>): (r: Option<int>)
    ensures vfrHeading.Some? ==> r == vfrHeading
    ensures vfrHeading.None? && globalHdg.Some? && globalHdg.value != HEADING_UNKNOWN ==> r == Some(globalHdg.value / 100)
    ensures vfrHeading.None? && (globalHdg.None? || globalHdg.value == HEADING_UNKNOWN) ==> r.None?
  {
    if vfrHeading.Some? then vfrHeading
    else match globalHdg
      case None => None
      case Some(h) => if h == HEADING_UNKNOWN then None else Some(h / 100)
  }

  /** A valid GLOBAL_POSITION_INT heading (0 to 35999 centidegrees) falls
      back to a whole-degree heading below 360; the sentinel never does. */
  lemma FallbackHeadingInRange(h: nat)
    ensures h < 36000 ==> FusedHeading(None, Some(h)) == Some(h / 100) && 0 <= h / 100 < 360
    ensures FusedHeading(None, Some(HEADING_UNKNOWN)) == None
  {
  }

  /** The Heading field of GPS_RAW_INT: fused heading (or "---") over the GPS
      course in whole degrees, each right-aligned to width three. */
  function HeadingField(vfrHeading: Option<int>, globalHdg: Option<nat>, cog: nat): (e: Event)
    ensures e.SetStatus? && e.key == "Heading" && e.shown.Plain?
    ensures |e.shown.text| >= 4 && e.shown.text[..4] == "Hdg "
  {
    var h := FusedHeading(vfrHeading, globalHdg);
    var shown := if h.None? then "---" else PadLeft3(IntToString(h.value));
    Set("Heading", Plain("Hdg " + shown + "/" + PadLeft3(NatToString(cog / 100))), Default)
  }

  /** `handle_gps_raw`: the fix field, and for GPS_RAW_INT also the heading. */
  function HandleGpsRaw(m: GpsRaw, vfrHeading: Option<int>, globalHdg: Option<nat>): (r: seq<Event>)
    ensures |r| == (if m.second then 1 else 2)
    ensures r[0] == GpsFixField(m)
    ensures !m.second ==> r[1].SetStatus? && r[1].key == "Heading"
  {
    if m.second then [GpsFixField(m)]
    else [GpsFixField(m), HeadingField(vfrHeading, globalHdg, m.cog)]
  }

  // ---------------------------------------------------------------- EKF

  datatype EkfStatusReport = EkfStatusReport(velocity: real, posHoriz: real, posVert: real, compass: real, terrainAlt: real)

  function Variances(m: EkfStatusReport): seq<real> {
    [m.velocity, m.posHoriz, m.posVert, m.compass, m.terrainAlt]
  }

  /** The largest of the variances, and never below 0 (the loop starts at 0.0). */
  function Highest(vs: seq<real>): (r: real)
    ensures r >= 0.0
    ensures forall i :: 0 <= i < |vs| ==> vs[i] <= r
    ensures r == 0.0 || exists i :: 0 <= i < |vs| && vs[i] == r
  {
    if |vs| == 0 then 0.0
    else
      var h := Highest(vs[..|vs| - 1]);
      assert forall i :: 0 <= i < |vs| - 1 ==> vs[..|vs| - 1][i] == vs[i];
      Max(vs[|vs| - 1], h)
  }

  /** Red when some variance reaches 1, orange when some reaches 0.5,
      green when all are below 0.5. */
  function EkfColour(vs: seq<real>): (c: Colour)
    ensures c == Red <==> exists i :: 0 <= i < |vs| && vs[i] >= 1.0
    ensures c == Orange <==> (forall i :: 0 <= i < |vs| ==> vs[i] < 1.0) && exists i :: 0 <= i < |vs| && vs[i] >= 0.5
    ensures c == Green <==> forall i :: 0 <= i < |vs| ==> vs[i] < 0.5
  {
    var highest := Highest(vs);
    if highest >= 1.0 then Red
    else if highest >= 0.5 then Orange
    else Green
  }

  /** `handle_ekf_status_report`. */
  function HandleEkfStatusReport(m: EkfStatusReport): (e: Event)
    ensures e.SetStatus? && e.key == "EKF"
    ensures e.fg == Red <==> m.velocity >= 1.0 || m.posHoriz >= 1.0 || m.posVert >= 1.0 || m.compass >= 1.0 || m.terrainAlt >= 1.0
    ensures e.fg == Green <==> m.velocity < 0.5 && m.posHoriz < 0.5 && m.posVert < 0.5 && m.compass < 0.5 && m.terrainAlt < 0.5
    ensures e.fg in {Red, Orange, Green}
  {
    var vs := Variances(m);
    assert vs[0] == m.velocity && vs[1] == m.posHoriz && vs[2] == m.posVert && vs[3] == m.compass && vs[4] == m.terrainAlt;
    Set("EKF", Plain("EKF"), EkfColour(vs))
  }

  // ---------------------------------------------------------------- power

  // MAV_POWER_STATUS flags from the MAVLink common message set.
  const MAV_POWER_STATUS_BRICK_VALID: bv16 := 0x01
  const MAV_POWER_STATUS_SERVO_VALID: bv16 := 0x02
  const MAV_POWER_STATUS_USB_CONNECTED: bv16 := 0x04
  const MAV_POWER_STATUS_PERIPH_OVERCURRENT: bv16 := 0x08
  const MAV_POWER_STATUS_PERIPH_HIPOWER_OVERCURRENT: bv16 := 0x10
  const MAV_POWER_STATUS_CHANGED: bv16 := 0x20

  /** The flags the PWR letter string shows. */
  const PowerLetterFlags: bv16 := 0x1F

  datatype PowerStatus = PowerStatus(vcc: nat, vservo: nat, flags: bv16)

  /** A board supply between 4.6 V and 5.3 V inclusive is green. */
  function VccColour(vcc: nat): (c: Colour)
    ensures c == Green <==> 4600 <= vcc <= 5300
    ensures c == Green || c == Red
  {
    if vcc >= 4600 && vcc <= 5300 then Green else Red
  }

  /** `token` when `present`, nothing otherwise. */
  function Opt(present: bool, token: string): string {
    if present then token else ""
  }

  /** "PWR:" followed by U, B, S, O1, O2 for the USB, brick, servo,
      peripheral-overcurrent and high-power-overcurrent flags that are set. */
  function PowerLetters(flags: bv16): (r: string)
    ensures |r| >= 4 && r[..4] == "PWR:"
    ensures ParsePowerLetters(r) == Some(flags & PowerLetterFlags)
  {
    var u, b, v := flags & MAV_POWER_STATUS_USB_CONNECTED != 0, flags & MAV_POWER_STATUS_BRICK_VALID != 0,
                   flags & MAV_POWER_STATUS_SERVO_VALID != 0;
    var o1, o2 := flags & MAV_POWER_STATUS_PERIPH_OVERCURRENT != 0, flags & MAV_POWER_STATUS_PERIPH_HIPOWER_OVERCURRENT != 0;
    ParseLetters(u, b, v, o1, o2);
    PowerBitsRecombine(flags);
    Letters(u, b, v, o1, o2)
  }

  function Letters(u: bool, b: bool, v: bool, o1: bool, o2: bool): string {
    "PWR:" + (Opt(u, "U") + (Opt(b, "B") + (Opt(v, "S") + (Opt(o1, "O1") + Opt(o2, "O2")))))
  }

  /** Removes `token` from the front of `s` if it is there. */
  function Strip(s: string, token: string): (bool, string) {
    if |token| <= |s| && s[..|token|] == token then (true, s[|token|..]) else (false, s)
  }

  function Bit(present: bool, bit: bv16): bv16 {
    if present then bit else 0
  }

  /** Reads a PWR letter string back into the flags it shows. */
  function ParsePowerLetters(s: string): Option<bv16> {
    if |s| < 4 || s[..4] != "PWR:" then None
    else
      var (u, s1) := Strip(s[4..], "U");
      var (b, s2) := Strip(s1, "B");
      var (v, s3) := Strip(s2, "S");
      var (o1, s4) := Strip(s3, "O1");
      var (o2, s5) := Strip(s4, "O2");
      if s5 != "" then None
      else Some(Bit(u, MAV_POWER_STATUS_USB_CONNECTED) | Bit(b, MAV_POWER_STATUS_BRICK_VALID)
                | Bit(v, MAV_POWER_STATUS_SERVO_VALID) | Bit(o1, MAV_POWER_STATUS_PERIPH_OVERCURRENT)
                | Bit(o2, MAV_POWER_STATUS_PERIPH_HIPOWER_OVERCURRENT))
  }

  lemma StripPresent(token: string, rest: string)
    ensures Strip(token + rest, token) == (true, rest)
  {
    assert (token + rest)[..|token|] == token;
    assert (token + rest)[|token|..] == rest;
  }

  lemma StripOptional(present: bool, token: string, rest: string)
    requires !(|token| <= |rest| && rest[..|token|] == token)
    ensures Strip(Opt(present, token) + rest, token) == (present, rest)
  {
    if present {
      StripPresent(token, rest);
    } else {
      assert Opt(present, token) + rest == rest;
    }
  }

  /** Reading a letter string back yields exactly the letters it contains. */
  lemma ParseLetters(u: bool, b: bool, v: bool, o1: bool, o2: bool)
    ensures ParsePowerLetters(Letters(u, b, v, o1, o2))
            == Some(Bit(u, MAV_POWER_STATUS_USB_CONNECTED) | Bit(b, MAV_POWER_STATUS_BRICK_VALID)
                    | Bit(v, MAV_POWER_STATUS_SERVO_VALID) | Bit(o1, MAV_POWER_STATUS_PERIPH_OVERCURRENT)
                    | Bit(o2, MAV_POWER_STATUS_PERIPH_HIPOWER_OVERCURRENT))
  {
    var r4 := Opt(o2, "O2");
    var r3 := Opt(o1, "O1") + r4;
    var r2 := Opt(v, "S") + r3;
    var r1 := Opt(b, "B") + r2;
    var r0 := Opt(u, "U") + r1;
    var s := Letters(u, b, v, o1, o2);
    assert s == "PWR:" + r0;
    assert s[..4] == "PWR:" && s[4..] == r0;
    assert r4 == "" || (r4[0] == 'O' && r4[1] == '2');
    assert r3 == "" || r3[0] == 'O';
    assert r2 == "" || r2[0] == 'S' || r2[0] == 'O';
    assert r1 == "" || r1[0] == 'B' || r1[0] == 'S' || r1[0] == 'O';
    if |r1| >= 1 { assert r1[..1][0] == r1[0]; }
    if |r2| >= 1 { assert r2[..1][0] == r2[0]; }
    if |r3| >= 1 { assert r3[..1][0] == r3[0]; }
    if |r4| >= 2 { assert r4[..2][1] == r4[1]; }
    StripOptional(u, "U", r1);
    StripOptional(b, "B", r2);
    StripOptional(v, "S", r3);
    StripOptional(o1, "O1", r4);
    StripOptional(o2, "O2", "");
    assert r4 + "" == r4;
  }

  lemma PowerBitsRecombine(flags: bv16)
    ensures Bit(flags & MAV_POWER_STATUS_USB_CONNECTED != 0, MAV_POWER_STATUS_USB_CONNECTED)
            | Bit(flags & MAV_POWER_STATUS_BRICK_VALID != 0, MAV_POWER_STATUS_BRICK_VALID)
            | Bit(flags & MAV_POWER_STATUS_SERVO_VALID != 0, MAV_POWER_STATUS_SERVO_VALID)
            | Bit(flags & MAV_POWER_STATUS_PERIPH_OVERCURRENT != 0, MAV_POWER_STATUS_PERIPH_OVERCURRENT)
            | Bit(flags & MAV_POWER_STATUS_PERIPH_HIPOWER_OVERCURRENT != 0, MAV_POWER_STATUS_PERIPH_HIPOWER_OVERCURRENT)
            == flags & PowerLetterFlags
  {
  }

  /** `handle_power_status`: board voltage, PWR letters (red once the power
      flags have changed since boot) and servo rail. */
  function HandlePowerStatus(m: PowerStatus): (r: seq<Event>)
    ensures |r| == 3
    ensures r[0].SetStatus? && r[0].key == "Vcc" && r[0].fg == VccColour(m.vcc)
    ensures r[1] == Set("PWR", Plain(PowerLetters(m.flags)), if m.flags & MAV_POWER_STATUS_CHANGED != 0 then Red else Green)
  {
    [Set("Vcc", Reading("Vcc", [m.vcc as real * 0.001], ""), VccColour(m.vcc)),
     Set("PWR", Plain(PowerLetters(m.flags)), if m.flags & MAV_POWER_STATUS_CHANGED != 0 then Red else Green),
     Set("Srv", Reading("Srv", [m.vservo as real * 0.001], ""), Green)]
  }

  // ---------------------------------------------------------------- navigation

  /** NAV_CONTROLLER_OUTPUT; `altError` is None when the vehicle sends NaN. */
  datatype NavControllerOutput = NavControllerOutput(wpDist: nat, targetBearing: int, altError: Option<real>, aspdError: real)

  /** "(L)" when the error is positive (the vehicle is below the target
      altitude or speed), "(H)" otherwise. */
  function SignLabel(error: real): (s: string)
    ensures s == "(L)" <==> error > 0.0
    ensures s == "(H)" <==> error <= 0.0
  {
    if error > 0.0 then "(L)" else "(H)"
  }

  /** The altitude error with its sign label, or "NaN". */
  function AltErrorShown(altError: Option<real>): (r: Shown)
    ensures altError.None? <==> r == Plain("AltError NaN")
    ensures altError.Some? ==> r.Reading? && r.values == [altError.value] && r.suffix == SignLabel(altError.value)
  {
    match altError
    case None => Plain("AltError NaN")
    case Some(e) => Reading("AltError", [e], SignLabel(e))
  }

  /** `handle_nav_controller_output`. */
  function HandleNavControllerOutput(m: NavControllerOutput): (r: seq<Event>)
    ensures |r| == 4
    ensures r[0] == Set("WPDist", Reading("Distance", [m.wpDist as real], ""), Default)
    ensures r[1] == Set("WPBearing", Plain("Bearing " + IntToString(m.targetBearing)), Default)
    ensures r[2] == Set("AltError", AltErrorShown(m.altError), Default)
    ensures r[3].SetStatus? && r[3].key == "AspdError" && r[3].shown.Reading? && r[3].shown.values == [m.aspdError / 100.0]
    ensures r[3].SetStatus? && r[3].shown.Reading? && r[3].shown.suffix == "(L)" <==> m.aspdError > 0.0
  {
    [Set("WPDist", Reading("Distance", [m.wpDist as real], ""), Default),
     Set("WPBearing", Plain("Bearing " + IntToString(m.targetBearing)), Default),
     Set("AltError", AltErrorShown(m.altError), Default),
     Set("AspdError", Reading("AspdError", [m.aspdError * 0.01], SignLabel(m.aspdError)), Default)]
  }

  // ---------------------------------------------------------------- the rest

  datatype Wind = Wind(direction: real, speed: real)

  /** `handle_wind`: direction (printed as a whole number) and speed. */
  function HandleWind(m: Wind): (e: Event)
    ensures e.SetStatus? && e.key == "Wind" && e.fg == Default
    ensures e.shown.Reading? && e.shown.values == [m.direction, m.speed]
  {
    Set("Wind", Reading("Wind", [m.direction, m.speed], ""), Default)
  }

  datatype Attitude = Attitude(roll: real, pitch: real)

  /** `handle_attitude`: roll and pitch in radians, which the source prints in degrees. */
  function HandleAttitude(m: Attitude): (r: seq<Event>)
    ensures |r| == 2 && r[0].SetStatus? && r[1].SetStatus?
    ensures r[0].key == "Roll" && r[0].shown.Reading? && r[0].shown.values == [m.roll]
    ensures r[1].key == "Pitch" && r[1].shown.Reading? && r[1].shown.values == [m.pitch]
  {
    [Set("Roll", Reading("Roll", [m.roll], ""), Default), Set("Pitch", Reading("Pitch", [m.pitch], ""), Default)]
  }

  /** `handle_param_value`: parameters received over parameters expected,
      as the parameter module counts them. */
  function HandleParamValue(received: nat, total: nat): (e: Event)
    ensures e.SetStatus? && e.key == "Params" && e.shown.Plain?
    ensures var t, n := e.shown.text, |NatToString(received)|;
            |t| > 7 + n && t[..6] == "Param " && t[6 + n] == '/'
            && ParseNat(t[6..6 + n]) == Some(received) && ParseNat(t[7 + n..]) == Some(total)
  {
    var a, b := NatToString(received), NatToString(total);
    var t := "Param " + a + "/" + b;
    assert t[6..6 + |a|] == a && t[7 + |a|..] == b;
    ParseNatToString(received);
    ParseNatToString(total);
    Set("Params", Plain(t), Default)
  }
}

=== FILE: registry.dfy ===
/** The vehicle and component registry: which systems are vehicles, what
    each (system, component) pair is called, and the last HEARTBEAT of each
    pair (mavproxy_console.py, `vehicle_type_string` to
    `handle_gimbal_device_information_anysource`). */
module Registry {
  import opened Base
  import opened Numerals
  import opened Status

  // MAV_TYPE values from the MAVLink common message set.
  const MAV_TYPE_GENERIC: nat := 0
  const MAV_TYPE_FIXED_WING: nat := 1
  const MAV_TYPE_QUADROTOR: nat := 2
  const MAV_TYPE_COAXIAL: nat := 3
  const MAV_TYPE_HELICOPTER: nat := 4
  const MAV_TYPE_ANTENNA_TRACKER: nat := 5
  const MAV_TYPE_GCS: nat := 6
  const MAV_TYPE_AIRSHIP: nat := 7
  const MAV_TYPE_GROUND_ROVER: nat := 10
  const MAV_TYPE_SURFACE_BOAT: nat := 11
  const MAV_TYPE_SUBMARINE: nat := 12
  const MAV_TYPE_HEXAROTOR: nat := 13
  const MAV_TYPE_OCTOROTOR: nat := 14
  const MAV_TYPE_TRICOPTER: nat := 15
  const MAV_TYPE_ONBOARD_CONTROLLER: nat := 18
  const MAV_TYPE_VTOL_DUOROTOR: nat := 19
  const MAV_TYPE_VTOL_QUADROTOR: nat := 20
  const MAV_TYPE_VTOL_TILTROTOR: nat := 21
  const MAV_TYPE_GIMBAL: nat := 26
  const MAV_TYPE_ADSB: nat := 27
  const MAV_TYPE_DODECAROTOR: nat := 29
  const MAV_TYPE_ODID: nat := 34

  const PlaneTypes: set<nat> := {MAV_TYPE_FIXED_WING, MAV_TYPE_VTOL_DUOROTOR, MAV_TYPE_VTOL_QUADROTOR, MAV_TYPE_VTOL_TILTROTOR}
  const CopterTypes: set<nat> := {MAV_TYPE_QUADROTOR, MAV_TYPE_COAXIAL, MAV_TYPE_HEXAROTOR,
                                  MAV_TYPE_OCTOROTOR, MAV_TYPE_TRICOPTER, MAV_TYPE_DODECAROTOR}
  /** The codes the vehicle-type table names. */
  const NamedVehicleTypes: set<nat> := PlaneTypes + CopterTypes +
    {MAV_TYPE_GROUND_ROVER, MAV_TYPE_SURFACE_BOAT, MAV_TYPE_SUBMARINE, MAV_TYPE_HELICOPTER,
     MAV_TYPE_ANTENNA_TRACKER, MAV_TYPE_AIRSHIP, MAV_TYPE_ADSB, MAV_TYPE_ODID}
  const VehicleLabels: set<string> := {"Plane", "Rover", "Boat", "Sub", "Copter", "Heli", "Tracker", "Blimp", "ADSB", "ODID"}
  /** The codes whose component label is a role rather than a vehicle type. */
  const RoleTypes: set<nat> := {MAV_TYPE_GCS, MAV_TYPE_GIMBAL, MAV_TYPE_ONBOARD_CONTROLLER, MAV_TYPE_GENERIC}

  /** The fields of a HEARTBEAT (or HIGH_LATENCY2) the registry reads. */
  datatype Heartbeat = Heartbeat(mavType: nat, autopilot: nat)

  datatype Registry = Registry(
    vehicles: seq<nat>,                          // vehicle_list, in order of discovery
    vehicleNames: map<nat, string>,              // vehicle_name_by_sysid
    componentNames: map<nat, map<nat, string>>,  // component_name[sysid][compid]
    heartbeats: map<(nat, nat), Heartbeat>)      // vehicle_heartbeats

  const Empty := Registry([], map[], map[], map[])

  /** A registry change together with the events it emitted. */
  datatype Registered = Registered(reg: Registry, events: seq<Event>)

  predicate NoDuplicates(s: seq<nat>) {
    forall i, j :: 0 <= i < j < |s| ==> s[i] != s[j]
  }

  /** Every known vehicle is listed once and has a type label. */
  predicate Valid(reg: Registry) {
    NoDuplicates(reg.vehicles) && forall s :: s in reg.vehicles ==> s in reg.vehicleNames
  }

  predicate Labelled(names: map<nat, map<nat, string>>, sysid: nat, compid: nat) {
    sysid in names && compid in names[sysid]
  }

  /** `after` keeps every component label of `before`, unchanged. */
  ghost predicate KeepsLabels(before: map<nat, map<nat, string>>, after: map<nat, map<nat, string>>) {
    forall s, c :: Labelled(before, s, c) ==> Labelled(after, s, c) && after[s][c] == before[s][c]
  }

  /** `vehicle_type_string`: the vehicle class named by a MAV_TYPE code. */
  function VehicleTypeString(t: nat): (r: string)
    ensures t in NamedVehicleTypes <==> r in VehicleLabels
    ensures t in CopterTypes <==> r == "Copter"
    ensures t in PlaneTypes <==> r == "Plane"
  {
    if t in PlaneTypes then "Plane"
    else if t == MAV_TYPE_GROUND_ROVER then "Rover"
    else if t == MAV_TYPE_SURFACE_BOAT then "Boat"
    else if t == MAV_TYPE_SUBMARINE then "Sub"
    else if t in CopterTypes then "Copter"
    else if t == MAV_TYPE_HELICOPTER then "Heli"
    else if t == MAV_TYPE_ANTENNA_TRACKER then "Tracker"
    else if t == MAV_TYPE_AIRSHIP then "Blimp"
    else if t == MAV_TYPE_ADSB then "ADSB"
    else if t == MAV_TYPE_ODID then "ODID"
    else "UNKNOWN(" + NatToString(t) + ")"
  }

  /** `component_type_string`: a role label for ground stations, gimbals,
      companion computers and generic components, otherwise the vehicle
      type (the source's own ADSB and ODID branches give the same label as
      the vehicle table). */
  function ComponentTypeString(t: nat): (r: string)
    ensures t !in RoleTypes ==> r == VehicleTypeString(t)
    ensures t in RoleTypes ==> r !in VehicleLabels && r != VehicleTypeString(t)
  {
    if t == MAV_TYPE_GCS then "GCS"
    else if t == MAV_TYPE_GIMBAL then "Gimbal"
    else if t == MAV_TYPE_ONBOARD_CONTROLLER then "CC"
    else if t == MAV_TYPE_ADSB then "ADSB"
    else if t == MAV_TYPE_ODID then "ODID"
    else if t == MAV_TYPE_GENERIC then "Generic"
    else VehicleTypeString(t)
  }

  /** A code outside the table is labelled so that the code can be read back,
      so two unnamed codes never share a label, and no named class is
      mistaken for one. */
  lemma VehicleTypeStringInjectiveOnUnnamed(a: nat, b: nat)
    requires a !in NamedVehicleTypes
    requires VehicleTypeString(a) == VehicleTypeString(b)
    ensures a == b
  {
    var la := VehicleTypeString(a);
    assert la == "UNKNOWN(" + NatToString(a) + ")";
    assert la !in VehicleLabels;
    assert b !in NamedVehicleTypes;
    assert la == "UNKNOWN(" + NatToString(b) + ")";
    assert NatToString(a) == la[8..|la| - 1];
    assert NatToString(b) == la[8..|la| - 1];
    NatToStringInjective(a, b);
  }

  /** `add_new_vehicle`: every sysid except a ground station's is appended
      (the caller checks it is new) with its type label, and the vehicle menu
      is refreshed. */
  function AddNewVehicle(reg: Registry, sysid: nat, hb: Heartbeat): (r: Registered)
    ensures hb.mavType == MAV_TYPE_GCS ==> r == Registered(reg, [])
    ensures hb.mavType != MAV_TYPE_GCS ==>
              && r.reg.vehicles == reg.vehicles + [sysid]
              && r.reg.vehicleNames == reg.vehicleNames[sysid := VehicleTypeString(hb.mavType)]
              && r.reg.componentNames == reg.componentNames
              && r.reg.heartbeats == reg.heartbeats
              && r.events == [RefreshVehicleMenu]
  {
    if hb.mavType == MAV_TYPE_GCS then Registered(reg, [])
    else
      Registered(reg.(vehicles := reg.vehicles + [sysid],
                      vehicleNames := reg.vehicleNames[sysid := VehicleTypeString(hb.mavType)]),
                 [RefreshVehicleMenu])
  }

  /** `set_component_name`: the first label given to a (sysid, compid) pair
      sticks; only that first assignment refreshes the menu. */
  function SetComponentName(reg: Registry, sysid: nat, compid: nat, name: string): (r: Registered)
    ensures Labelled(r.reg.componentNames, sysid, compid)
    ensures KeepsLabels(reg.componentNames, r.reg.componentNames)
    ensures !Labelled(reg.componentNames, sysid, compid) ==>
              r.reg.componentNames[sysid][compid] == name && r.events == [RefreshVehicleMenu]
    ensures Labelled(reg.componentNames, sysid, compid) ==> r.events == []
    ensures forall s, c :: Labelled(r.reg.componentNames, s, c) ==>
              Labelled(reg.componentNames, s, c) || (s == sysid && c == compid)
    ensures r.reg.componentNames.Keys == reg.componentNames.Keys + {sysid}
    ensures r.reg.vehicles == reg.vehicles && r.reg.vehicleNames == reg.vehicleNames
    ensures r.reg.heartbeats == reg.heartbeats
  {
    var inner := if sysid in reg.componentNames then reg.componentNames[sysid] else map[];
    if compid !in inner then
      Registered(reg.(componentNames := reg.componentNames[sysid := inner[compid := name]]), [RefreshVehicleMenu])
    else
      Registered(reg.(componentNames := reg.componentNames[sysid := inner]), [])
  }

  /** `handle_heartbeat_anysource`, for a HEARTBEAT (`isHeartbeat`) or a
      HIGH_LATENCY2 from any system. */
  function HandleHeartbeatAnysource(reg: Registry, sysid: nat, compid: nat, isHeartbeat: bool, hb: Heartbeat): (r: Registered)
    requires Valid(reg)
    ensures Valid(r.reg)
    ensures r.reg.heartbeats == if isHeartbeat then reg.heartbeats[(sysid, compid) := hb] else reg.heartbeats
    ensures hb.mavType == MAV_TYPE_GCS || sysid in reg.vehicles ==>
              r.reg.vehicles == reg.vehicles && r.reg.vehicleNames == reg.vehicleNames
    ensures hb.mavType != MAV_TYPE_GCS && sysid !in reg.vehicles ==>
              r.reg.vehicles == reg.vehicles + [sysid] && r.reg.vehicleNames[sysid] == VehicleTypeString(hb.mavType)
    ensures KeepsLabels(reg.componentNames, r.reg.componentNames)
    ensures Labelled(r.reg.componentNames, sysid, compid)
    ensures !Labelled(reg.componentNames, sysid, compid) ==>
              r.reg.componentNames[sysid][compid] == ComponentTypeString(hb.mavType)
    ensures forall s, c :: Labelled(r.reg.componentNames, s, c) ==>
              Labelled(reg.componentNames, s, c) || (s == sysid && c == compid)
    ensures Refreshes(r.events) ==
              (if hb.mavType != MAV_TYPE_GCS && sysid !in reg.vehicles then 1 else 0) +
              (if Labelled(reg.componentNames, sysid, compid) then 0 else 1)
    ensures forall k :: 0 <= k < |r.events| ==> r.events[k] == RefreshVehicleMenu
  {
    var reg1 := if isHeartbeat then reg.(heartbeats := reg.heartbeats[(sysid, compid) := hb]) else reg;
    var added := if sysid !in reg1.vehicles then AddNewVehicle(reg1, sysid, hb) else Registered(reg1, []);
    var named := SetComponentName(added.reg, sysid, compid, ComponentTypeString(hb.mavType));
    RefreshesAppend(added.events, named.events);
    Registered(named.reg, added.events + named.events)
  }

  /** `handle_gimbal_device_information_anysource`: a gimbal is labelled
      "vendor-model" unless its pair already has a label. */
  function HandleGimbalDeviceInformation(reg: Registry, sysid: nat, compid: nat, vendor: string, model: string): (r: Registered)
    requires Valid(reg)
    ensures Valid(r.reg)
    ensures KeepsLabels(reg.componentNames, r.reg.componentNames)
    ensures Labelled(r.reg.componentNames, sysid, compid)
    ensures !Labelled(reg.componentNames, sysid, compid) ==>
              r.reg.componentNames[sysid][compid] == vendor + "-" + model && r.events == [RefreshVehicleMenu]
    ensures Labelled(reg.componentNames, sysid, compid) ==> r.events == []
  {
    SetComponentName(reg, sysid, compid, vendor + "-" + model)
  }

  /** One heartbeat seen from (sysid, compid). */
  datatype Sighting = Sighting(sysid: nat, compid: nat, hb: Heartbeat)

  /** The registry after a sequence of HEARTBEATs, in order. */
  function Run(reg: Registry, hbs: seq<Sighting>): (r: Registry)
    requires Valid(reg)
    ensures Valid(r)
    decreases |hbs|
  {
    if |hbs| == 0 then reg
    else Run(HandleHeartbeatAnysource(reg, hbs[0].sysid, hbs[0].compid, true, hbs[0].hb).reg, hbs[1..])
  }

  lemma {:induction false} RunKeepsLabels(reg: Registry, hbs: seq<Sighting>)
    requires Valid(reg)
    ensures KeepsLabels(reg.componentNames, Run(reg, hbs).componentNames)
    decreases |hbs|
  {
    if |hbs| > 0 {
      var next := HandleHeartbeatAnysource(reg, hbs[0].sysid, hbs[0].compid, true, hbs[0].hb).reg;
      RunKeepsLabels(next, hbs[1..]);
    }
  }

  /** Over any sequence of heartbeats, a pair that had no label is labelled
      from its first heartbeat, and later heartbeats (whatever type they
      report) never replace that label. */
  lemma {:induction false} FirstSightingNamesComponent(reg: Registry, hbs: seq<Sighting>, k: nat)
    requires Valid(reg)
    requires k < |hbs|
    requires !Labelled(reg.componentNames, hbs[k].sysid, hbs[k].compid)
    requires forall j :: 0 <= j < k ==> hbs[j].sysid != hbs[k].sysid || hbs[j].compid != hbs[k].compid
    ensures Labelled(Run(reg, hbs).componentNames, hbs[k].sysid, hbs[k].compid)
    ensures Run(reg, hbs).componentNames[hbs[k].sysid][hbs[k].compid] == ComponentTypeString(hbs[k].hb.mavType)
    decreases |hbs|
  {
    var s, c := hbs[k].sysid, hbs[k].compid;
    var next := HandleHeartbeatAnysource(reg, hbs[0].sysid, hbs[0].compid, true, hbs[0].hb).reg;
    assert Run(reg, hbs) == Run(next, hbs[1..]);
    if k == 0 {
      assert Labelled(next.componentNames, s, c);
      assert next.componentNames[s][c] == ComponentTypeString(hbs[k].hb.mavType);
      RunKeepsLabels(next, hbs[1..]);
    } else {
      assert !Labelled(next.componentNames, s, c);
      assert hbs[1..][k - 1] == hbs[k];
      forall j | 0 <= j < k - 1
        ensures hbs[1..][j].sysid != s || hbs[1..][j].compid != c
      {
        assert hbs[1..][j] == hbs[j + 1];
      }
      FirstSightingNamesComponent(next, hbs[1..], k - 1);
    }
  }

  /** A system that only ever reports itself as a ground station is never
      listed as a vehicle. */
  lemma {:induction false} GroundStationsNeverListed(reg: Registry, hbs: seq<Sighting>, sysid: nat)
    requires Valid(reg)
    requires sysid !in reg.vehicles
    requires forall j :: 0 <= j < |hbs| && hbs[j].sysid == sysid ==> hbs[j].hb.mavType == MAV_TYPE_GCS
    ensures sysid !in Run(reg, hbs).vehicles
    decreases |hbs|
  {
    if |hbs| > 0 {
      var next := HandleHeartbeatAnysource(reg, hbs[0].sysid, hbs[0].compid, true, hbs[0].hb).reg;
      assert sysid !in next.vehicles;
      GroundStationsNeverListed(next, hbs[1..], sysid);
    }
  }
}

=== FILE: status.dfy ===
/** What the engine emits: status-field upserts and spoken announcements for
    the console, menu refresh requests, and outbound MAVLink commands. The
    rendering surface that consumes them is not part of this model. */
module Status {
  import opened Base

  /** Foreground colours passed to `set_status`; `Default` is a call without `fg`,
      `Green` is the module's `(0, 128, 0)` tuple and `DarkGreen` the named
      colour 'dark green'. */
  datatype Colour = Default | Black | Grey | Red | Green | Yellow | Orange | Blue | DarkGreen

  /** The text of a status field. Integers are rendered exactly; readings that
      the source prints with float formatting and unit helpers are carried as
      their raw values. */
  datatype Shown =
    | Plain(text: string)
    | Reading(prefix: string, values: seq<real>, suffix: string)
    | Clock(prefix: string, seconds: int)   // "prefix m:ss"
    | LinkLine(name: string, down: bool, received: nat, lost: nat, percent: real, delay: real, notes: seq<string>)

  datatype Event =
    | SetStatus(key: string, shown: Shown, fg: Colour, row: Option<int>)
    | Say(text: string)
    | SayCriticalFailure(errors: nat, sysid: nat, compid: nat)
    | RefreshVehicleMenu

  /** `command_long_send(target_system, target_component, command, confirmation, p1..p7)`;
      only the first two parameters are ever non-zero here. */
  datatype Command = CommandLong(targetSystem: nat, targetComponent: nat, command: nat, param1: nat, param2: nat)

  function Set(key: string, shown: Shown, fg: Colour): Event {
    SetStatus(key, shown, fg, None)
  }

  /** True when some event of `events` updates the status field `key`. */
  predicate Touches(events: seq<Event>, key: string) {
    exists i :: 0 <= i < |events| && events[i].SetStatus? && events[i].key == key
  }

  /** The number of announcements (spoken messages) in `events`. */
  function Announcements(events: seq<Event>): nat {
    if |events| == 0 then 0
    else (if events[0].Say? || events[0].SayCriticalFailure? then 1 else 0) + Announcements(events[1..])
  }

  /** The number of menu refresh requests in `events`. */
  function Refreshes(events: seq<Event>): nat {
    if |events| == 0 then 0
    else (if events[0].RefreshVehicleMenu? then 1 else 0) + Refreshes(events[1..])
  }

  lemma AnnouncementsAppend(a: seq<Event>, b: seq<Event>)
    ensures Announcements(a + b) == Announcements(a) + Announcements(b)
  {
    if |a| > 0 {
      assert (a + b)[1..] == a[1..] + b;
      AnnouncementsAppend(a[1..], b);
    } else {
      assert a + b == b;
    }
  }

  lemma RefreshesAppend(a: seq<Event>, b: seq<Event>)
    ensures Refreshes(a + b) == Refreshes(a) + Refreshes(b)
  {
    if |a| > 0 {
      assert (a + b)[1..] == a[1..] + b;
      RefreshesAppend(a[1..], b);
    } else {
      assert a + b == b;
    }
  }

  /** Status updates alone announce nothing. */
  lemma FieldsAnnounceNothing(events: seq<Event>)
    requires forall e :: e in events ==> e.SetStatus?
    ensures Announcements(events) == 0
  {
    if |events| > 0 {
      assert events[0] in events;
      FieldsAnnounceNothing(events[1..]);
    }
  }

  lemma AnnouncementsAtMostLength(events: seq<Event>)
    ensures Announcements(events) <= |events|
  {
    if |events| > 0 {
      AnnouncementsAtMostLength(events[1..]);
    }
  }
}

=== FILE: user_items.dfy ===
/** User-added console fields (mavproxy_console.py, `DisplayItem`,
    `cmd_console`, `update_user_added_keys`): a field is added with an id, a
    format and an expression over received messages, and is refreshed
    whenever a message of a type the expression names arrives. Evaluating an
    expression and applying the format are done by a library outside this
    model; they enter as a function parameter. */
module UserItems {
  import opened Base
  import opened Numerals
  import opened Status

  // ---------------------------------------------------------------- quoting

  predicate IsQuote(c: char) {
    c == '"' || c == '\''
  }

  function DropLeadingQuotes(s: string): (r: string)
    ensures |r| <= |s| && r == s[|s| - |r|..]
    ensures |r| == 0 || !IsQuote(r[0])
    ensures forall k :: 0 <= k < |s| - |r| ==> IsQuote(s[k])
  {
    if |s| > 0 && IsQuote(s[0]) then DropLeadingQuotes(s[1..]) else s
  }

  function DropTrailingQuotes(s: string): (r: string)
    ensures |r| <= |s| && r == s[..|r|]
    ensures |r| == 0 || !IsQuote(r[|r| - 1])
    ensures forall k :: |r| <= k < |s| ==> IsQuote(s[k])
  {
    if |s| > 0 && IsQuote(s[|s| - 1]) then DropTrailingQuotes(s[..|s| - 1]) else s
  }

  /** `t` occurs in `s` as a contiguous piece. */
  predicate Occurs(t: string, s: string) {
    exists i :: 0 <= i <= |s| && t <= s[i..]
  }

  lemma OccursInSuffix(t: string, s: string, n: nat)
    requires n <= |s| && Occurs(t, s[n..])
    ensures Occurs(t, s)
  {
    var i :| 0 <= i <= |s[n..]| && t <= s[n..][i..];
    assert s[n..][i..] == s[n + i..];
  }

  /** `t` is the piece of `s` starting at `i`, and everything of `s` before
      and after that piece is a quote character. */
  predicate QuotedAround(s: string, i: int, t: string) {
    0 <= i <= |s| - |t| && s[i..i + |t|] == t
    && (forall k :: 0 <= k < i ==> IsQuote(s[k]))
    && (forall k :: i + |t| <= k < |s| ==> IsQuote(s[k]))
  }

  lemma StripFramed(s: string, a: string, r: string)
    requires a == DropLeadingQuotes(s) && r == DropTrailingQuotes(a)
    ensures QuotedAround(s, |s| - |a|, r) && Occurs(r, s)
  {
    var i := |s| - |a|;
    assert a == s[i..];
    assert r == a[..|r|];
    assert s[i..i + |r|] == r;
    forall k | i + |r| <= k < |s|
      ensures IsQuote(s[k])
    {
      assert s[k] == a[k - i];
    }
    assert r <= s[i..];
  }

  /** Python's `strip('"\'')`: removes every quote character from both ends,
      and nothing else. */
  function StripQuotes(s: string): (r: string)
    ensures |r| == 0 || (!IsQuote(r[0]) && !IsQuote(r[|r| - 1]))
    ensures exists i :: QuotedAround(s, i, r)
    ensures Occurs(r, s)
  {
    var a := DropLeadingQuotes(s);
    var r := DropTrailingQuotes(a);
    StripFramed(s, a, r);
    r
  }

  /** The stripped string is the only piece of `s` that has no quote at
      either end and nothing but quotes around it. */
  lemma StripQuotesIsTheFramedPiece(s: string, i: int, t: string)
    requires QuotedAround(s, i, t)
    requires |t| == 0 || (!IsQuote(t[0]) && !IsQuote(t[|t| - 1]))
    ensures StripQuotes(s) == t
  {
    var r := StripQuotes(s);
    var j :| QuotedAround(s, j, r);
    if |r| > 0 {
      assert s[j] == r[0];
    }
    if |t| > 0 {
      assert s[i] == t[0];
    }
    if |t| > 0 && |r| > 0 {
      assert i == j;
      assert s[i + |t| - 1] == t[|t| - 1] && s[j + |r| - 1] == r[|r| - 1];
    }
  }

  /** Stripping what has been stripped changes nothing. */
  lemma StripQuotesIdempotent(s: string)
    ensures StripQuotes(StripQuotes(s)) == StripQuotes(s)
  {
  }

  /** A string with no quote at either end is kept as it is. */
  lemma StripQuotesKeepsUnquoted(s: string)
    requires |s| == 0 || (!IsQuote(s[0]) && !IsQuote(s[|s| - 1]))
    ensures StripQuotes(s) == s
  {
  }

  // ---------------------------------------------------------------- message-type names

  /** The first and the later characters of `[A-Z_][A-Z0-9_]+`. */
  predicate IsHead(c: char) {
    'A' <= c <= 'Z' || c == '_'
  }

  predicate IsTail(c: char) {
    IsHead(c) || '0' <= c <= '9'
  }

  /** A word the pattern `[A-Z_][A-Z0-9_]+` matches in full. */
  predicate IsName(t: string) {
    |t| >= 2 && IsHead(t[0]) && forall k :: 1 <= k < |t| ==> IsTail(t[k])
  }

  /** The end of the run of tail characters starting at `i`. */
  function TailRun(s: string, i: nat): (j: nat)
    requires i <= |s|
    ensures i <= j <= |s|
    ensures forall k :: i <= k < j ==> IsTail(s[k])
    ensures j == |s| || !IsTail(s[j])
    decreases |s| - i
  {
    if i < |s| && IsTail(s[i]) then TailRun(s, i + 1) else i
  }

  /** `re.findall('[A-Z_][A-Z0-9_]+', s)`: leftmost, longest, non-overlapping. */
  function Scan(s: string): (r: seq<string>)
    ensures forall t :: t in r ==> IsName(t) && Occurs(t, s)
    decreases |s|
  {
    if |s| < 2 then []
    else if IsHead(s[0]) && IsTail(s[1]) then
      var n := TailRun(s, 1);
      var rest := Scan(s[n..]);
      assert forall t :: t in rest ==> Occurs(t, s) by {
        forall t | t in rest
          ensures Occurs(t, s)
        {
          OccursInSuffix(t, s, n);
        }
      }
      assert s[..n] <= s[0..];
      [s[..n]] + rest
    else
      var rest := Scan(s[1..]);
      assert forall t :: t in rest ==> Occurs(t, s) by {
        forall t | t in rest
          ensures Occurs(t, s)
        {
          OccursInSuffix(t, s, 1);
        }
      }
      rest
  }

  /** A whole name scans as itself. */
  lemma ScanName(t: string)
    requires IsName(t)
    ensures Scan(t) == [t]
  {
    assert IsHead(t[0]) && IsTail(t[1]);
    assert t[..|t|] == t;
    assert TailRun(t, 1) == |t| by {
      TailRunToEnd(t, 1);
    }
    assert t[|t|..] == [];
  }

  lemma {:induction false} TailRunToEnd(s: string, i: nat)
    requires i <= |s|
    requires forall k :: i <= k < |s| ==> IsTail(s[k])
    ensures TailRun(s, i) == |s|
    decreases |s| - i
  {
    if i < |s| {
      TailRunToEnd(s, i + 1);
    }
  }

  /** A run of tail characters stops at a separator, so extending the string
      past a separator does not change a run inside the first part. */
  lemma {:induction false} TailRunStopsAtSeparator(a: string, c: char, b: string, i: nat)
    requires i <= |a| && !IsTail(c)
    ensures TailRun(a + [c] + b, i) == TailRun(a, i)
    decreases |a| - i
  {
    var s := a + [c] + b;
    if i < |a| {
      assert s[i] == a[i];
      if IsTail(a[i]) {
        TailRunStopsAtSeparator(a, c, b, i + 1);
      }
    } else {
      assert s[i] == c;
    }
  }

  /** A character outside the name alphabet separates: the names of
      `a + [c] + b` are those of `a` followed by those of `b`. */
  lemma {:induction false} ScanSeparator(a: string, c: char, b: string)
    requires !IsTail(c)
    ensures Scan(a + [c] + b) == Scan(a) + Scan(b)
    decreases |a|
  {
    var s := a + [c] + b;
    if |a| == 0 {
      assert s == [c] + b;
      assert s[1..] == b;
      if |s| < 2 {
        assert b == [];
      }
    } else if |a| == 1 {
      assert s[1] == c;
      assert s[1..] == [c] + b;
      ScanSeparator([], c, b);
      assert [] + [c] + b == [c] + b;
    } else if IsHead(a[0]) && IsTail(a[1]) {
      assert s[0] == a[0] && s[1] == a[1];
      var n := TailRun(a, 1);
      TailRunStopsAtSeparator(a, c, b, 1);
      assert s[n..] == a[n..] + [c] + b;
      ScanSeparator(a[n..], c, b);
      assert a[..n] == s[..n];
    } else {
      assert s[0] == a[0] && s[1] == a[1];
      assert s[1..] == a[1..] + [c] + b;
      ScanSeparator(a[1..], c, b);
    }
  }

  /** A message-type name followed by a field access, as in
      "VFR_HUD.airspeed", is found as the first name of the expression. */
  lemma FieldAccessNamesType(t: string, rest: string)
    requires IsName(t)
    ensures Scan(t + "." + rest) == [t] + Scan(rest)
  {
    ScanName(t);
    ScanSeparator(t, '.', rest);
    assert t + "." + rest == t + ['.'] + rest;
  }

  // ---------------------------------------------------------------- items

  datatype DisplayItem = DisplayItem(format: string, expression: string, msgTypes: set<string>, row: int)

  /** `DisplayItem(fmt, expression, row)`: quotes are stripped from both
      ends of format and expression, and the item watches every name in the
      expression as a message type. */
  function MakeItem(format: string, expression: string, row: int): (d: DisplayItem)
    ensures d.format == StripQuotes(format) && d.expression == StripQuotes(expression) && d.row == row
    ensures forall t :: t in d.msgTypes <==> t in Scan(expression)
  {
    DisplayItem(StripQuotes(format), StripQuotes(expression), (set t | t in Scan(expression)), row)
  }

  /** `user_added`, a dictionary kept in insertion order. */
  type Items = seq<(string, DisplayItem)>

  predicate UniqueIds(items: Items) {
    forall i, j :: 0 <= i < j < |items| ==> items[i].0 != items[j].0
  }

  function Lookup(items: Items, id: string): (r: Option<DisplayItem>)
    ensures r.None? <==> forall i :: 0 <= i < |items| ==> items[i].0 != id
    ensures r.Some? ==> exists i :: 0 <= i < |items| && items[i] == (id, r.value)
  {
    if |items| == 0 then None
    else if items[0].0 == id then Some(items[0].1)
    else Lookup(items[1..], id)
  }

  lemma LookupCons(x: (string, DisplayItem), rest: Items, id: string)
    ensures Lookup([x] + rest, id) == if x.0 == id then Some(x.1) else Lookup(rest, id)
  {
    assert ([x] + rest)[1..] == rest;
  }

  lemma UniqueCons(x: (string, DisplayItem), rest: Items)
    ensures UniqueIds([x] + rest) <==> UniqueIds(rest) && Lookup(rest, x.0).None?
  {
    var s := [x] + rest;
    if UniqueIds(rest) && Lookup(rest, x.0).None? {
      forall i, j | 0 <= i < j < |s|
        ensures s[i].0 != s[j].0
      {
        assert s[j] == rest[j - 1];
        if i > 0 {
          assert s[i] == rest[i - 1];
        }
      }
    }
    if UniqueIds(s) {
      forall i, j | 0 <= i < j < |rest|
        ensures rest[i].0 != rest[j].0
      {
        assert s[i + 1] == rest[i] && s[j + 1] == rest[j];
      }
      forall i | 0 <= i < |rest|
        ensures rest[i].0 != x.0
      {
        assert s[0] == x && s[i + 1] == rest[i];
      }
    }
  }

  /** Dictionary assignment: the id now holds the new item and every other
      id keeps its own. */
  function Put(items: Items, id: string, d: DisplayItem): (r: Items)
    ensures Lookup(r, id) == Some(d)
    ensures forall other :: other != id ==> Lookup(r, other) == Lookup(items, other)
  {
    if |items| == 0 then
      LookupCons((id, d), [], id);
      [(id, d)]
    else
      var x, rest := items[0], items[1..];
      assert items == [x] + rest;
      if x.0 == id then
        LookupCons((id, d), rest, id);
        assert forall other :: other != id ==> Lookup([(id, d)] + rest, other) == Lookup(items, other) by {
          forall other | other != id
            ensures Lookup([(id, d)] + rest, other) == Lookup(items, other)
          {
            LookupCons((id, d), rest, other);
            LookupCons(x, rest, other);
          }
        }
        [(id, d)] + rest
      else
        var tail := Put(rest, id, d);
        LookupCons(x, tail, id);
        assert forall other :: other != id ==> Lookup([x] + tail, other) == Lookup(items, other) by {
          forall other | other != id
            ensures Lookup([x] + tail, other) == Lookup(items, other)
          {
            LookupCons(x, tail, other);
            LookupCons(x, rest, other);
          }
        }
        [x] + tail
  }

  /** An existing id keeps its place; a new id goes last; ids stay unique. */
  lemma PutOrder(items: Items, id: string, d: DisplayItem)
    requires UniqueIds(items)
    ensures UniqueIds(Put(items, id, d))
    ensures Lookup(items, id).Some? ==>
      |Put(items, id, d)| == |items| && forall i :: 0 <= i < |items| ==> Put(items, id, d)[i].0 == items[i].0
    ensures Lookup(items, id).None? ==> Put(items, id, d) == items + [(id, d)]
  {
    PutKeepsUnique(items, id, d);
    if Lookup(items, id).Some? {
      PutInPlace(items, id, d);
    } else {
      PutAppends(items, id, d);
    }
  }

  lemma {:induction false} PutKeepsUnique(items: Items, id: string, d: DisplayItem)
    requires UniqueIds(items)
    ensures UniqueIds(Put(items, id, d))
  {
    if |items| == 0 {
      UniqueCons((id, d), []);
      assert [(id, d)] == [(id, d)] + [];
    } else {
      var x, rest := items[0], items[1..];
      assert items == [x] + rest;
      UniqueCons(x, rest);
      if x.0 == id {
        LookupCons(x, rest, id);
        UniqueCons((id, d), rest);
      } else {
        PutKeepsUnique(rest, id, d);
        UniqueCons(x, Put(rest, id, d));
      }
    }
  }

  lemma {:induction false} PutInPlace(items: Items, id: string, d: DisplayItem)
    requires Lookup(items, id).Some?
    ensures |Put(items, id, d)| == |items|
    ensures forall i :: 0 <= i < |items| ==> Put(items, id, d)[i].0 == items[i].0
  {
    var x, rest := items[0], items[1..];
    assert items == [x] + rest;
    if x.0 != id {
      LookupCons(x, rest, id);
      var r, tail := Put(items, id, d), Put(rest, id, d);
      assert r == [x] + tail;
      PutInPlace(rest, id, d);
      forall i | 0 <= i < |items|
        ensures r[i].0 == items[i].0
      {
        if i > 0 {
          assert r[i] == tail[i - 1] && items[i] == rest[i - 1];
        }
      }
    }
  }

  lemma {:induction false} PutAppends(items: Items, id: string, d: DisplayItem)
    requires Lookup(items, id).None?
    ensures Put(items, id, d) == items + [(id, d)]
  {
    if |items| > 0 {
      var x, rest := items[0], items[1..];
      assert items == [x] + rest;
      LookupCons(x, rest, id);
      PutAppends(rest, id, d);
      assert [x] + (rest + [(id, d)]) == items + [(id, d)];
    }
  }

  /** Dictionary `pop`: the id is gone and everything else keeps its order. */
  function Remove(items: Items, id: string): (r: Items)
    requires UniqueIds(items)
    ensures UniqueIds(r)
    ensures Lookup(r, id).None?
    ensures forall other :: other != id ==> Lookup(r, other) == Lookup(items, other)
    ensures Lookup(items, id).None? ==> r == items
  {
    if |items| == 0 then []
    else
      var x, rest := items[0], items[1..];
      assert items == [x] + rest;
      UniqueCons(x, rest);
      if x.0 == id then
        assert forall other :: other != id ==> Lookup(rest, other) == Lookup(items, other) by {
          forall other | other != id
            ensures Lookup(rest, other) == Lookup(items, other)
          {
            LookupCons(x, rest, other);
          }
        }
        rest
      else
        var tail := Remove(rest, id);
        LookupCons(x, tail, id);
        LookupCons(x, rest, id);
        UniqueCons(x, tail);
        assert forall other :: other != id ==> Lookup([x] + tail, other) == Lookup(items, other) by {
          forall other | other != id
            ensures Lookup([x] + tail, other) == Lookup(items, other)
          {
            LookupCons(x, tail, other);
            LookupCons(x, rest, other);
          }
        }
        [x] + tail
  }

  /** Adding a field and removing it again leaves the fields as removing it
      alone would. */
  lemma {:induction false} RemoveAfterPut(items: Items, id: string, d: DisplayItem)
    requires UniqueIds(items)
    ensures UniqueIds(Put(items, id, d)) && Remove(Put(items, id, d), id) == Remove(items, id)
  {
    PutOrder(items, id, d);
    if |items| > 0 && items[0].0 != id {
      RemoveAfterPut(items[1..], id, d);
    }
  }

  // ---------------------------------------------------------------- the console command

  /** The outcome of one `console` command: the fields, the status updates,
      whether a usage line was printed, and `completed` false when the row
      argument was not an integer (the source raises). */
  datatype Outcome = Outcome(items: Items, events: seq<Event>, usage: bool, completed: bool)

  /** The row a field goes to unless one is given. */
  const DEFAULT_ROW: int := 4

  /** `cmd_console` for the `add`, `list` and `remove` subcommands (`menu` and
      `set` are handed to other code and change nothing here). */
  function ConsoleCommand(items: Items, args: seq<string>): (r: Outcome)
    requires UniqueIds(items)
    ensures UniqueIds(r.items)
    ensures |args| == 0 ==> r == Outcome(items, [], true, true)
    ensures |args| > 0 && args[0] == "add" ==>
      if |args| < 4 then r == Outcome(items, [], true, true)
      else if |args| > 4 && ParseInt(args[4]).None? then r == Outcome(items, [], false, false)
      else
        var row := if |args| > 4 then ParseInt(args[4]).value else DEFAULT_ROW;
        r.completed && !r.usage
        && Lookup(r.items, args[1]) == Some(MakeItem(args[2], args[3], row))
        && (forall other :: other != args[1] ==> Lookup(r.items, other) == Lookup(items, other))
        && r.events == [SetStatus(args[1], Plain(""), Default, Some(row))]
    ensures |args| > 0 && args[0] == "remove" ==>
      r.completed && r.events == [] && (r.usage <==> |args| < 2)
      && (|args| < 2 ==> r.items == items)
      && (|args| >= 2 ==> Lookup(r.items, args[1]).None?
                          && forall other :: other != args[1] ==> Lookup(r.items, other) == Lookup(items, other))
    ensures |args| > 0 && args[0] in ["list", "menu", "set"] ==> r == Outcome(items, [], false, true)
    ensures |args| > 0 && args[0] !in ["add", "remove", "list", "menu", "set"] ==> r == Outcome(items, [], true, true)
  {
    if |args| == 0 then Outcome(items, [], true, true)
    else if args[0] == "add" then
      if |args| < 4 then Outcome(items, [], true, true)
      else
        var row := if |args| > 4 then ParseInt(args[4]) else Some(DEFAULT_ROW);
        match row
        case None => Outcome(items, [], false, false)
        case Some(n) =>
          PutOrder(items, args[1], MakeItem(args[2], args[3], n));
          Outcome(Put(items, args[1], MakeItem(args[2], args[3], n)), [SetStatus(args[1], Plain(""), Default, Some(n))], false, true)
    else if args[0] == "remove" then
      if |args| < 2 then Outcome(items, [], true, true)
      else Outcome(Remove(items, args[1]), [], false, true)
    else if args[0] in ["list", "menu", "set"] then Outcome(items, [], false, true)
    else Outcome(items, [], true, true)
  }

  /** `console add` followed by `console remove` of the same id leaves the
      fields as a plain `console remove` would. */
  lemma AddThenRemove(items: Items, id: string, format: string, expression: string)
    requires UniqueIds(items)
    ensures var added := ConsoleCommand(items, ["add", id, format, expression]);
            ConsoleCommand(added.items, ["remove", id]).items == ConsoleCommand(items, ["remove", id]).items
  {
    RemoveAfterPut(items, id, MakeItem(format, expression, DEFAULT_ROW));
  }

  /** A row given in decimal is the row the field lands on. */
  lemma AddOnRow(items: Items, id: string, format: string, expression: string, row: int)
    requires UniqueIds(items)
    ensures var r := ConsoleCommand(items, ["add", id, format, expression, IntToString(row)]);
            r.completed && Lookup(r.items, id).Some? && Lookup(r.items, id).value.row == row
  {
    ParseIntToString(row);
  }

  // ---------------------------------------------------------------- refresh

  /** The shown text of one field: the formatted value, or "????" shown twice
      when evaluation or formatting failed (`render` gives None). */
  function Refresh(id: string, d: DisplayItem, render: DisplayItem -> Option<string>): (r: seq<Event>)
    ensures 1 <= |r| <= 2
    ensures forall e :: e in r ==> e.SetStatus? && e.key == id && e.row == Some(d.row)
    ensures render(d).Some? ==> r == [SetStatus(id, Plain(render(d).value), Default, Some(d.row))]
    ensures render(d).None? ==> forall e :: e in r ==> e.shown == Plain("????")
  {
    match render(d)
    case Some(text) => [SetStatus(id, Plain(text), Default, Some(d.row))]
    case None => [SetStatus(id, Plain("????"), Default, Some(d.row)), SetStatus(id, Plain("????"), Default, Some(d.row))]
  }

  predicate Watches(d: DisplayItem, msgType: string) {
    msgType in d.msgTypes
  }

  /** `update_user_added_keys`: after a message of type `msgType`, every field
      whose expression names that type is refreshed, and no other field is
      touched; `RefreshInItemOrder` shows the fields come in insertion order. */
  function UpdateUserAddedKeys(items: Items, msgType: string, render: DisplayItem -> Option<string>): (r: seq<Event>)
    ensures forall k :: 0 <= k < |r| ==> r[k].SetStatus?
    ensures forall e :: e in r ==>
      exists i :: 0 <= i < |items| && Watches(items[i].1, msgType) && e in Refresh(items[i].0, items[i].1, render)
    ensures forall e :: e in r ==>
      e.SetStatus? && exists i :: 0 <= i < |items| && items[i].0 == e.key && Watches(items[i].1, msgType)
    ensures forall i :: 0 <= i < |items| && Watches(items[i].1, msgType) ==> Touches(r, items[i].0)
    ensures Announcements(r) == 0
  {
    if |items| == 0 then []
    else
      var head := if Watches(items[0].1, msgType) then Refresh(items[0].0, items[0].1, render) else [];
      var tail := UpdateUserAddedKeys(items[1..], msgType, render);
      var r := head + tail;
      RefreshContents(items, msgType, render, head, tail);
      RefreshSources(items, msgType, head, tail);
      RefreshCoverage(items, msgType, head, tail);
      FieldsAnnounceNothing(r);
      r
  }

  lemma RefreshContents(items: Items, msgType: string, render: DisplayItem -> Option<string>, head: seq<Event>, tail: seq<Event>)
    requires |items| > 0
    requires head == if Watches(items[0].1, msgType) then Refresh(items[0].0, items[0].1, render) else []
    requires forall e :: e in tail ==>
      exists i :: 0 <= i < |items[1..]| && Watches(items[1..][i].1, msgType) && e in Refresh(items[1..][i].0, items[1..][i].1, render)
    ensures forall e :: e in head + tail ==>
      exists i :: 0 <= i < |items| && Watches(items[i].1, msgType) && e in Refresh(items[i].0, items[i].1, render)
  {
    forall e | e in head + tail
      ensures exists i :: 0 <= i < |items| && Watches(items[i].1, msgType) && e in Refresh(items[i].0, items[i].1, render)
    {
      if e in tail {
        var i :| 0 <= i < |items[1..]| && Watches(items[1..][i].1, msgType) && e in Refresh(items[1..][i].0, items[1..][i].1, render);
        assert items[i + 1] == items[1..][i];
      } else {
        assert e in head;
      }
    }
  }

  lemma RefreshSources(items: Items, msgType: string, head: seq<Event>, tail: seq<Event>)
    requires |items| > 0
    requires forall e :: e in head ==> e.SetStatus? && e.key == items[0].0 && Watches(items[0].1, msgType)
    requires forall e :: e in tail ==>
      e.SetStatus? && exists i :: 0 <= i < |items[1..]| && items[1..][i].0 == e.key && Watches(items[1..][i].1, msgType)
    ensures forall e :: e in head + tail ==>
      e.SetStatus? && exists i :: 0 <= i < |items| && items[i].0 == e.key && Watches(items[i].1, msgType)
  {
    forall e | e in head + tail
      ensures e.SetStatus? && exists i :: 0 <= i < |items| && items[i].0 == e.key && Watches(items[i].1, msgType)
    {
      if e in tail {
        var i :| 0 <= i < |items[1..]| && items[1..][i].0 == e.key && Watches(items[1..][i].1, msgType);
        assert items[i + 1] == items[1..][i];
      }
    }
  }

  lemma RefreshCoverage(items: Items, msgType: string, head: seq<Event>, tail: seq<Event>)
    requires |items| > 0
    requires Watches(items[0].1, msgType) ==> |head| > 0 && head[0].SetStatus? && head[0].key == items[0].0
    requires forall i :: 0 <= i < |items[1..]| && Watches(items[1..][i].1, msgType) ==> Touches(tail, items[1..][i].0)
    ensures forall i :: 0 <= i < |items| && Watches(items[i].1, msgType) ==> Touches(head + tail, items[i].0)
  {
    var r := head + tail;
    forall i | 0 <= i < |items| && Watches(items[i].1, msgType)
      ensures Touches(r, items[i].0)
    {
      if i == 0 {
        assert r[0] == head[0];
      } else {
        assert items[1..][i - 1] == items[i];
        var k :| 0 <= k < |tail| && tail[k].SetStatus? && tail[k].key == items[i].0;
        assert r[|head| + k] == tail[k];
      }
    }
  }

  /** The place of `id` among the item ids; `|items|` when it is absent. */
  function Position(items: Items, id: string): (n: nat)
    ensures n <= |items|
    ensures n < |items| ==> items[n].0 == id && forall k :: 0 <= k < n ==> items[k].0 != id
    ensures n == |items| ==> forall k :: 0 <= k < |items| ==> items[k].0 != id
  {
    if |items| == 0 then 0 else if items[0].0 == id then 0 else 1 + Position(items[1..], id)
  }

  /** The refreshed fields come in insertion order: a later event never
      belongs to an earlier item. */
  lemma {:induction false} RefreshInItemOrder(items: Items, msgType: string, render: DisplayItem -> Option<string>)
    requires UniqueIds(items)
    ensures var r := UpdateUserAddedKeys(items, msgType, render);
            forall a, b :: 0 <= a <= b < |r| ==> Position(items, r[a].key) <= Position(items, r[b].key)
    decreases |items|
  {
    if |items| > 0 {
      var head := FirstRefresh(items, msgType, render);
      var tail := UpdateUserAddedKeys(items[1..], msgType, render);
      RefreshUnfolds(items, msgType, render);
      UniqueTail(items);
      RefreshInItemOrder(items[1..], msgType, render);
      TailPositions(items, msgType, render);
      OrderedJoin(items, head, tail);
    }
  }

  lemma RefreshUnfolds(items: Items, msgType: string, render: DisplayItem -> Option<string>)
    requires |items| > 0
    ensures UpdateUserAddedKeys(items, msgType, render)
            == FirstRefresh(items, msgType, render) + UpdateUserAddedKeys(items[1..], msgType, render)
  {
  }

  /** The fields refreshed for the first item, all keyed by its id. */
  function FirstRefresh(items: Items, msgType: string, render: DisplayItem -> Option<string>): (r: seq<Event>)
    requires |items| > 0
    ensures forall k :: 0 <= k < |r| ==> r[k].SetStatus? && r[k].key == items[0].0
    ensures |r| > 0 <==> Watches(items[0].1, msgType)
  {
    var r := if Watches(items[0].1, msgType) then Refresh(items[0].0, items[0].1, render) else [];
    assert forall k :: 0 <= k < |r| ==> r[k] in r;
    r
  }

  lemma UniqueTail(items: Items)
    requires |items| > 0 && UniqueIds(items)
    ensures UniqueIds(items[1..])
  {
    forall i, j | 0 <= i < j < |items[1..]|
      ensures items[1..][i].0 != items[1..][j].0
    {
      assert items[1..][i] == items[i + 1] && items[1..][j] == items[j + 1];
    }
  }

  /** Past the first item, every refreshed field sits one place further on. */
  lemma TailPositions(items: Items, msgType: string, render: DisplayItem -> Option<string>)
    requires |items| > 0 && UniqueIds(items)
    ensures var tail := UpdateUserAddedKeys(items[1..], msgType, render);
            forall k :: 0 <= k < |tail| ==> Position(items, tail[k].key) == 1 + Position(items[1..], tail[k].key)
  {
    var tail := UpdateUserAddedKeys(items[1..], msgType, render);
    forall k | 0 <= k < |tail|
      ensures Position(items, tail[k].key) == 1 + Position(items[1..], tail[k].key)
    {
      var e := tail[k];
      assert e in tail;
      var i :| 0 <= i < |items[1..]| && items[1..][i].0 == e.key && Watches(items[1..][i].1, msgType);
      assert items[i + 1] == items[1..][i];
    }
  }

  /** The first item's fields, then the rest in order, are in order. */
  lemma OrderedJoin(items: Items, head: seq<Event>, tail: seq<Event>)
    requires |items| > 0
    requires forall k :: 0 <= k < |head| ==> head[k].SetStatus? && head[k].key == items[0].0
    requires forall k :: 0 <= k < |tail| ==> tail[k].SetStatus?
    requires forall k :: 0 <= k < |tail| ==> Position(items, tail[k].key) == 1 + Position(items[1..], tail[k].key)
    requires forall a, b :: 0 <= a <= b < |tail| ==> Position(items[1..], tail[a].key) <= Position(items[1..], tail[b].key)
    ensures var r := head + tail;
            forall a, b :: 0 <= a <= b < |r| ==> Position(items, r[a].key) <= Position(items, r[b].key)
  {
    var r := head + tail;
    forall a, b | 0 <= a <= b < |r|
      ensures Position(items, r[a].key) <= Position(items, r[b].key)
    {
      if |head| <= a {
        assert r[a] == tail[a - |head|] && r[b] == tail[b - |head|];
      }
    }
  }

  /** A message of a type no field names refreshes nothing. */
  lemma UnwatchedTypeIsIgnored(items: Items, msgType: string, render: DisplayItem -> Option<string>)
    requires forall i :: 0 <= i < |items| ==> !Watches(items[i].1, msgType)
    ensures UpdateUserAddedKeys(items, msgType, render) == []
  {
  }
}
